=== FILE: README.md ===
# al-furqan front end: offline stores, sync flushes and page rules

This project is a Dafny model of the logic inside the al-furqan relief-distribution
front end (React). The logic falls into three parts.

**Browser-side stores.** These are the IndexedDB stores the front end keeps:
- the resident cache, with its pending deletes, the admin cache and the statistics slot (`src/db.js`);
- the offline queue of residents and aids (`src/utils/idb.js`);
- the income/expense ledger with its `pendingSync` queue (`src/pages/Dashboard.js`);
- the aid form's own offline store (`src/pages/AidForm.js`).

**Two sync flushes.**
- `syncOfflineData` in `src/App.js` is fail-fast.
- `syncPendingData` in `Dashboard.js` goes on past a failure.

**The rules of the pages.**
- The residents filter chain and its validators, and the offline branches of save and delete.
- The aid registration rule.
- The aid-history filter and its edits to the list.
- The children page: search, Excel import and export, and its edits to the list.

Each IndexedDB object store is a strictly key-sorted list of entries (`Store.ObjectStore`).
- Keys follow IndexedDB's order: numbers before strings, and strings by code point.
- A store may have a key generator; `Store.Contents` gives the store's map view.
- `put`, `add`, `delete`, `clear`, `get` and `getAll` are pure functions on such a store.

Records the pages treat as JavaScript objects are `map<string, Value>` (`Common.Obj`).
- Spread, destructuring and truthiness are written out: `Common.Spread`, `Common.Omit`, `Common.Truthy`.

The server is never called.
- Each HTTP request is represented by its outcome, which the caller passes in as a parameter: a flag, or a sequence of outcomes consumed in request order.
- A sequence that runs out reads as a failed request.
- `navigator.onLine`, `Date.now()` and the user's role, which is decoded from the login token, are parameters too.

Modules:
- `Common`: Option/Result, JavaScript values and objects.
- `Strings`: substring search, ASCII lower-casing, trimming, `parseInt`, the `" - "` split.
- `Seqs`: filter and subsequence.
- `Store`: the object-store model.
- `Records`: the resident and aid records.
- `LocalDb`: `src/db.js`.
- `OfflineStore`: `src/utils/idb.js`.
- `ResidentSync`: `App.js`.
- `Ledger`: `Dashboard.js`.
- `ResidentsList`, `AidForm`, `AidHistory`, `ChildrenRecord`: the pages of the same names.

## Model

| member | source | states |
|---|---|---|
| Store.ResolveKey | frontend/al-furqan-frontend/src/utils/idb.js:9-20 | An explicit key is used as given. Without one, a store with a key generator yields a numeric key not yet in the store, and a store without one refuses the write. |
| Store.Put | frontend/al-furqan-frontend/src/db.js:55-60 | `put` inserts or overwrites: the store's map gains exactly the written key with the new value, and it fails only when there is neither a key nor a generator. |
| Store.Add | frontend/al-furqan-frontend/src/db.js:41-46 | `add` is insert-only: it fails exactly when the explicit key is already present (or no key can be had); on success the key was absent and is now bound to the value. |
| Store.Delete | frontend/al-furqan-frontend/src/db.js:63-68 | `delete(key)` removes exactly that key; every other record is unchanged. |
| Store.Clear | frontend/al-furqan-frontend/src/utils/idb.js:41-44 | `clear` empties the store and keeps its key generator where it was. |
| Store.Get | frontend/al-furqan-frontend/src/db.js:118-121 | `get(key)` finds a record exactly when the key is stored, and returns that record. |
| Store.GetAll | frontend/al-furqan-frontend/src/db.js:49-52 | `getAll` lists every stored record once, with strictly increasing keys, and nothing else. |
| Store.GetAllValues | frontend/al-furqan-frontend/src/utils/idb.js:31-34 | The values `getAll` returns: one per stored key, in key order, each the value stored under that key. |
| Store.SortedKeyCount | frontend/al-furqan-frontend/src/db.js:49-52 | A key-sorted entry list holds no key twice: it has as many distinct keys as entries. |
| Store.PutTwiceKeepsLatest | frontend/al-furqan-frontend/src/db.js:55-60 | Two `put`s under the same key leave the map the second alone would leave: the later value wins. |
| Store.PutIdempotent | frontend/al-furqan-frontend/src/db.js:55-60 | Repeating a `put` of the same record under the same key changes nothing. |
| Records.PutResident | frontend/al-furqan-frontend/src/db.js:55-60 | A resident `put` by key path `id`: stored under its own id, or under a fresh generated key that is written back into the record. |
| Records.AddResidentTo | frontend/al-furqan-frontend/src/db.js:41-46 | A resident `add`: fails exactly when its id is already stored; otherwise a new key holds the record with that key as its id. |
| Records.PutAid | frontend/al-furqan-frontend/src/utils/idb.js:49-52 | An aid `put` by key path `id`, with the same overwrite-or-generate behaviour as residents. |
| Records.AddAidTo | frontend/al-furqan-frontend/src/pages/AidForm.js:12-21 | An aid `add` into an auto-increment store: refused only for an id already present; otherwise the aid is stored under a new key. |
| LocalDb.Init | frontend/al-furqan-frontend/src/db.js:12-36 | The upgrade creates the four stores empty: residents, pending deletes, admins, statistics. |
| LocalDb.AddResident | frontend/al-furqan-frontend/src/db.js:41-46 | `addResident` is insert-only: it fails exactly for an id already cached, otherwise stores the resident under a fresh key, and touches no other store. |
| LocalDb.GetAllResidents | frontend/al-furqan-frontend/src/db.js:49-52 | `getAllResidents` returns the cached residents, one per key, in key order. |
| LocalDb.UpdateResident | frontend/al-furqan-frontend/src/db.js:55-60 | `updateResident` inserts or overwrites by `id` and touches no other store. |
| LocalDb.UpdateTwiceKeepsLatest | frontend/al-furqan-frontend/src/db.js:55-60 | Two updates of the same id leave one entry, holding the later record. |
| LocalDb.DeleteResident | frontend/al-furqan-frontend/src/db.js:63-68 | `deleteResident(id)` removes exactly that id; every other resident and every other store is unchanged. |
| LocalDb.AddPendingDelete | frontend/al-furqan-frontend/src/db.js:73-78 | `addPendingDelete(id)` records `{id}` under `id` and changes nothing else. |
| LocalDb.AddPendingDeleteIdempotent | frontend/al-furqan-frontend/src/db.js:73-78 | Adding the same pending delete twice is the same as adding it once. |
| LocalDb.GetAllPendingDeletes | frontend/al-furqan-frontend/src/db.js:81-84 | A pending delete `{id}` is listed exactly when `id` is pending, each once. |
| LocalDb.RemovePendingDelete | frontend/al-furqan-frontend/src/db.js:87-92 | `removePendingDelete(id)` removes only that id from the pending set. |
| LocalDb.PutAdmins | frontend/al-furqan-frontend/src/db.js:96-102 | Putting a list of admins that all carry a valid key, in order, overlays them on the store: the result is the old map updated with the list, with later duplicates winning. |
| LocalDb.AdminMapLastWins | frontend/al-furqan-frontend/src/db.js:96-102 | The admins' map has exactly the ids in the list, and each id holds its last occurrence in the list. |
| LocalDb.SaveAdmins | frontend/al-furqan-frontend/src/db.js:96-102 | `saveAdmins` clears the admin cache and then puts the admins in order, up to the first one without a valid key. That put throws a DataError, so the save rejects with it exactly when some admin lacks a key. The cache becomes the map of the admins put before it, which the transaction still commits. The other stores are untouched. |
| LocalDb.SaveAdminsReplacesCache | frontend/al-furqan-frontend/src/db.js:96-102 | After `saveAdmins(list)` no admin from before survives unless its id is among the admins put, and each of those ids is cached with its last record among them. When every admin has a key, that is the whole list. |
| LocalDb.UnkeyedAdminStopsSave | frontend/al-furqan-frontend/src/db.js:96-102 | An admin without a valid key makes `saveAdmins` reject with a DataError, and an id that no earlier admin carries is not cached, even when a later admin carries it. |
| LocalDb.GetLocalAdmins | frontend/al-furqan-frontend/src/db.js:104-107 | `getLocalAdmins` returns the cached admins, one per key, in key order. |
| LocalDb.SaveStatistics | frontend/al-furqan-frontend/src/db.js:111-116 | `saveStatistics` writes the snapshot to the single key `'latest'` and changes nothing else. |
| LocalDb.GetLocalStatistics | frontend/al-furqan-frontend/src/db.js:118-121 | `getLocalStatistics` returns the value under `'latest'`, and nothing when there is none. |
| LocalDb.StatisticsRoundTrip | frontend/al-furqan-frontend/src/db.js:111-121 | Reading the statistics after a save, with any other store changed in between, returns the value saved. |
| LocalDb.SaveStatisticsTwice | frontend/al-furqan-frontend/src/db.js:111-116 | Of two statistics saves, only the later one is kept. |
| OfflineStore.Init | frontend/al-furqan-frontend/src/utils/idb.js:9-20 | The offline database opens with two empty auto-increment stores, residents and aids. |
| OfflineStore.SaveResidentOffline | frontend/al-furqan-frontend/src/utils/idb.js:25-29 | `saveResidentOffline` is a `put` into the residents store: it overwrites by id, or stores a new resident under a fresh key; aids are untouched. |
| OfflineStore.SaveResidentTwiceKeepsLatest | frontend/al-furqan-frontend/src/utils/idb.js:25-29 | Two offline saves of the same resident id keep only the later one. |
| OfflineStore.GetAllOfflineResidents | frontend/al-furqan-frontend/src/utils/idb.js:31-34 | Returns the queued residents, one per key, in key order. |
| OfflineStore.DeleteResidentOffline | frontend/al-furqan-frontend/src/utils/idb.js:36-39 | Removes only that key from the residents store; the aids store is untouched. |
| OfflineStore.SaveThenDeleteResident | frontend/al-furqan-frontend/src/utils/idb.js:25-39 | Saving a resident under a new id and then deleting that id restores the residents queue. |
| OfflineStore.ClearOfflineResidents | frontend/al-furqan-frontend/src/utils/idb.js:41-44 | Empties the residents store and leaves the aids store as it was. |
| OfflineStore.SaveAidOffline | frontend/al-furqan-frontend/src/utils/idb.js:49-52 | `saveAidOffline` inserts or overwrites by `id` in the aids store; residents are untouched. |
| OfflineStore.GetAllOfflineAids | frontend/al-furqan-frontend/src/utils/idb.js:66-69 | Returns the queued aids, one per key, in key order. |
| OfflineStore.UpdateAidOffline | frontend/al-furqan-frontend/src/utils/idb.js:71-74 | `updateAidOffline` also inserts or overwrites by `id` in the aids store. |
| OfflineStore.UpdateQueuedAid | frontend/al-furqan-frontend/src/utils/idb.js:71-74 | Updating an aid already queued replaces it in place: the queue keeps its size and holds the new record under that id. |
| OfflineStore.SaveThenUpdateAid | frontend/al-furqan-frontend/src/utils/idb.js:49-74 | An aid saved without an id gets a key; updating under that key leaves one entry, holding the update. |
| OfflineStore.DeleteAidOffline | frontend/al-furqan-frontend/src/utils/idb.js:76-79 | Removes only that key from the aids store; residents are untouched. |
| OfflineStore.ClearOfflineAids | frontend/al-furqan-frontend/src/utils/idb.js:81-84 | Empties the aids store and leaves the residents store as it was. |
| ResidentSync.DeliveredCount | frontend/al-furqan-frontend/src/App.js:39-53 | The number of residents POSTed in order before the first rejection: every one before it was accepted, and the one at it (if any) was not. |
| ResidentSync.SyncOfflineData | frontend/al-furqan-frontend/src/App.js:34-60 | Offline, or with an empty queue, nothing is sent and nothing shown. Residents are POSTed one at a time in key order. The first failure stops the loop, leaves the queue exactly as it was, and shows one failure notice. The queue is cleared, with one success notice, exactly when every POST succeeded. The aid queue is never touched. |
| ResidentSync.FlushLosesNothing | frontend/al-furqan-frontend/src/App.js:39-57 | After any flush, every queued resident is still queued or was delivered. |
| ResidentSync.FailedFlushResends | frontend/al-furqan-frontend/src/App.js:50-57 | After a failed flush, a later successful flush re-sends every resident, including those already delivered: delivery is at least once. |
| Ledger.InlineKey | frontend/al-furqan-frontend/src/pages/Dashboard.js:13-27 | The key of a record in a key-path store: the value at the path, when that is a valid key; otherwise a fresh generated number, when the store has a generator; otherwise a `DataError`. |
| Ledger.AddObj | frontend/al-furqan-frontend/src/pages/Dashboard.js:63-71 | `store.add` with a key path: it fails exactly when the record's key is invalid or taken. A generated key is written into the stored record. |
| Ledger.Stamped | frontend/al-furqan-frontend/src/pages/Dashboard.js:64 | `{...record, tempId, synced: false}`: the record's own fields survive except those two. |
| Ledger.Marked | frontend/al-furqan-frontend/src/pages/Dashboard.js:69 | The queued marker is the stamped item with `type` overwritten by the kind's tag, and it reads back as that kind. |
| Ledger.SaveLocally | frontend/al-furqan-frontend/src/pages/Dashboard.js:63-82 | Saving fails exactly when the record's own `id` is invalid or already stored. On success, the stamped record is added under a fresh key, its marker is put into `pendingSync` under its `tempId`, and the shown list gains the stamped record at the end. The other kind's store and list are unchanged. |
| Ledger.SaveImportLocally | frontend/al-furqan-frontend/src/pages/Dashboard.js:63-71 | An import is stamped with a `tempId` beginning `imp-` and queued as an `import` marker; the exports are untouched. |
| Ledger.SaveExportLocally | frontend/al-furqan-frontend/src/pages/Dashboard.js:74-82 | An export is stamped with a `tempId` beginning `exp-` and queued as an `export` marker; the imports are untouched. |
| Ledger.SameInstantSharesMarker | frontend/al-furqan-frontend/src/pages/Dashboard.js:64-69 | `pendingSync` is keyed by `tempId`. Two records of one kind saved in the same millisecond are both listed, but the second marker overwrites the first. |
| Ledger.CashImport | frontend/al-furqan-frontend/src/pages/Dashboard.js:160-174 | The submitted import is the form with `type` set to the cash-aid label; every other field is kept. |
| Ledger.Payload | frontend/al-furqan-frontend/src/pages/Dashboard.js:95-113 | The body POSTed is the item without `tempId` and `synced`; every other field is sent unchanged. |
| Ledger.CashLabelNeverSent | frontend/al-furqan-frontend/src/pages/Dashboard.js:64-69 | The marker's `import` tag overwrites the form's cash-aid `type`, so the POSTed body says `type: "import"`. Every other form field reaches the server unchanged. |
| Ledger.ReplaceTemp | frontend/al-furqan-frontend/src/pages/Dashboard.js:105-109 | The list keeps its length; the entries whose `tempId` matches become the server record, and the rest stay. |
| Ledger.ReplaceAbsentTemp | frontend/al-furqan-frontend/src/pages/Dashboard.js:105-109 | When no entry carries the `tempId`, the swap leaves the list as it was. |
| Ledger.ReplaceTempSettles | frontend/al-furqan-frontend/src/pages/Dashboard.js:105-109 | When the server record carries no such `tempId`, no entry carries it after the swap, and swapping again changes nothing. |
| Ledger.Settle | frontend/al-furqan-frontend/src/pages/Dashboard.js:97-109 | After an accepted POST the marker leaves `pendingSync`, and the other kind is untouched. With no key to delete under, the book is unchanged. Otherwise the local copy under `item.id \|\| tempId` is deleted. If the store refuses the server record (its `id` is not a key, or is already stored), the list is unchanged and the records are the rest. If not, the record is added under its `id` or a fresh key, and the list has the temp entries swapped for it. |
| Ledger.SyncItems | frontend/al-furqan-frontend/src/pages/Dashboard.js:91-127 | Over a snapshot of the queue, every import or export marker is POSTed (its payload only), whether or not the markers before it were accepted. `pendingSync` only shrinks: rejected markers stay, accepted ones leave. |
| Ledger.SyncPendingData | frontend/al-furqan-frontend/src/pages/Dashboard.js:85-128 | Offline, nothing happens. Otherwise every payload sent lacks `tempId` and `synced`, the queue only loses markers, and a marker of any other type is left in place. |
| Ledger.RejectedItemStaysQueued | frontend/al-furqan-frontend/src/pages/Dashboard.js:91-126 | A marker whose POST is rejected stays queued unchanged, and the loop still POSTs every queued marker: the flush is not fail-fast. |
| Ledger.AcceptedItemLeavesQueue | frontend/al-furqan-frontend/src/pages/Dashboard.js:95-114 | A marker whose POST is accepted is removed from `pendingSync`. |
| Ledger.SyncKeepsUnsettled | frontend/al-furqan-frontend/src/pages/Dashboard.js:88-128 | The run keeps both lists' length, and every entry no accepted marker of that kind names by `tempId` stays as it was. |
| Ledger.SyncSwapsAccepted | frontend/al-furqan-frontend/src/pages/Dashboard.js:88-128 | After the run, the list entry of an accepted marker holds the server's record; it stays as it was only when the store refused that record's `id`. This needs distinct `tempId`s and a record without `tempId`. |
| Ledger.SyncPendingSwapsAccepted | frontend/al-furqan-frontend/src/pages/Dashboard.js:85-128 | The same for the whole flush: the snapshot's markers name distinct `tempId`s, so an accepted marker's entry is swapped for the server's record, unless the store refused its `id`. |
| Ledger.SettleKeepsTempCopy | frontend/al-furqan-frontend/src/pages/Dashboard.js:101-115 | A saved record has no `id` in its marker, so the sync deletes the local copy under the `tempId` string. The copy is stored under its generated number, so it survives the sync: every key stored before settling is still stored. |
| ResidentsList.Stage | frontend/al-furqan-frontend/src/pages/ResidentsList.js:95-125 | A control that is set filters the list by its test; a control that is unset passes the list on unchanged. |
| ResidentsList.ApplyAllFiltersIsShown | frontend/al-furqan-frontend/src/pages/ResidentsList.js:93-127 | The chain of five stages is a single filter by the conjunction of the set controls' tests (`Shown`). |
| ResidentsList.FilteredIsSubsequence | frontend/al-furqan-frontend/src/pages/ResidentsList.js:93-127 | The filtered table is an order-preserving subsequence of the residents. |
| ResidentsList.FilteredMembership | frontend/al-furqan-frontend/src/pages/ResidentsList.js:96-125 | A resident is shown exactly when it passes every set control. The search matches the lower-cased name or the id number; the size is compared by `>`, `<` or `=`, a null size comparing as 0 and a text size as the number it reads as under `>` and `<`; damage and neighbourhood must be equal; the aid flag must match. |
| ResidentsList.NoFiltersShowsAll | frontend/al-furqan-frontend/src/pages/ResidentsList.js:94-127 | With every control unset the table is the residents list itself. |
| ResidentsList.SizeEqualsKeepsExactSize | frontend/al-furqan-frontend/src/pages/ResidentsList.js:103-111 | With operator `=` and a typed number n, exactly the households whose size is the number n are shown; a size stored as text never is. |
| ResidentsList.NullSizeComparesAsZero | frontend/al-furqan-frontend/src/pages/ResidentsList.js:103-111 | A household whose size is null is shown by `<` n for any n above 0, as `null < n` holds. One whose size is missing is not. Neither is shown by `>` or `=`. |
| ResidentsList.TextSizeComparesAsNumber | frontend/al-furqan-frontend/src/pages/ResidentsList.js:103-107 | A household whose size is the text of m is shown by `<` n exactly when m < n, and by `>` n exactly when m > n, since `>` and `<` convert the text to a number. |
| ResidentsList.TextSizeNeverEquals | frontend/al-furqan-frontend/src/pages/ResidentsList.js:103-108 | Once a value is typed, the `=` filter never shows a household whose size is text, since `===` between text and a number is false. |
| ResidentsList.NaNSizeShowsNothing | frontend/al-furqan-frontend/src/pages/ResidentsList.js:103-111 | A size value that `parseInt` reads as NaN empties the table, whatever the operator. |
| ResidentsList.IsInvalidId | frontend/al-furqan-frontend/src/pages/ResidentsList.js:221 | An id is valid exactly when it is present and is nine ASCII digits. |
| ResidentsList.IsInvalidField | frontend/al-furqan-frontend/src/pages/ResidentsList.js:223-227 | A field is invalid when it is missing or null. Text is invalid when it is blank, is `—` once trimmed, or contains `_`. A number or a flag is never invalid. |
| ResidentsList.HandleSave | frontend/al-furqan-frontend/src/pages/ResidentsList.js:152-172 | Online, a rejected PUT changes nothing. Otherwise (online and accepted, or offline) the edited record is put into the cache under its id, and the other stores stay as they were. The record is the form as edited, so a size typed into the dialog's `<input>` is text (lines 132-137, 241-245). |
| ResidentsList.OfflineSaveIsListed | frontend/al-furqan-frontend/src/pages/ResidentsList.js:166-171 | After an offline save, the cache lists the edited record. |
| ResidentsList.OfflineEditedSizeLeavesEquals | frontend/al-furqan-frontend/src/pages/ResidentsList.js:103-171 | A household whose edited size is text and that is saved offline is listed from the cache, but the `=` filter no longer shows it. |
| Strings.TextToNumber | frontend/al-furqan-frontend/src/pages/ResidentsList.js:106-107 | The number a text size converts to under `>` and `<`: blank text is 0, and text that converts at all reads the same under `parseInt`. |
| Strings.TextToNumberOfNatToString | frontend/al-furqan-frontend/src/pages/ResidentsList.js:106-107 | The text of a non-negative integer converts back to that integer. |
| Strings.TextToNumberPadded | frontend/al-furqan-frontend/src/pages/ResidentsList.js:106-107 | White space around the digits does not change the number they convert to. |
| ResidentsList.HandleDelete | frontend/al-furqan-frontend/src/pages/ResidentsList.js:174-193 | Online, a rejected DELETE changes nothing, and an accepted one removes the resident without queuing anything. Offline, the resident is removed and its id is added to the pending deletes. |
| ResidentsList.OfflineDeleteIdempotent | frontend/al-furqan-frontend/src/pages/ResidentsList.js:187-192 | Deleting the same resident offline twice leaves the cache as one delete does. |
| AidForm.FinalAidType | frontend/al-furqan-frontend/src/pages/AidForm.js:58-64 | Cash with an amount becomes the cash label, then `" - "`, then the amount, and splits back to the cash label. "Other" with text becomes that text. Anything else stays as chosen. |
| AidForm.RegisteredProposedIsRecognised | frontend/al-furqan-frontend/src/pages/AidForm.js:56-79 | A proposed type, once composed (cash with its amount suffix included), is recognised as proposed when it is read back from the history. |
| AidForm.ScanAids | frontend/al-furqan-frontend/src/pages/AidForm.js:66-84 | Scanning a resident's aids reports a failure exactly when some aid has no text `aid_type` (where the source's `split` throws). Otherwise it reports a proposed aid exactly when some aid's type, cut at `" - "`, is a proposed type. |
| AidForm.SaveAidForLater | frontend/al-furqan-frontend/src/pages/AidForm.js:12-21 | `saveAidOffline`, with a working `openDB`, adds to the auto-increment `pending-aids` store: refused only for an id already present; otherwise the aid is stored under a fresh key. |
| AidForm.HandleSubmit | frontend/al-furqan-frontend/src/pages/AidForm.js:48-122 | A form missing a field is refused before any lookup or write. The resident id is the value the server gave (`res.id`), tested for truthiness, so an id of `0` counts as missing. A non-admin registering a proposed type is refused exactly when the resident already holds a proposed aid. A failed lookup aborts with nothing stored. Otherwise the composed aid is sent. When the POST fails, the aid is queued offline under a fresh key and not dropped (with a working `openDB`). The queue changes only in that case, and no complete submission is lost. |
| AidForm.HandleSubmitAsWritten | frontend/al-furqan-frontend/src/pages/AidForm.js:7-111 | As written, `openDB` is undefined, so a failed POST makes queueing throw. The aid is lost exactly when the form is complete, the POST fails and the proposed-aid check passes. The queue never changes. |
| AidForm.FailedPostLostAsWritten | frontend/al-furqan-frontend/src/pages/AidForm.js:7-111 | The code as written loses an aid exactly when the working version would queue it. Everywhere else the two agree. |
| AidForm.ZeroResidentIdRefused | frontend/al-furqan-frontend/src/pages/AidForm.js:48-53 | A form whose resident id is the number `0` is refused as missing a field: nothing is sent or queued. |
| AidForm.AdminAidLostAsWritten | frontend/al-furqan-frontend/src/pages/AidForm.js:7-111 | An admin's complete cash aid whose POST fails is queued by the working version and lost as written. |
| AidForm.LookupIgnoredUnlessChecked | frontend/al-furqan-frontend/src/pages/AidForm.js:66 | For admins and for non-proposed types, the lookup's answer has no influence on the submission. |
| AidForm.SecondProposedRefused | frontend/al-furqan-frontend/src/pages/AidForm.js:56-79 | Once a resident's history holds a proposed aid as registered, a non-admin's second proposed aid is refused: nothing is sent or queued. |
| AidForm.OtherLabelSkipsCheck | frontend/al-furqan-frontend/src/pages/AidForm.js:62-66 | Choosing "other" and typing a proposed label skips the check, and the label is recorded as a proposed type. |
| AidHistory.FilterHistory | frontend/al-furqan-frontend/src/pages/AidHistory.js:38-48 | Every shown row passes the name-or-id, type and date tests. |
| AidHistory.FilterHistoryExact | frontend/al-furqan-frontend/src/pages/AidHistory.js:39-46 | The shown rows keep the list's order. A row is shown exactly when it matches on name or id, on type when a type is set, and on date when a date is set. |
| AidHistory.EmptySearchNeedsNameOrId | frontend/al-furqan-frontend/src/pages/AidHistory.js:40-42 | With an empty search, a row is kept only when its household has a name or an id number. |
| AidHistory.TypeFilterNarrows | frontend/al-furqan-frontend/src/pages/AidHistory.js:43 | Setting the type only narrows the rows shown without it, to that type. |
| AidHistory.DeleteAid | frontend/al-furqan-frontend/src/pages/AidHistory.js:72 | No remaining item has the deleted id. |
| AidHistory.DeleteAidExact | frontend/al-furqan-frontend/src/pages/AidHistory.js:72 | The delete removes exactly the items with that id; the rest keep their order. |
| AidHistory.DeleteAbsentId | frontend/al-furqan-frontend/src/pages/AidHistory.js:72 | Deleting an id no item has leaves the list as it was. |
| AidHistory.HandleDelete | frontend/al-furqan-frontend/src/pages/AidHistory.js:65-82 | Without confirmation, or when the DELETE fails, the list is unchanged; otherwise exactly the other items remain. |
| AidHistory.BeginEdit | frontend/al-furqan-frontend/src/pages/AidHistory.js:84-93 | The draft copies id, type and date. The household's name and id number are copied when present, and `""` otherwise. |
| AidHistory.Edited | frontend/al-furqan-frontend/src/pages/AidHistory.js:106-119 | An edited item takes the draft's type, date, name and id number. It keeps its id, its other fields and the household's other fields. |
| AidHistory.SaveEdit | frontend/al-furqan-frontend/src/pages/AidHistory.js:106-119 | Only the items with the draft's id change, and they are edited from the draft; every other item is unchanged, and in place. |
| AidHistory.SaveEditIdempotent | frontend/al-furqan-frontend/src/pages/AidHistory.js:106-119 | Saving the same draft twice gives the list one save gives. |
| AidHistory.UnchangedDraftKeepsList | frontend/al-furqan-frontend/src/pages/AidHistory.js:84-119 | Opening an item for edit and saving it untouched leaves the list as it was, provided ids are distinct and its household has a name and an id number. |
| AidHistory.HandleSaveEdit | frontend/al-furqan-frontend/src/pages/AidHistory.js:95-129 | A failed PUT leaves the list as it was. A successful one keeps every other item, and each item with the draft's id takes the draft's type, date, name and id number, keeping its other fields. |
| AidHistory.AidTypeOptions | frontend/al-furqan-frontend/src/pages/AidHistory.js:169 | The type options hold no duplicates, and a type is offered exactly when some item has it. As a `Set` iterates, they come in order of first appearance. |
| Seqs.DistinctFirstOccurrence | frontend/al-furqan-frontend/src/pages/AidHistory.js:169 | `[...new Set(xs)]` lists each value at its first occurrence: before any occurrence of a later value, every earlier one has occurred. |
| AidHistory.OfferedTypeSelects | frontend/al-furqan-frontend/src/pages/AidHistory.js:169-172 | When every row has a household name or id number, choosing an offered type (with no search or date) shows at least one row. |
| ChildrenRecord.SearchChildren | frontend/al-furqan-frontend/src/pages/ChildrenRecord.js:49-57 | Every child shown matches the filter. |
| ChildrenRecord.SearchChildrenExact | frontend/al-furqan-frontend/src/pages/ChildrenRecord.js:49-57 | The search keeps the order. A child is shown exactly when its lower-cased name contains the lower-cased filter, or its id number contains the filter. |
| ChildrenRecord.ExportRow | frontend/al-furqan-frontend/src/pages/ChildrenRecord.js:61-70 | An export row has exactly the eight import columns, each carrying its child field. A missing or falsy field becomes `""`, and a missing or zero benefit count becomes `0`. |
| ChildrenRecord.ExportRows | frontend/al-furqan-frontend/src/pages/ChildrenRecord.js:60-77 | One row per shown child, in order. |
| ChildrenRecord.RowPayload | frontend/al-furqan-frontend/src/pages/ChildrenRecord.js:127-140 | A complete row is POSTed as the seven child fields taken from their columns, plus `benefit_count` when that column is present. |
| ChildrenRecord.MissingColumnsOf | frontend/al-furqan-frontend/src/pages/ChildrenRecord.js:93-110 | The columns reported missing are exactly the required columns the first row lacks, in the required order. |
| ChildrenRecord.ImportRows | frontend/al-furqan-frontend/src/pages/ChildrenRecord.js:113-147 | Every row is either POSTed or skipped. Every skipped row lacks a required field. The rows added are among those POSTed. |
| ChildrenRecord.ImportSendsCompleteRows | frontend/al-furqan-frontend/src/pages/ChildrenRecord.js:122-146 | Exactly the complete rows are POSTed, in order; benefit count is not required. |
| ChildrenRecord.ImportAddsAccepted | frontend/al-furqan-frontend/src/pages/ChildrenRecord.js:127-146 | A rejected POST does not stop later rows: every POST the server accepts is among the added children, and when every POST is accepted all of them are. |
| ChildrenRecord.HandleImport | frontend/al-furqan-frontend/src/pages/ChildrenRecord.js:80-171 | An empty sheet is refused. A first row missing a required column aborts the import before any POST, and reports exactly those columns. Otherwise the rows are run. |
| ChildrenRecord.ExportThenImportRow | frontend/al-furqan-frontend/src/pages/ChildrenRecord.js:61-137 | A child whose seven fields are set exports to a complete row that imports back to the same fields. |
| ChildrenRecord.ExportThenImport | frontend/al-furqan-frontend/src/pages/ChildrenRecord.js:60-147 | Re-importing an export of such children passes the column check and POSTs every child back with its fields. |
| ChildrenRecord.BeginEditAsWritten | frontend/al-furqan-frontend/src/pages/ChildrenRecord.js:174-186 | The edit draft as written copies the child's fields except `id_number`. |
| ChildrenRecord.BeginEdit | frontend/al-furqan-frontend/src/pages/ChildrenRecord.js:174-186 | The corrected draft copies the child's edited fields including `id_number`, which the dialog shows. |
| ChildrenRecord.SaveEdit | frontend/al-furqan-frontend/src/pages/ChildrenRecord.js:196-198 | Only the children whose `id` matches the draft's are replaced, by the draft; the rest stay in place. |
| ChildrenRecord.HandleSaveEdit | frontend/al-furqan-frontend/src/pages/ChildrenRecord.js:189-208 | A failed PUT leaves the list unchanged. A successful one keeps every other child and replaces each child with the draft's id by the draft. |
| ChildrenRecord.UnchangedEditKeepsList | frontend/al-furqan-frontend/src/pages/ChildrenRecord.js:174-198 | With the corrected draft, opening a child that holds only the dialog's fields and saving it untouched leaves the list as it was, ids being distinct. |
| ChildrenRecord.UnchangedEditKeepsShownFields | frontend/al-furqan-frontend/src/pages/ChildrenRecord.js:174-198 | With the corrected draft and distinct ids, an untouched save of any child keeps every other child and keeps the saved child's dialog fields with their values. Its other fields, such as `created_at`, are dropped. |
| ChildrenRecord.EditAsWrittenLosesIdNumber | frontend/al-furqan-frontend/src/pages/ChildrenRecord.js:174-222 | With the draft as written, saving an untouched child drops its `id_number`. The search by that number then finds nothing. Its delete button now sends the DELETE for an undefined id number. If the server accepts it, the list drops every child without an id number, which here is the whole list. If the server refuses, the list is unchanged. |
| ChildrenRecord.DeleteChild | frontend/al-furqan-frontend/src/pages/ChildrenRecord.js:222 | No remaining child carries the deleted `id_number`. |
| ChildrenRecord.DeleteChildExact | frontend/al-furqan-frontend/src/pages/ChildrenRecord.js:222 | The delete keeps the order and removes exactly the children whose `id_number` equals the argument. |
| ChildrenRecord.HandleDelete | frontend/al-furqan-frontend/src/pages/ChildrenRecord.js:210-238 | Without a token or confirmation, or when the DELETE fails, the list is unchanged; otherwise exactly the other children remain. |

## Left out

- **HTTP.** Every axios call is only its outcome. The model has no URLs, headers or bearer tokens, and no response body other than the server record the ledger sync swaps in.
- **Login and the service worker.** `Login.js` (authentication, localStorage, navigation) and `service-worker.js` are outside the model. So is the background-sync registration in `utils/idb.js` (lines 55-63), because all of them are platform features.
- **The user's role.** It comes from `jwtDecode` of the stored token and is a parameter here.
- **Excel files.** Reading and writing the workbook is left out. The conversion of serial dates to text (ChildrenRecord.js:117-119) is the `formatDate` parameter.
- **Sorting and case folding.** `localeCompare(..., 'ar')` sorting is left out, because it depends on Arabic collation. Lower-casing covers ASCII letters only; other characters are left as they are.
- **Dashboard totals.** They use `parseFloat` arithmetic, which is floating point.
- **UI.** JSX, styles, modals, toast wording, printing, `window.incrementNotificationCount` and navigation are left out. The AidHistory Excel export and the re-fetch after an import are left out too.
- **Concurrency.** Async interleaving on the event loop is not modelled; each handler and each flush runs atomically and in sequence.
- **Database opening.** A failure to open a database, and the upgrade race, are left out. Three modules open `al-furqan-db` version 1 with different store sets; each store set is modelled separately.
- **Numbers.** JavaScript numbers are modelled as integers (`Common.Value`, `Records.FamilySize`, `Store.Key`). Fractions, `NaN` as a stored value, `-0` and the infinities are not modelled; where an operation yields `NaN` the model uses None.
- **Numeric limits.** The key generator's upper limit (2^53) is not modelled.
- **Undefined imports.** `AidForm.js` imports `openDB` from `utils/idb.js`, which does not export it (see Findings). `Dashboard.js` calls `openDB` without importing it; the model treats it as the `idb` library's `openDB`. `ResidentsList.js` (line 2) imports six names from `'./db'`, which resolves to `src/pages/db.js`; that module is not part of this model, and it is not `src/db.js`, which also lacks `saveResident`, `saveResidents` and `syncPendingOperations`. The model assumes that `saveResident`, `deleteResident` and `addPendingDelete` (ResidentsList.js:160-189) behave as `LocalDb.UpdateResident`, `LocalDb.DeleteResident` and `LocalDb.AddPendingDelete`. `saveResidents` and `syncPendingOperations` are left out.
- **String order.** `Store.StrLt` orders strings by code point, while IndexedDB compares UTF-16 code units. The two orders differ only when a character in U+E000..U+FFFF is compared with one beyond U+FFFF.
- **parseInt.** `Strings.ParseInt` skips leading white space, reads an optional sign and the decimal digits after it, and ignores whatever follows them. The `0x` prefix, which `parseInt` without a radix reads as hexadecimal, is not modelled: such text reads as `0`.
- **Wiring.** The `online` event listener that triggers the flushes is left out, and so is the effect ordering that triggers the filters.
- **Fields of the wrong type.** The search filters call `?.toLowerCase()` and `?.includes` on record fields (ResidentsList.js:98-99, AidHistory.js:41-42, ChildrenRecord.js:52-53). `?.` guards only a missing field: on a number the call throws a TypeError inside the filter effect, and nothing catches it. The model substitutes "not matching" for that throw. `Resident` and `Household` type these fields as text or absent, so only a `ChildrenRecord` record can hold such a field. By contrast, `.split` on a missing `aid_type` in `AidForm.js` throws inside a `try`, and `AidForm.ScanAids` reports the check as failed, as the `catch` does.
- LocalDb.SaveAdmins: an admin's `id` that is present but not a valid IndexedDB key (an object, a boolean) is modelled as a missing one (`None`); both make the put throw a DataError.
- ChildrenRecord.UnchangedEditKeepsList: requires the child to hold only the dialog's fields. Other fields the server sends, such as `created_at`, are not copied into the draft and are dropped by the save; `ChildrenRecord.UnchangedEditKeepsShownFields` states what is kept in general.
- ResidentsList.SizeEqualsKeepsExactSize: `num_family_members` is absent, null, an integer or text; a fractional size is not modelled.
- Strings.TextToNumber: reads a sign and decimal digits only. Text with a fraction, an exponent, `Infinity` or a `0x`, `0o` or `0b` prefix, which `Number` converts, is read as NaN here.
- AidForm.SaveAidForLater: models `saveAidOffline` with a working `openDB`. As written the import is undefined and the call throws; `AidForm.HandleSubmitAsWritten` models that.
- AidForm.HandleSubmit: the corrected half. It queues a failed POST as the comment at AidForm.js:110 intends; as written the aid is lost instead (see Findings).
- Ledger.SyncSwapsAccepted: assumes the run's markers name distinct `tempId`s, which `syncPendingData`'s snapshot guarantees (`Ledger.SyncPendingSwapsAccepted`). It also assumes the server's record carries no `tempId`. When the store refuses the record's `id`, the entry is not swapped.
- Ledger.SettleKeepsTempCopy: states the behaviour as written at Dashboard.js:101 and 115. The sync deletes under `item.id || tempId`, while the record is stored under its generated number. The model keeps this behaviour and does not correct it.
- AidHistory.UnchangedDraftKeepsList: requires the household to have both a name and an id number. `BeginEdit` turns a missing one into `""`, and the save then writes that `""` back.

## Findings

| source | as written | input that shows it | evidently intended | confidence | as-written member | corrected member |
|---|---|---|---|---|---|---|
| frontend/al-furqan-frontend/src/pages/ChildrenRecord.js:174-186 | `handleEdit` copies eight fields into the draft but not `id_number`, though the dialog shows and edits `currentChild?.id_number` (line 428). The save then replaces the child with the draft (lines 196-198). | the child `{id: 1, name: "a", id_number: "123456789"}`, opened for edit and saved untouched | the draft carries `id_number`, so an untouched save leaves the list as it was | not executed | ChildrenRecord.BeginEditAsWritten, ChildrenRecord.EditAsWrittenLosesIdNumber | ChildrenRecord.BeginEdit, ChildrenRecord.UnchangedEditKeepsList |
| frontend/al-furqan-frontend/src/pages/AidForm.js:7-111 | `openDB` is imported from `utils/idb.js`, which exports only its own helpers. So `openDB` is undefined, and the `catch` branch's `saveAidOffline` throws before anything is stored. | an admin submits a complete cash aid of 100 for resident 7 and the POST fails | the aid is queued in `pending-aids` for a later sync, as the comment at line 110 says | not executed | AidForm.HandleSubmitAsWritten, AidForm.FailedPostLostAsWritten, AidForm.AdminAidLostAsWritten | AidForm.HandleSubmit, AidForm.SaveAidForLater |

=== FILE: aid_form.dfy ===
/** The aid registration form of `src/pages/AidForm.js`. A submission is
    checked for its three required fields, gets its final aid type (cash
    aid carries its amount, "other" carries the typed label), and, for a
    non-admin choosing one of the four proposed types, is refused when the
    resident already has a proposed aid on the server. It is then POSTed;
    when the POST fails it is meant to be queued in the page's own
    `pending-aids` store instead (the page opens that one store by itself,
    with key path `id` and a key generator). As written the page imports
    `openDB` from `../utils/idb`, which does not export it, so that queueing
    throws and the aid is lost: `HandleSubmitAsWritten` models this, and
    `HandleSubmit` the queueing the code evidently intends. */
module AidForm {

  import opened Common
  import opened Strings
  import opened Store
  import opened Records

  const HealthParcel: string := "طرد صحي"
  const FoodParcel: string := "طرد غذائي"
  const VegetableParcel: string := "طرد خضروات"

  /** The label of the "other" choice, whose real type is typed in by hand. */
  const OtherLabel: string := "غير ذلك"

  /** `proposedAidTypes`: at most one of these per resident, unless an admin registers it. */
  const ProposedTypes: seq<string> := [HealthParcel, FoodParcel, VegetableParcel, CashAid]

  /** The form's state when it is submitted; an unset field is the empty
      string. `selectedId` is the chosen resident's `id` as the server
      sent it (a number or a string), or `""` when none is chosen. */
  datatype Form = Form(
    selectedId: Value,
    aidType: string,
    aidDate: string,
    cashAmount: string,
    otherAidType: string)

  /** `selectedId && aidType && aidDate`: all three required fields are filled. */
  predicate Complete(f: Form)
  {
    Truthy(f.selectedId) && f.aidType != [] && f.aidDate != []
  }

  /** `finalAidType`: cash aid with an amount becomes `"<label> - <amount>"`,
      "other" with a typed label becomes that label, anything else is kept. */
  function FinalAidType(f: Form): (t: string)
    ensures f.aidType == CashAid && f.cashAmount != [] ==>
              && IsPrefix(CashAid + TypeSeparator, t)
              && t[|CashAid + TypeSeparator|..] == f.cashAmount
              && SplitHead(t, TypeSeparator) == CashAid
    ensures f.aidType == OtherLabel && f.otherAidType != [] ==> t == f.otherAidType
    ensures (!(f.aidType == CashAid && f.cashAmount != [])
             && !(f.aidType == OtherLabel && f.otherAidType != [])) ==> t == f.aidType
  {
    if f.aidType == CashAid && f.cashAmount != [] then
      SplitHeadOfSuffixed(CashAid, f.cashAmount);
      f.aidType + TypeSeparator + f.cashAmount
    else if f.aidType == OtherLabel && f.otherAidType != [] then f.otherAidType
    else f.aidType
  }

  /** `proposedAidTypes.includes(aid_type.split(' - ')[0])`: how the
      duplicate check recognises a stored aid as a proposed one. */
  predicate IsProposed(aidType: string)
  {
    SplitHead(aidType, TypeSeparator) in ProposedTypes
  }

  /** The duplicate check runs for a non-admin choosing a proposed type. */
  predicate NeedsCheck(role: Option<string>, f: Form)
  {
    role != Some("admin") && f.aidType in ProposedTypes
  }

  /** `aid.aid_type` when it is a string; anything else makes `split` throw. */
  function AidTypeOf(aid: Obj): (t: Option<string>)
    ensures t.Some? <==> Field(aid, "aid_type").Some? && Field(aid, "aid_type").value.Text?
    ensures t.Some? ==> aid["aid_type"] == Text(t.value)
  {
    match Field(aid, "aid_type")
    case Some(Text(s)) => Some(s)
    case _ => None
  }

  /** The aid at index `i` breaks the filter (its type is not a string). */
  predicate Unreadable(aids: seq<Obj>, i: int)
  {
    0 <= i < |aids| && AidTypeOf(aids[i]).None?
  }

  /** The aid at index `i` is a proposed one. */
  predicate ProposedAt(aids: seq<Obj>, i: int)
  {
    0 <= i < |aids| && AidTypeOf(aids[i]).Some? && IsProposed(AidTypeOf(aids[i]).value)
  }

  /** What the duplicate check concludes from the resident's aids. */
  datatype Check = NoProposed | HasProposed | Unverifiable

  /** The `filter` over the server's list of the resident's aids. The filter
      visits every aid, so a single unreadable type aborts the whole check. */
  function ScanAids(aids: seq<Obj>): (c: Check)
    ensures c == Unverifiable <==> exists i :: Unreadable(aids, i)
    ensures c == HasProposed <==> (forall i :: !Unreadable(aids, i)) && exists i :: ProposedAt(aids, i)
    decreases |aids|
  {
    if aids == [] then NoProposed
    else
      var rest := ScanAids(aids[1..]);
      ScanShift(aids);
      if AidTypeOf(aids[0]).None? then
        assert Unreadable(aids, 0);
        Unverifiable
      else if rest == Unverifiable then Unverifiable
      else if IsProposed(AidTypeOf(aids[0]).value) then
        assert ProposedAt(aids, 0);
        HasProposed
      else rest
  }

  /** The aids after the first, seen from the whole list: indices shift by one. */
  lemma ScanShift(aids: seq<Obj>)
    requires aids != []
    ensures (exists i :: Unreadable(aids, i)) <==> Unreadable(aids, 0) || exists i :: Unreadable(aids[1..], i)
    ensures (exists i :: ProposedAt(aids, i)) <==> ProposedAt(aids, 0) || exists i :: ProposedAt(aids[1..], i)
  {
    if i :| Unreadable(aids, i) && i != 0 {
      assert aids[i] == aids[1..][i - 1];
      assert Unreadable(aids[1..], i - 1);
    }
    if i :| Unreadable(aids[1..], i) {
      assert aids[1..][i] == aids[i + 1];
      assert Unreadable(aids, i + 1);
    }
    if i :| ProposedAt(aids, i) && i != 0 {
      assert aids[i] == aids[1..][i - 1];
      assert ProposedAt(aids[1..], i - 1);
    }
    if i :| ProposedAt(aids[1..], i) {
      assert aids[1..][i] == aids[i + 1];
      assert ProposedAt(aids, i + 1);
    }
  }

  /** How a submission ends. */
  datatype Outcome =
    | MissingFields   // "fill in all the fields"
    | ProposedTaken   // the resident already has a proposed aid
    | CheckFailed     // the lookup of existing aids failed
    | Posted          // the server accepted the aid
    | QueuedOffline   // the POST failed and the aid was queued locally
    | Lost            // the POST failed and queueing it threw: the handler rejects

  /** The outcome, the aid record that was sent or queued, and the queue afterwards. */
  datatype Submission = Submission(outcome: Outcome, sent: Option<AidRecord>, queue: ObjectStore<AidRecord>)

  /** The `pending-aids` store as `saveAidOffline`'s upgrade creates it. */
  predicate QueueValid(queue: ObjectStore<AidRecord>)
  {
    Store.Valid(queue) && queue.autoIncrement
  }

  /** `aidData`: the record the form sends. */
  function AidData(role: Option<string>, f: Form): (a: AidRecord)
    ensures a.id.None? && a.residentId == f.selectedId && a.date == f.aidDate && a.role == role
    ensures a.aidType == FinalAidType(f)
  {
    AidRecord(None, f.selectedId, FinalAidType(f), f.aidDate, role)
  }

  /** `saveAidOffline(aid)`: an `add` into the aid queue, which fails only
      when the aid already carries an id that is queued. */
  function SaveAidForLater(queue: ObjectStore<AidRecord>, a: AidRecord): (r: Result<ObjectStore<AidRecord>, StoreError>)
    requires QueueValid(queue)
    ensures r.Err? <==> a.id.Some? && a.id.value in Contents(queue)
    ensures r.Ok? ==> QueueValid(r.value)
    ensures r.Ok? ==> exists key :: key !in Contents(queue)
                        && (a.id.Some? ==> key == a.id.value)
                        && Contents(r.value) == Contents(queue)[key := AidAt(a, key)]
  {
    match AddAidTo(queue, a)
    case Err(e) => Err(e)
    case Ok(w) =>
      assert a.id.Some? ==> w.key == AidAt(a, w.key).id.value;
      Ok(w.store)
  }

  /** `handleSubmit`, with `role` the signed-in user's role, `lookup` the
      server's list of the resident's aids (None when the request fails)
      and `postOk` whether the POST succeeds. */
  function HandleSubmit(role: Option<string>, f: Form, lookup: Option<seq<Obj>>,
                        postOk: bool, queue: ObjectStore<AidRecord>): (s: Submission)
    requires QueueValid(queue)
    ensures QueueValid(s.queue)
    ensures s.outcome != Lost
    ensures s.outcome == MissingFields <==> !Complete(f)
    ensures s.outcome == ProposedTaken <==>
              Complete(f) && NeedsCheck(role, f) && lookup.Some? && ScanAids(lookup.value) == HasProposed
    ensures s.outcome == CheckFailed <==>
              Complete(f) && NeedsCheck(role, f) && (lookup.None? || ScanAids(lookup.value) == Unverifiable)
    ensures s.outcome == Posted <==>
              Complete(f) && postOk && (!NeedsCheck(role, f) || (lookup.Some? && ScanAids(lookup.value) == NoProposed))
    // an aid that passes every check is never dropped: it reaches the server or the queue
    ensures s.outcome == Posted || s.outcome == QueuedOffline <==> s.sent == Some(AidData(role, f))
    ensures s.outcome != QueuedOffline ==> s.queue == queue
    ensures s.outcome == QueuedOffline ==>
              exists key :: key !in Contents(queue)
                && Contents(s.queue) == Contents(queue)[key := AidAt(AidData(role, f), key)]
  {
    if !Complete(f) then Submission(MissingFields, None, queue)
    else if NeedsCheck(role, f) && lookup.None? then Submission(CheckFailed, None, queue)
    else if NeedsCheck(role, f) && ScanAids(lookup.value) == Unverifiable then Submission(CheckFailed, None, queue)
    else if NeedsCheck(role, f) && ScanAids(lookup.value) == HasProposed then Submission(ProposedTaken, None, queue)
    else
      var a := AidData(role, f);
      if postOk then Submission(Posted, Some(a), queue)
      else
        match SaveAidForLater(queue, a)
        case Ok(q) => Submission(QueuedOffline, Some(a), q)
        case Err(_) => assert false; Submission(QueuedOffline, Some(a), queue)
  }

  /** `handleSubmit` as written. `openDB` comes from `../utils/idb`, which
      does not export it, so in the `catch` of a failed POST the call
      `saveAidOffline(aidData)` throws a TypeError: nothing is queued, no
      notice is shown and the handler rejects. Every other path is
      `HandleSubmit`'s. */
  function HandleSubmitAsWritten(role: Option<string>, f: Form, lookup: Option<seq<Obj>>,
                                 postOk: bool, queue: ObjectStore<AidRecord>): (s: Submission)
    requires QueueValid(queue)
    ensures s.queue == queue
    ensures s.outcome == Lost <==>
              Complete(f) && !postOk && (!NeedsCheck(role, f) || (lookup.Some? && ScanAids(lookup.value) == NoProposed))
    ensures s.outcome == Lost ==> s.sent.None?
    ensures s.outcome != QueuedOffline
  {
    var s := HandleSubmit(role, f, lookup, postOk, queue);
    if s.outcome == QueuedOffline then Submission(Lost, None, queue) else s
  }

  /** What the missing import costs: every aid the intended handler queues
      for later is lost as written, and the two handlers agree on every
      other submission. */
  lemma FailedPostLostAsWritten(role: Option<string>, f: Form, lookup: Option<seq<Obj>>,
                                postOk: bool, queue: ObjectStore<AidRecord>)
    requires QueueValid(queue)
    ensures var intended := HandleSubmit(role, f, lookup, postOk, queue);
            var asWritten := HandleSubmitAsWritten(role, f, lookup, postOk, queue);
            && (intended.outcome == QueuedOffline <==> asWritten.outcome == Lost)
            && (intended.outcome != QueuedOffline ==> asWritten == intended)
            && (asWritten.outcome == Lost ==>
                  && intended.sent == Some(AidData(role, f)) && asWritten.sent.None?
                  && Contents(intended.queue) != Contents(queue) && asWritten.queue == queue)
  {
    var intended := HandleSubmit(role, f, lookup, postOk, queue);
    if intended.outcome == QueuedOffline {
      var key :| key !in Contents(queue)
                 && Contents(intended.queue) == Contents(queue)[key := AidAt(AidData(role, f), key)];
      assert key in Contents(intended.queue);
    }
  }

  /** An admin's cash aid whose POST fails: queued by the intended handler,
      lost as written. */
  lemma AdminAidLostAsWritten(queue: ObjectStore<AidRecord>)
    requires QueueValid(queue)
    ensures var f := Form(Number(7), CashAid, "2024-01-01", "100", "");
            && HandleSubmit(Some("admin"), f, None, false, queue).outcome == QueuedOffline
            && HandleSubmitAsWritten(Some("admin"), f, None, false, queue).outcome == Lost
  {
    var f := Form(Number(7), CashAid, "2024-01-01", "100", "");
    assert Complete(f) && !NeedsCheck(Some("admin"), f);
    FailedPostLostAsWritten(Some("admin"), f, None, false, queue);
  }

  /** `!selectedId` holds for a resident whose `id` is the number 0, so
      such a resident cannot be given an aid: the form counts as unfilled. */
  lemma ZeroResidentIdRefused(role: Option<string>, f: Form, lookup: Option<seq<Obj>>,
                              postOk: bool, queue: ObjectStore<AidRecord>)
    requires QueueValid(queue) && f.selectedId == Number(0)
    ensures var s := HandleSubmit(role, f, lookup, postOk, queue);
            s.outcome == MissingFields && s.sent.None? && s.queue == queue
  {
  }

  /** None of the fixed labels contains a dash. */
  lemma LabelsUndashed()
    ensures forall p :: p in ProposedTypes ==> '-' !in p
  {
    assert '-' !in HealthParcel;
    assert '-' !in FoodParcel;
    assert '-' !in VegetableParcel;
    assert '-' !in CashAid;
  }

  /** The "other" label is not a proposed type. */
  lemma OtherNotProposed()
    ensures OtherLabel !in ProposedTypes
  {
    assert OtherLabel[0] != HealthParcel[0];
    assert |OtherLabel| != |FoodParcel| && |OtherLabel| != |VegetableParcel| && |OtherLabel| != |CashAid|;
  }

  /** An aid registered under a proposed type is recognised as proposed by
      every later duplicate check, cash aid with its amount included. */
  lemma RegisteredProposedIsRecognised(f: Form)
    requires f.aidType in ProposedTypes
    ensures IsProposed(FinalAidType(f))
  {
    LabelsUndashed();
    OtherNotProposed();
    if !(f.aidType == CashAid && f.cashAmount != []) {
      assert FinalAidType(f) == f.aidType;
      SplitHeadUnsuffixed(f.aidType);
    }
  }

  /** For an admin, or a type outside the proposed list, the lookup is not
      consulted: the submission is the same whatever it returns. */
  lemma LookupIgnoredUnlessChecked(role: Option<string>, f: Form, l1: Option<seq<Obj>>,
                                   l2: Option<seq<Obj>>, postOk: bool, queue: ObjectStore<AidRecord>)
    requires QueueValid(queue) && !NeedsCheck(role, f)
    ensures HandleSubmit(role, f, l1, postOk, queue) == HandleSubmit(role, f, l2, postOk, queue)
  {
  }

  /** One proposed aid per resident: once the server lists a proposed aid
      the form sent for a resident, a non-admin's next proposed aid for that
      resident is refused, and nothing is posted or queued. */
  lemma SecondProposedRefused(role: Option<string>, first: Form, second: Form,
                              aids: seq<Obj>, postOk: bool, queue: ObjectStore<AidRecord>)
    requires QueueValid(queue)
    requires first.aidType in ProposedTypes
    requires Complete(second) && second.aidType in ProposedTypes && role != Some("admin")
    requires forall i :: 0 <= i < |aids| ==> AidTypeOf(aids[i]).Some?
    requires exists i :: 0 <= i < |aids| && AidTypeOf(aids[i]) == Some(FinalAidType(first))
    ensures var s := HandleSubmit(role, second, Some(aids), postOk, queue);
            s.outcome == ProposedTaken && s.sent.None? && s.queue == queue
  {
    var i :| 0 <= i < |aids| && AidTypeOf(aids[i]) == Some(FinalAidType(first));
    RegisteredProposedIsRecognised(first);
    assert ProposedAt(aids, i);
    assert forall j :: !Unreadable(aids, j);
  }

  /** The check looks at the chosen type, not the one recorded: a non-admin
      choosing "other" and typing a proposed label records a proposed aid
      whatever the resident already has. */
  lemma OtherLabelSkipsCheck(role: Option<string>, f: Form, lookup: Option<seq<Obj>>, queue: ObjectStore<AidRecord>)
    requires QueueValid(queue) && Complete(f)
    requires f.aidType == OtherLabel && f.otherAidType in ProposedTypes
    ensures var s := HandleSubmit(role, f, lookup, true, queue);
            s.outcome == Posted && IsProposed(s.sent.value.aidType)
  {
    OtherNotProposed();
    assert !NeedsCheck(role, f) && FinalAidType(f) == f.otherAidType;
    LabelsUndashed();
    SplitHeadUnsuffixed(f.otherAidType);
    var s := HandleSubmit(role, f, lookup, true, queue);
    assert s.outcome == Posted && s.sent == Some(AidData(role, f));
  }
}

=== FILE: aid_history.dfy ===
/** The aid history page, `src/pages/AidHistory.js`: the list of every
    registered aid, narrowed by a name-or-id search and optional type and
    date filters, with the in-memory edits that follow a successful
    server delete or update, and the list of aid types the type filter offers. */
module AidHistory {

  import opened Common
  import opened Strings
  import opened Seqs

  /** `item.resident`: the household the aid went to, as the server nests it;
      `others` holds the fields the page does not read. */
  datatype Household = Household(husbandName: Option<string>, husbandIdNumber: Option<string>, others: Obj)

  /** One row of the history, `{ id, aid_type, date, resident, ... }`. */
  datatype AidItem = AidItem(id: Value, aidType: string, date: string, resident: Option<Household>, others: Obj)

  /** The search box and the two selects; an empty string is an unset control. */
  datatype HistoryFilters = HistoryFilters(search: string, aidType: string, date: string)

  // ---------- the filter ----------

  /** `resident?.husband_name?.toLowerCase().includes(filter.toLowerCase())
      || resident?.husband_id_number?.includes(filter)`: a missing resident,
      name or id number matches nothing. */
  predicate NameOrIdMatch(search: string, item: AidItem)
  {
    && item.resident.Some?
    && (|| (item.resident.value.husbandName.Some?
            && Contains(Lower(item.resident.value.husbandName.value), Lower(search)))
        || (item.resident.value.husbandIdNumber.Some?
            && Contains(item.resident.value.husbandIdNumber.value, search)))
  }

  /** `aidTypeFilter ? aid_type === aidTypeFilter : true`. */
  predicate TypeMatch(aidType: string, item: AidItem)
  {
    aidType != "" ==> item.aidType == aidType
  }

  /** `dateFilter ? date === dateFilter : true`. */
  predicate DateMatch(date: string, item: AidItem)
  {
    date != "" ==> item.date == date
  }

  /** The three tests the filter effect ANDs together. */
  predicate Kept(f: HistoryFilters, item: AidItem)
  {
    NameOrIdMatch(f.search, item) && TypeMatch(f.aidType, item) && DateMatch(f.date, item)
  }

  /** The filter effect: the rows shown for the current controls. */
  function FilterHistory(items: seq<AidItem>, f: HistoryFilters): (shown: seq<AidItem>)
    ensures |shown| <= |items|
    ensures forall i :: 0 <= i < |shown| ==> Kept(f, shown[i])
  {
    Filter(x => Kept(f, x), items)
  }

  /** The shown rows keep the list's order, and a row is shown exactly when
      it is in the list and passes all three tests. */
  lemma FilterHistoryExact(items: seq<AidItem>, f: HistoryFilters, x: AidItem)
    ensures IsSubsequence(FilterHistory(items, f), items)
    ensures x in FilterHistory(items, f) <==> x in items && NameOrIdMatch(f.search, x)
                                                && (f.aidType == "" || x.aidType == f.aidType)
                                                && (f.date == "" || x.date == f.date)
  {
    FilterIsSubsequence(y => Kept(f, y), items);
    FilterMembership(y => Kept(f, y), items, x);
  }

  /** An empty search still demands a name or an id number: the test reads an
      optional field, so an aid whose household lacks both is hidden. */
  lemma EmptySearchNeedsNameOrId(item: AidItem)
    ensures NameOrIdMatch("", item) <==>
              item.resident.Some? && (item.resident.value.husbandName.Some? || item.resident.value.husbandIdNumber.Some?)
  {
    if item.resident.Some? {
      if item.resident.value.husbandName.Some? {
        assert Lower("") == "";
        ContainsEmpty(Lower(item.resident.value.husbandName.value));
      }
      if item.resident.value.husbandIdNumber.Some? {
        ContainsEmpty(item.resident.value.husbandIdNumber.value);
      }
    }
  }

  /** Setting the type filter only removes rows: the result is the rows shown
      without it, narrowed to that type. */
  lemma TypeFilterNarrows(items: seq<AidItem>, search: string, aidType: string, date: string)
    requires aidType != ""
    ensures FilterHistory(items, HistoryFilters(search, aidType, date))
            == Filter(x => TypeMatch(aidType, x), FilterHistory(items, HistoryFilters(search, "", date)))
    ensures IsSubsequence(FilterHistory(items, HistoryFilters(search, aidType, date)),
                          FilterHistory(items, HistoryFilters(search, "", date)))
  {
    var wide := HistoryFilters(search, "", date);
    var narrow := HistoryFilters(search, aidType, date);
    var pw := x => Kept(wide, x);
    var pn := x => Kept(narrow, x);
    var pt := x => TypeMatch(aidType, x);
    assert FilterHistory(items, wide) == Filter(pw, items);
    assert FilterHistory(items, narrow) == Filter(pn, items);
    FilterThenFilter(pw, pt, pn, items);
    FilterIsSubsequence(x => TypeMatch(aidType, x), FilterHistory(items, wide));
  }

  // ---------- delete ----------

  /** The row keeps an id other than `id`. */
  predicate OtherId(id: Value, item: AidItem)
  {
    item.id != id
  }

  /** `aidData.filter(item => item.id !== id)`, after the server confirmed the delete. */
  function DeleteAid(items: seq<AidItem>, id: Value): (r: seq<AidItem>)
    ensures forall i :: 0 <= i < |r| ==> r[i].id != id
  {
    Filter(x => OtherId(id, x), items)
  }

  /** A delete removes exactly the rows with that id; the rest stay, in order. */
  lemma DeleteAidExact(items: seq<AidItem>, id: Value, x: AidItem)
    ensures IsSubsequence(DeleteAid(items, id), items)
    ensures x in DeleteAid(items, id) <==> x in items && x.id != id
  {
    FilterIsSubsequence(y => OtherId(id, y), items);
    FilterMembership(y => OtherId(id, y), items, x);
  }

  /** Deleting an id no row carries leaves the list as it was. */
  lemma DeleteAbsentId(items: seq<AidItem>, id: Value)
    requires forall i :: 0 <= i < |items| ==> items[i].id != id
    ensures DeleteAid(items, id) == items
  {
    FilterAllPass(y => OtherId(id, y), items);
  }

  /** `handleDelete(id)`: the list changes only when the user confirms and the
      server accepts the delete. */
  function HandleDelete(items: seq<AidItem>, id: Value, confirmed: bool, deleteOk: bool): (r: seq<AidItem>)
    ensures !(confirmed && deleteOk) ==> r == items
    ensures confirmed && deleteOk ==> forall x :: x in r <==> x in items && x.id != id
  {
    if confirmed && deleteOk then
      forall x ensures x in DeleteAid(items, id) <==> x in items && x.id != id {
        DeleteAidExact(items, id, x);
      }
      DeleteAid(items, id)
    else items
  }

  // ---------- edit ----------

  /** `currentAid`: the edit dialog's draft. */
  datatype Draft = Draft(id: Value, aidType: string, date: string, husbandName: string, husbandId: string)

  /** `handleEdit(aid)`: the draft opens on the row's values, with a missing
      name or id number shown as `""`. */
  function BeginEdit(aid: AidItem): (d: Draft)
    ensures d.id == aid.id && d.aidType == aid.aidType && d.date == aid.date
    ensures aid.resident.Some? && aid.resident.value.husbandName.Some? ==> d.husbandName == aid.resident.value.husbandName.value
    ensures aid.resident.None? || aid.resident.value.husbandName.None? ==> d.husbandName == ""
    ensures aid.resident.Some? && aid.resident.value.husbandIdNumber.Some? ==> d.husbandId == aid.resident.value.husbandIdNumber.value
    ensures aid.resident.None? || aid.resident.value.husbandIdNumber.None? ==> d.husbandId == ""
  {
    match aid.resident
    case None => Draft(aid.id, aid.aidType, aid.date, "", "")
    case Some(h) =>
      Draft(aid.id, aid.aidType, aid.date,
            if h.husbandName.Some? then h.husbandName.value else "",
            if h.husbandIdNumber.Some? then h.husbandIdNumber.value else "")
  }

  /** `{ ...item, aid_type, date, resident: { ...item.resident, husband_name, husband_id_number } }`. */
  function Edited(item: AidItem, d: Draft): (e: AidItem)
    ensures e.id == item.id && e.others == item.others
    ensures e.aidType == d.aidType && e.date == d.date
    ensures e.resident.Some?
    ensures e.resident.value.husbandName == Some(d.husbandName)
    ensures e.resident.value.husbandIdNumber == Some(d.husbandId)
    ensures e.resident.value.others == (if item.resident.Some? then item.resident.value.others else map[])
  {
    var kept := if item.resident.Some? then item.resident.value.others else map[];
    item.(aidType := d.aidType, date := d.date,
          resident := Some(Household(Some(d.husbandName), Some(d.husbandId), kept)))
  }

  /** `aidData.map(item => item.id === currentAid.id ? edited : item)`, after
      the server accepted the update. */
  function SaveEdit(items: seq<AidItem>, d: Draft): (r: seq<AidItem>)
    ensures |r| == |items|
    ensures forall i :: 0 <= i < |items| && items[i].id != d.id ==> r[i] == items[i]
    ensures forall i :: 0 <= i < |items| && items[i].id == d.id ==>
              && r[i].id == d.id && r[i].others == items[i].others
              && r[i].aidType == d.aidType && r[i].date == d.date
              && r[i].resident.Some?
              && r[i].resident.value.husbandName == Some(d.husbandName)
              && r[i].resident.value.husbandIdNumber == Some(d.husbandId)
  {
    seq(|items|, i requires 0 <= i < |items| => if items[i].id == d.id then Edited(items[i], d) else items[i])
  }

  /** Saving the same draft twice is the same as saving it once. */
  lemma SaveEditIdempotent(items: seq<AidItem>, d: Draft)
    ensures SaveEdit(SaveEdit(items, d), d) == SaveEdit(items, d)
  {
    var once := SaveEdit(items, d);
    forall i | 0 <= i < |items| && items[i].id == d.id
      ensures Edited(once[i], d) == once[i]
    {
      assert once[i] == Edited(items[i], d);
    }
  }

  /** Opening a row's draft and saving it unchanged leaves the list as it
      was, when ids are unique and the row's household has both name and id. */
  lemma UnchangedDraftKeepsList(items: seq<AidItem>, k: nat)
    requires k < |items|
    requires forall i, j :: 0 <= i < j < |items| ==> items[i].id != items[j].id
    requires items[k].resident.Some?
    requires items[k].resident.value.husbandName.Some? && items[k].resident.value.husbandIdNumber.Some?
    ensures SaveEdit(items, BeginEdit(items[k])) == items
  {
    var d := BeginEdit(items[k]);
    var r := SaveEdit(items, d);
    forall i | 0 <= i < |items|
      ensures r[i] == items[i]
    {
      if i == k {
        assert Edited(items[k], d) == items[k];
      } else if i < k {
        assert items[i].id != items[k].id;
      } else {
        assert items[k].id != items[i].id;
      }
    }
  }

  /** `handleSaveEdit()`: the list changes only when the server accepts the
      update, and then the rows with the draft's id take its values. */
  function HandleSaveEdit(items: seq<AidItem>, d: Draft, putOk: bool): (r: seq<AidItem>)
    ensures !putOk ==> r == items
    ensures putOk ==> |r| == |items| && forall i :: 0 <= i < |items| && items[i].id != d.id ==> r[i] == items[i]
    ensures putOk ==> forall i :: 0 <= i < |items| && items[i].id == d.id ==>
              && r[i].id == d.id && r[i].others == items[i].others
              && r[i].aidType == d.aidType && r[i].date == d.date
              && r[i].resident.Some?
              && r[i].resident.value.husbandName == Some(d.husbandName)
              && r[i].resident.value.husbandIdNumber == Some(d.husbandId)
  {
    if putOk then SaveEdit(items, d) else items
  }

  // ---------- type options ----------

  /** `[...new Set(aidData.map(item => item.aid_type))]`: the options of the
      type filter, each type once. */
  function AidTypeOptions(items: seq<AidItem>): (options: seq<string>)
    ensures forall i, j :: 0 <= i < j < |options| ==> options[i] != options[j]
    ensures forall t :: t in options <==> exists i :: 0 <= i < |items| && items[i].aidType == t
    // in order of first appearance: a later option's rows all follow an earlier option's first row
    ensures forall i, j, n :: 0 <= i < j < |options| && 0 <= n < |items| && items[n].aidType == options[j]
              ==> exists m :: 0 <= m < n && items[m].aidType == options[i]
  {
    var r := Distinct(TypesOf(items));
    TypeOptionsCover(items, r);
    TypeOptionsOrder(items, r);
    r
  }

  lemma TypeOptionsCover(items: seq<AidItem>, r: seq<string>)
    requires r == Distinct(TypesOf(items))
    ensures forall t :: t in r <==> exists i :: 0 <= i < |items| && items[i].aidType == t
  {
    var types := TypesOf(items);
    forall t | t in r
      ensures exists i :: 0 <= i < |items| && items[i].aidType == t
    {
      assert t in types;
      var i :| 0 <= i < |types| && types[i] == t;
      assert items[i].aidType == t;
    }
  }

  /** The `aid_type` of each row, in row order. */
  function TypesOf(items: seq<AidItem>): (types: seq<string>)
    ensures |types| == |items| && forall i :: 0 <= i < |items| ==> types[i] == items[i].aidType
  {
    seq(|items|, i requires 0 <= i < |items| => items[i].aidType)
  }

  lemma TypeOptionsOrder(items: seq<AidItem>, r: seq<string>)
    requires r == Distinct(TypesOf(items))
    ensures forall i, j, n :: 0 <= i < j < |r| && 0 <= n < |items| && items[n].aidType == r[j]
              ==> exists m :: 0 <= m < n && items[m].aidType == r[i]
  {
    var types := TypesOf(items);
    DistinctFirstOccurrence(types);
    forall i, j, n | 0 <= i < j < |r| && 0 <= n < |items| && items[n].aidType == r[j]
      ensures exists m :: 0 <= m < n && items[m].aidType == r[i]
    {
      FirstOccurrenceAt(r, types, i, j, n);
      var m :| 0 <= m < n && types[m] == r[i];
      assert items[m].aidType == r[i];
    }
  }

  /** Every offered type selects at least one row when the other controls are unset
      and that row has a household with a name or id number. */
  lemma OfferedTypeSelects(items: seq<AidItem>, t: string)
    requires t in AidTypeOptions(items) && t != ""
    requires forall i :: 0 <= i < |items| ==> NameOrIdMatch("", items[i])
    ensures FilterHistory(items, HistoryFilters("", t, "")) != []
  {
    var i :| 0 <= i < |items| && items[i].aidType == t;
    FilterMembership(y => Kept(HistoryFilters("", t, ""), y), items, items[i]);
  }
}

=== FILE: children_record.dfy ===
/** The children register, `src/pages/ChildrenRecord.js`: the name-or-id
    search, the spreadsheet export and import (column check on the first
    row, per-row completeness check, one POST per complete row), and the
    list edits that follow a successful server update or delete. Children
    are plain objects, since the page copies and replaces them whole. */
module ChildrenRecord {

  import opened Common
  import opened Strings
  import opened Seqs

  /** `o.name` when it is a string. */
  function TextField(o: Obj, name: string): (t: Option<string>)
    ensures t.Some? <==> name in o && o[name].Text?
    ensures t.Some? ==> o[name] == Text(t.value)
  {
    if name in o && o[name].Text? then Some(o[name].s) else None
  }

  // ---------- search ----------

  /** `name?.toLowerCase().includes(filter.toLowerCase()) || id_number?.includes(filter)`. */
  predicate ChildMatch(filter: string, child: Obj)
  {
    || (TextField(child, "name").Some? && Contains(Lower(TextField(child, "name").value), Lower(filter)))
    || (TextField(child, "id_number").Some? && Contains(TextField(child, "id_number").value, filter))
  }

  /** The search effect: the children shown for the search box's text. */
  function SearchChildren(children: seq<Obj>, filter: string): (shown: seq<Obj>)
    ensures |shown| <= |children|
    ensures forall i :: 0 <= i < |shown| ==> ChildMatch(filter, shown[i])
  {
    Filter(c => ChildMatch(filter, c), children)
  }

  /** The shown children keep the list's order, and a child is shown exactly
      when its name contains the text (ignoring case) or its id number does. */
  lemma SearchChildrenExact(children: seq<Obj>, filter: string, x: Obj)
    ensures IsSubsequence(SearchChildren(children, filter), children)
    ensures x in SearchChildren(children, filter) <==>
              && x in children
              && (|| ("name" in x && x["name"].Text? && Contains(Lower(x["name"].s), Lower(filter)))
                  || ("id_number" in x && x["id_number"].Text? && Contains(x["id_number"].s, filter)))
  {
    FilterIsSubsequence(c => ChildMatch(filter, c), children);
    FilterMembership(c => ChildMatch(filter, c), children, x);
  }

  // ---------- the spreadsheet columns ----------

  const NameColumn: string := "الاسم"
  const IdColumn: string := "الهوية"
  const BirthColumn: string := "تاريخ_الميلاد"
  const AgeColumn: string := "العمر"
  const PhoneColumn: string := "الجوال"
  const GenderColumn: string := "الجنس"
  const BenefitTypeColumn: string := "نوع_الاستفادة"
  const BenefitCountColumn: string := "عدد_مرات_الاستفادة"

  /** The eight column names are distinct: they differ in length or in their third letter. */
  lemma ColumnsDistinct()
    ensures NameColumn != IdColumn && NameColumn != BirthColumn && NameColumn != AgeColumn
    ensures NameColumn != PhoneColumn && NameColumn != GenderColumn && NameColumn != BenefitTypeColumn
    ensures NameColumn != BenefitCountColumn
    ensures IdColumn != BirthColumn && IdColumn != AgeColumn && IdColumn != PhoneColumn
    ensures IdColumn != GenderColumn && IdColumn != BenefitTypeColumn && IdColumn != BenefitCountColumn
    ensures BirthColumn != AgeColumn && BirthColumn != PhoneColumn && BirthColumn != GenderColumn
    ensures BirthColumn != BenefitTypeColumn && BirthColumn != BenefitCountColumn
    ensures AgeColumn != PhoneColumn && AgeColumn != GenderColumn && AgeColumn != BenefitTypeColumn
    ensures AgeColumn != BenefitCountColumn
    ensures PhoneColumn != GenderColumn && PhoneColumn != BenefitTypeColumn && PhoneColumn != BenefitCountColumn
    ensures GenderColumn != BenefitTypeColumn && GenderColumn != BenefitCountColumn
    ensures BenefitTypeColumn != BenefitCountColumn
  {
    assert NameColumn[2] != AgeColumn[2] && NameColumn[2] != GenderColumn[2] && AgeColumn[2] != GenderColumn[2];
    assert IdColumn[2] != PhoneColumn[2];
    assert BirthColumn[0] != BenefitTypeColumn[0];
  }

  /** `requiredColumns`, in the sheet's order. */
  const RequiredColumns: seq<string> :=
    [NameColumn, IdColumn, BirthColumn, AgeColumn, PhoneColumn, GenderColumn, BenefitTypeColumn, BenefitCountColumn]

  /** The record fields the import fills in and the export reads, except the count. */
  const DetailFields: set<string> := {"name", "id_number", "birth_date", "age", "phone", "gender", "benefit_type"}

  /** `x || ""`. */
  function OrEmpty(o: Obj, name: string): (v: Value)
    ensures FieldTruthy(o, name) ==> v == o[name]
    ensures !FieldTruthy(o, name) ==> v == Text("")
  {
    if FieldTruthy(o, name) then o[name] else Text("")
  }

  /** `x || 0`. */
  function OrZero(o: Obj, name: string): (v: Value)
    ensures FieldTruthy(o, name) ==> v == o[name]
    ensures !FieldTruthy(o, name) ==> v == Number(0)
  {
    if FieldTruthy(o, name) then o[name] else Number(0)
  }

  // ---------- export ----------

  /** Column `column` of `row` holds the child's `field` when that is truthy,
      and `fallback` otherwise. */
  predicate Carries(child: Obj, row: Obj, column: string, field: string, fallback: Value)
  {
    column in row && row[column] == (if FieldTruthy(child, field) then child[field] else fallback)
  }

  /** One exported row: every column present, a missing or falsy field as
      `""` and a missing or zero count as `0`. */
  function ExportRow(child: Obj): (row: Obj)
    ensures row.Keys == {NameColumn, IdColumn, BirthColumn, AgeColumn, PhoneColumn, GenderColumn, BenefitTypeColumn, BenefitCountColumn}
    ensures Carries(child, row, NameColumn, "name", Text("")) && Carries(child, row, IdColumn, "id_number", Text(""))
    ensures Carries(child, row, BirthColumn, "birth_date", Text("")) && Carries(child, row, AgeColumn, "age", Text(""))
    ensures Carries(child, row, PhoneColumn, "phone", Text("")) && Carries(child, row, GenderColumn, "gender", Text(""))
    ensures Carries(child, row, BenefitTypeColumn, "benefit_type", Text(""))
    ensures Carries(child, row, BenefitCountColumn, "benefit_count", Number(0))
  {
    ColumnsDistinct();
    map[NameColumn := OrEmpty(child, "name"),
        IdColumn := OrEmpty(child, "id_number"),
        BirthColumn := OrEmpty(child, "birth_date"),
        AgeColumn := OrEmpty(child, "age"),
        PhoneColumn := OrEmpty(child, "phone"),
        GenderColumn := OrEmpty(child, "gender"),
        BenefitTypeColumn := OrEmpty(child, "benefit_type"),
        BenefitCountColumn := OrZero(child, "benefit_count")]
  }

  /** `exportToExcel`: one row per shown child, in the shown order. */
  function ExportRows(shown: seq<Obj>): (rows: seq<Obj>)
    ensures |rows| == |shown|
    ensures forall i :: 0 <= i < |rows| ==> rows[i] == ExportRow(shown[i])
  {
    if shown == [] then [] else [ExportRow(shown[0])] + ExportRows(shown[1..])
  }

  // ---------- import ----------

  /** The birth date after the serial-number conversion: a non-zero number
      is a spreadsheet date serial and is formatted by `formatDate`. */
  function BirthDate(row: Obj, formatDate: int -> string): (v: Option<Value>)
    ensures v.Some? <==> BirthColumn in row
    ensures BirthColumn in row && !(row[BirthColumn].Number? && row[BirthColumn].n != 0) ==> v == Some(row[BirthColumn])
  {
    match Field(row, BirthColumn)
    case Some(Number(n)) => if n != 0 then Some(Text(formatDate(n))) else Some(Number(n))
    case other => other
  }

  /** The row has all seven required values (the count is optional). */
  predicate RowComplete(row: Obj, formatDate: int -> string)
  {
    && FieldTruthy(row, NameColumn) && FieldTruthy(row, IdColumn)
    && BirthDate(row, formatDate).Some? && Truthy(BirthDate(row, formatDate).value)
    && FieldTruthy(row, AgeColumn) && FieldTruthy(row, PhoneColumn)
    && FieldTruthy(row, GenderColumn) && FieldTruthy(row, BenefitTypeColumn)
  }

  /** The body POSTed for a complete row; an absent count is left out. */
  function RowPayload(row: Obj, formatDate: int -> string): (p: Obj)
    requires RowComplete(row, formatDate)
    ensures p.Keys == DetailFields + (if BenefitCountColumn in row then {"benefit_count"} else {})
    ensures p["name"] == row[NameColumn] && p["id_number"] == row[IdColumn]
    ensures p["birth_date"] == BirthDate(row, formatDate).value
    ensures p["age"] == row[AgeColumn] && p["phone"] == row[PhoneColumn]
    ensures p["gender"] == row[GenderColumn] && p["benefit_type"] == row[BenefitTypeColumn]
    ensures BenefitCountColumn in row ==> p["benefit_count"] == row[BenefitCountColumn]
  {
    var p := map["name" := row[NameColumn], "id_number" := row[IdColumn],
                 "birth_date" := BirthDate(row, formatDate).value, "age" := row[AgeColumn],
                 "phone" := row[PhoneColumn], "gender" := row[GenderColumn],
                 "benefit_type" := row[BenefitTypeColumn]];
    if BenefitCountColumn in row then p["benefit_count" := row[BenefitCountColumn]] else p
  }

  /** The rows the loop POSTs, in sheet order. */
  function CompleteRows(rows: seq<Obj>, formatDate: int -> string): (r: seq<Obj>)
    ensures forall i :: 0 <= i < |r| ==> RowComplete(r[i], formatDate)
  {
    Filter(x => RowComplete(x, formatDate), rows)
  }

  /** The POST bodies of complete rows. */
  function Payloads(rows: seq<Obj>, formatDate: int -> string): (ps: seq<Obj>)
    requires forall i :: 0 <= i < |rows| ==> RowComplete(rows[i], formatDate)
    ensures |ps| == |rows|
    ensures forall i :: 0 <= i < |rows| ==> ps[i] == RowPayload(rows[i], formatDate)
  {
    if rows == [] then [] else [RowPayload(rows[0], formatDate)] + Payloads(rows[1..], formatDate)
  }

  /** The `i`-th POST of the import resolved; a POST with no answer listed failed. */
  predicate Accepted(outcomes: seq<bool>, i: nat)
  {
    i < |outcomes| && outcomes[i]
  }

  /** What the import loop did: the bodies it POSTed, those the server
      accepted, and the rows it skipped as incomplete. */
  datatype ImportRun = ImportRun(attempted: seq<Obj>, added: seq<Obj>, skipped: seq<Obj>)

  /** The answers left once the first POST has been answered. */
  function Later(outcomes: seq<bool>): (rest: seq<bool>)
    ensures forall i: nat :: Accepted(rest, i) == Accepted(outcomes, i + 1)
  {
    if outcomes == [] then [] else outcomes[1..]
  }

  /** The `for (const row of jsonData)` loop; `outcomes` are the POSTs' answers in order. */
  function ImportRows(rows: seq<Obj>, formatDate: int -> string, outcomes: seq<bool>): (run: ImportRun)
    ensures |run.attempted| + |run.skipped| == |rows|
    ensures forall i :: 0 <= i < |run.skipped| ==> !RowComplete(run.skipped[i], formatDate)
    ensures IsSubsequence(run.added, run.attempted)
    decreases |rows|
  {
    if rows == [] then ImportRun([], [], [])
    else if !RowComplete(rows[0], formatDate) then
      var run := ImportRows(rows[1..], formatDate, outcomes);
      run.(skipped := [rows[0]] + run.skipped)
    else
      var run := ImportRows(rows[1..], formatDate, Later(outcomes));
      var p := RowPayload(rows[0], formatDate);
      if Accepted(outcomes, 0) then
        ImportRun([p] + run.attempted, [p] + run.added, run.skipped)
      else
        SubsequenceSkip(run.added, run.attempted, p);
        ImportRun([p] + run.attempted, run.added, run.skipped)
  }

  /** A failed POST does not stop the loop: every complete row is sent, in
      sheet order, whatever the server answers. */
  lemma {:induction false} ImportSendsCompleteRows(rows: seq<Obj>, formatDate: int -> string, outcomes: seq<bool>)
    ensures ImportRows(rows, formatDate, outcomes).attempted == Payloads(CompleteRows(rows, formatDate), formatDate)
    decreases |rows|
  {
    if rows != [] {
      if RowComplete(rows[0], formatDate) {
        ImportSendsCompleteRows(rows[1..], formatDate, Later(outcomes));
        assert CompleteRows(rows, formatDate) == [rows[0]] + CompleteRows(rows[1..], formatDate);
        assert (([rows[0]] + CompleteRows(rows[1..], formatDate)))[1..] == CompleteRows(rows[1..], formatDate);
      } else {
        ImportSendsCompleteRows(rows[1..], formatDate, outcomes);
      }
    }
  }

  /** Every accepted POST's body is among the added children, and when every
      POST is accepted all of them are. */
  lemma {:induction false} ImportAddsAccepted(rows: seq<Obj>, formatDate: int -> string, outcomes: seq<bool>)
    ensures var run := ImportRows(rows, formatDate, outcomes);
            forall i :: 0 <= i < |run.attempted| && Accepted(outcomes, i) ==> run.attempted[i] in run.added
    ensures var run := ImportRows(rows, formatDate, outcomes);
            (forall i :: 0 <= i < |run.attempted| ==> Accepted(outcomes, i)) ==> run.added == run.attempted
    decreases |rows|
  {
    if rows != [] {
      if RowComplete(rows[0], formatDate) {
        var run := ImportRows(rows, formatDate, outcomes);
        var tail := ImportRows(rows[1..], formatDate, Later(outcomes));
        ImportAddsAccepted(rows[1..], formatDate, Later(outcomes));
        assert run.attempted == [run.attempted[0]] + tail.attempted;
        forall i | 1 <= i < |run.attempted| && Accepted(outcomes, i)
          ensures run.attempted[i] in run.added
        {
          assert Accepted(Later(outcomes), i - 1);
          assert run.attempted[i] == tail.attempted[i - 1];
        }
        if forall i :: 0 <= i < |run.attempted| ==> Accepted(outcomes, i) {
          forall i | 0 <= i < |tail.attempted|
            ensures Accepted(Later(outcomes), i)
          {
            assert Accepted(outcomes, i + 1);
          }
        }
      } else {
        ImportAddsAccepted(rows[1..], formatDate, outcomes);
      }
    }
  }

  /** Dropping one more element from the front keeps a subsequence. */
  lemma SubsequenceSkip(a: seq<Obj>, b: seq<Obj>, x: Obj)
    requires IsSubsequence(a, b)
    ensures IsSubsequence(a, [x] + b)
  {
    assert ([x] + b)[1..] == b;
  }

  /** How an import ends. */
  datatype ImportOutcome =
    | Unreadable                          // the sheet has no rows: `jsonData[0]` throws
    | MissingColumns(columns: seq<string>) // the first row lacks these columns; nothing is sent
    | Ran(run: ImportRun)

  /** The required columns the first row lacks, in the sheet's order. */
  function MissingColumnsOf(first: Obj): (missing: seq<string>)
    ensures IsSubsequence(missing, RequiredColumns)
    ensures forall c :: c in missing <==> c in RequiredColumns && c !in first
  {
    FilterIsSubsequence(c => c !in first, RequiredColumns);
    forall c ensures c in Filter(c => c !in first, RequiredColumns) <==> c in RequiredColumns && c !in first {
      FilterMembership(c => c !in first, RequiredColumns, c);
    }
    Filter(c => c !in first, RequiredColumns)
  }

  /** `handleImportExcel` once the sheet is read into `rows`. */
  function HandleImport(rows: seq<Obj>, formatDate: int -> string, outcomes: seq<bool>): (o: ImportOutcome)
    ensures o == Unreadable <==> rows == []
    ensures o.MissingColumns? <==> rows != [] && exists c :: c in RequiredColumns && c !in rows[0]
    ensures o.MissingColumns? ==> forall c :: c in o.columns <==> c in RequiredColumns && c !in rows[0]
    ensures o.Ran? ==> o.run == ImportRows(rows, formatDate, outcomes)
  {
    if rows == [] then Unreadable
    else
      var missing := MissingColumnsOf(rows[0]);
      if missing != [] then MissingColumns(missing)
      else
        assert forall c :: c in RequiredColumns ==> c in rows[0];
        Ran(ImportRows(rows, formatDate, outcomes))
  }

  /** The child as the export writes it and the import sends it back: the
      seven details (as present) and the count, `0` when it was missing or zero. */
  predicate SentBack(child: Obj, p: Obj)
  {
    && p.Keys == DetailFields + {"benefit_count"}
    && (forall k :: k in DetailFields ==> k in child && p[k] == child[k])
    && p["benefit_count"] == OrZero(child, "benefit_count")
  }

  /** The child has all seven details, and its birth date is not a number. */
  predicate Exportable(child: Obj)
  {
    && (forall k :: k in DetailFields ==> FieldTruthy(child, k))
    && !child["birth_date"].Number?
  }

  /** Export then import: a child with every detail filled in passes the
      row check and is sent back with the same details. */
  lemma ExportThenImportRow(child: Obj, formatDate: int -> string)
    requires Exportable(child)
    ensures RowComplete(ExportRow(child), formatDate)
    ensures SentBack(child, RowPayload(ExportRow(child), formatDate))
  {
    assert FieldTruthy(child, "name") && FieldTruthy(child, "birth_date");
  }

  /** Importing an exported, non-empty list checks its columns, skips no row
      and sends one POST per child, in order. */
  lemma ExportThenImport(children: seq<Obj>, formatDate: int -> string, outcomes: seq<bool>)
    requires children != []
    requires forall i :: 0 <= i < |children| ==> Exportable(children[i])
    ensures var o := HandleImport(ExportRows(children), formatDate, outcomes);
            && o.Ran?
            && |o.run.attempted| == |children| && o.run.skipped == []
            && forall i :: 0 <= i < |children| ==> SentBack(children[i], o.run.attempted[i])
  {
    var rows := ExportRows(children);
    ExportedRowsImport(children, formatDate);
    FilterAllPass(x => RowComplete(x, formatDate), rows);
    assert CompleteRows(rows, formatDate) == rows;
    ImportSendsCompleteRows(rows, formatDate, outcomes);
    var sent := Payloads(rows, formatDate);
    assert ImportRows(rows, formatDate, outcomes).attempted == sent;
    assert HandleImport(rows, formatDate, outcomes).Ran? by {
      ExportRowHasColumns(children[0]);
    }
    assert forall i :: 0 <= i < |children| ==> SentBack(children[i], sent[i]);
  }

  /** Each exported row of such children is complete and sends its child back. */
  lemma ExportedRowsImport(children: seq<Obj>, formatDate: int -> string)
    requires forall i :: 0 <= i < |children| ==> Exportable(children[i])
    ensures var rows := ExportRows(children);
            forall i :: 0 <= i < |rows| ==>
              RowComplete(rows[i], formatDate) && SentBack(children[i], RowPayload(rows[i], formatDate))
  {
    var rows := ExportRows(children);
    forall i | 0 <= i < |rows|
      ensures RowComplete(rows[i], formatDate)
      ensures SentBack(children[i], RowPayload(rows[i], formatDate))
    {
      ExportThenImportRow(children[i], formatDate);
    }
  }

  /** An exported row carries every required column. */
  lemma ExportRowHasColumns(child: Obj)
    ensures forall c :: c in RequiredColumns ==> c in ExportRow(child)
  {
  }

  // ---------- edit ----------

  /** The fields `handleEdit` copies into the draft, as written. */
  const DraftFieldsAsWritten: set<string> :=
    {"id", "name", "birth_date", "age", "phone", "gender", "benefit_type", "benefit_count"}

  /** The fields the edit dialog shows, `id_number` among them. */
  const DraftFields: set<string> := DraftFieldsAsWritten + {"id_number"}

  /** The child restricted to `fields` (a field the child lacks stays absent). */
  function Draft(child: Obj, fields: set<string>): (d: Obj)
    ensures d.Keys == child.Keys * fields
    ensures forall k :: k in d ==> d[k] == child[k]
  {
    map k | k in child.Keys * fields :: child[k]
  }

  /** `handleEdit(child)` as written: the draft leaves out `id_number`, so
      the dialog's id field opens empty. */
  function BeginEditAsWritten(child: Obj): (d: Obj)
    ensures "id_number" !in d
    ensures d.Keys == child.Keys * DraftFieldsAsWritten
    ensures forall k :: k in d ==> d[k] == child[k]
  {
    Draft(child, DraftFieldsAsWritten)
  }

  /** `handleEdit(child)` with the draft carrying every field the dialog shows. */
  function BeginEdit(child: Obj): (d: Obj)
    ensures d.Keys == child.Keys * DraftFields
    ensures forall k :: k in d ==> d[k] == child[k]
  {
    Draft(child, DraftFields)
  }

  /** `children.map(item => item.id === draft.id ? draft : item)`, after the
      server accepted the update. */
  function SaveEdit(children: seq<Obj>, draft: Obj): (r: seq<Obj>)
    ensures |r| == |children|
    ensures forall i :: 0 <= i < |children| && Field(children[i], "id") != Field(draft, "id") ==> r[i] == children[i]
    ensures forall i :: 0 <= i < |children| && Field(children[i], "id") == Field(draft, "id") ==> r[i] == draft
  {
    seq(|children|, i requires 0 <= i < |children| =>
          if Field(children[i], "id") == Field(draft, "id") then draft else children[i])
  }

  /** `handleSaveEdit()`: the list changes only when the server accepts the
      update, and then the children with the draft's id become the draft. */
  function HandleSaveEdit(children: seq<Obj>, draft: Obj, putOk: bool): (r: seq<Obj>)
    ensures !putOk ==> r == children
    ensures putOk ==> |r| == |children|
    ensures putOk ==> forall i :: 0 <= i < |children| && Field(children[i], "id") != Field(draft, "id") ==> r[i] == children[i]
    ensures putOk ==> forall i :: 0 <= i < |children| && Field(children[i], "id") == Field(draft, "id") ==> r[i] == draft
  {
    if putOk then SaveEdit(children, draft) else children
  }

  /** Ids are unique in the list. */
  predicate DistinctIds(children: seq<Obj>)
  {
    forall i, j :: 0 <= i < j < |children| ==> Field(children[i], "id") != Field(children[j], "id")
  }

  /** Opening a child's draft and saving it unchanged leaves the list as it
      was, for children that hold only the fields the dialog shows. */
  lemma UnchangedEditKeepsList(children: seq<Obj>, k: nat)
    requires k < |children| && DistinctIds(children)
    requires children[k].Keys <= DraftFields
    ensures SaveEdit(children, BeginEdit(children[k])) == children
  {
    var d := BeginEdit(children[k]);
    assert d == children[k];
    var r := SaveEdit(children, d);
    forall i | 0 <= i < |children|
      ensures r[i] == children[i]
    {
      if i < k {
        assert Field(children[i], "id") != Field(children[k], "id");
      } else if k < i {
        assert Field(children[k], "id") != Field(children[i], "id");
      }
    }
  }

  /** Saving any child's draft unchanged keeps the rest of the list, and
      keeps of that child exactly the fields the dialog shows: a field the
      server sent beyond them (say `created_at`) is dropped. */
  lemma UnchangedEditKeepsShownFields(children: seq<Obj>, k: nat)
    requires k < |children| && DistinctIds(children)
    ensures var r := SaveEdit(children, BeginEdit(children[k]));
            && |r| == |children|
            && r[k].Keys == children[k].Keys * DraftFields
            && (forall f :: f in r[k] ==> r[k][f] == children[k][f])
            && forall i :: 0 <= i < |children| && i != k ==> r[i] == children[i]
  {
    var d := BeginEdit(children[k]);
    assert Field(d, "id") == Field(children[k], "id");
    forall i | 0 <= i < |children| && i != k
      ensures Field(children[i], "id") != Field(d, "id")
    {
      if i < k {
        assert Field(children[i], "id") != Field(children[k], "id");
      } else {
        assert Field(children[k], "id") != Field(children[i], "id");
      }
    }
  }

  /** As written, an unchanged edit loses the id number: the saved child is
      no longer found by searching for it. Its delete button then sends a
      DELETE for an undefined id number; if the server accepts it, the list
      drops every child without an id number, and if not, nothing changes. */
  lemma EditAsWrittenLosesIdNumber()
    ensures var child := map["id" := Number(1), "name" := Text("a"), "id_number" := Text("123456789")];
            var other := map["id" := Number(2), "name" := Text("b")];
            var saved := SaveEdit([child, other], BeginEditAsWritten(child));
            && saved != [child, other]
            && SearchChildren([child, other], "123456789") == [child]
            && SearchChildren(saved, "123456789") == []
            && HandleDelete(saved, Field(saved[0], "id_number"), true, true, true) == []
            && HandleDelete(saved, Field(saved[0], "id_number"), true, true, false) == saved
  {
    var child := map["id" := Number(1), "name" := Text("a"), "id_number" := Text("123456789")];
    var other := map["id" := Number(2), "name" := Text("b")];
    var d := BeginEditAsWritten(child);
    assert d == map["id" := Number(1), "name" := Text("a")];
    var saved := SaveEdit([child, other], d);
    assert saved == [d, other];
    assert [child, other][1..] == [other] && saved[1..] == [other];
    assert Filter(c => ChildMatch("123456789", c), [other]) == [] by {
      ShortNameNoMatch(other, "123456789");
    }
    assert SearchChildren([child, other], "123456789") == [child] by {
      assert Contains("123456789", "123456789");
    }
    assert SearchChildren(saved, "123456789") == [] by {
      ShortNameNoMatch(d, "123456789");
    }
    assert DeleteChild(saved, Field(saved[0], "id_number")) == [] by {
      assert Field(d, "id_number") == None == Field(other, "id_number");
      assert Filter(c => OtherIdNumber(None, c), [other]) == [];
    }
  }

  /** A child without an id number whose name is shorter than the search
      text never matches it. */
  lemma ShortNameNoMatch(child: Obj, filter: string)
    requires "id_number" !in child
    requires "name" in child && child["name"].Text? && |child["name"].s| < |filter|
    ensures !ChildMatch(filter, child)
  {
    var name := Lower(child["name"].s);
    ContainsIffOccurs(name, Lower(filter));
    assert forall i :: !OccursAt(name, Lower(filter), i);
  }

  // ---------- delete ----------

  /** The child's `id_number` is not `id`. */
  predicate OtherIdNumber(id: Option<Value>, child: Obj)
  {
    Field(child, "id_number") != id
  }

  /** `children.filter(item => item.id_number !== id)`, after the server
      confirmed the delete; the row's button passes its `id_number`. */
  function DeleteChild(children: seq<Obj>, id: Option<Value>): (r: seq<Obj>)
    ensures forall i :: 0 <= i < |r| ==> Field(r[i], "id_number") != id
  {
    Filter(c => OtherIdNumber(id, c), children)
  }

  /** A delete removes exactly the children with that id number; the rest
      stay, in order. */
  lemma DeleteChildExact(children: seq<Obj>, id: Option<Value>, x: Obj)
    ensures IsSubsequence(DeleteChild(children, id), children)
    ensures x in DeleteChild(children, id) <==> x in children && Field(x, "id_number") != id
  {
    FilterIsSubsequence(c => OtherIdNumber(id, c), children);
    FilterMembership(c => OtherIdNumber(id, c), children, x);
  }

  /** `handleDelete(id)`: nothing changes without a token, a confirmation and
      the server's acceptance. */
  function HandleDelete(children: seq<Obj>, id: Option<Value>, hasToken: bool,
                        confirmed: bool, deleteOk: bool): (r: seq<Obj>)
    ensures !(hasToken && confirmed && deleteOk) ==> r == children
    ensures hasToken && confirmed && deleteOk ==>
              forall x :: x in r <==> x in children && Field(x, "id_number") != id
  {
    if hasToken && confirmed && deleteOk then
      forall x ensures x in DeleteChild(children, id) <==> x in children && Field(x, "id_number") != id {
        DeleteChildExact(children, id, x);
      }
      DeleteChild(children, id)
    else children
  }
}

=== FILE: common.dfy ===
/** Shared vocabulary: optional values, results, and the slice of JavaScript
    values (and their truthiness) that the front end's records carry. */
module Common {

  /** A field that may be `undefined`/`null` (None) or present (Some). */
  datatype Option<+T> = None | Some(value: T)

  /** The outcome of an operation that can fail with an error of type E. */
  datatype Result<+T, +E> = Ok(value: T) | Err(error: E)

  /** A JSON-like scalar as stored in a JavaScript object field.
      Numbers are integers here; floating point is not modelled. */
  datatype Value = Null | Bool(b: bool) | Number(n: int) | Text(s: string)

  /** JavaScript truthiness of a present value: `null`, `false`, `0` and `""`
      are falsy, everything else is truthy. */
  predicate Truthy(v: Value)
  {
    match v
    case Null => false
    case Bool(b) => b
    case Number(n) => n != 0
    case Text(s) => s != ""
  }

  /** A plain JavaScript object: field name to value. A missing key is `undefined`. */
  type Obj = map<string, Value>

  /** `o.name`, with `undefined` as None. */
  function Field(o: Obj, name: string): (r: Option<Value>)
    ensures r.Some? <==> name in o
    ensures r.Some? ==> r.value == o[name]
  {
    if name in o then Some(o[name]) else None
  }

  /** JavaScript truthiness of `o.name` (an absent field is `undefined`, falsy). */
  predicate FieldTruthy(o: Obj, name: string)
  {
    name in o && Truthy(o[name])
  }

  /** `{ ...a, ...b }`: every field of `b` overrides the same field of `a`. */
  function Spread(a: Obj, b: Obj): (r: Obj)
    ensures r.Keys == a.Keys + b.Keys
    ensures forall k :: k in b ==> r[k] == b[k]
    ensures forall k :: k in a && k !in b ==> r[k] == a[k]
  {
    a + b
  }

  /** `const { f1, f2, ...rest } = o`: the object without the named fields. */
  function Omit(o: Obj, names: set<string>): (r: Obj)
    ensures r.Keys == o.Keys - names
    ensures forall k :: k in r ==> r[k] == o[k]
  {
    map k | k in o && k !in names :: o[k]
  }
}

=== FILE: ledger.dfy ===
/** The income/expense ledger of `src/pages/Dashboard.js`: imports and
    exports are first written to the local database (stores `imports` and
    `exports`, key path `id` with a key generator) together with a marker in
    `pendingSync` (key path `tempId`); `syncPendingData` later POSTs each
    marker and swaps the local copy for the server's record. Records are
    plain JavaScript objects, since the code spreads and destructures them. */
module Ledger {

  import opened Common
  import opened Strings
  import opened Store
  import opened Seqs
  import Records

  // ---------- keys held inside records ----------

  /** The JavaScript value a key is read back as. */
  function KeyValue(k: Key): (v: Value)
    ensures AsKey(v) == Some(k)
  {
    match k
    case NumKey(n) => Number(n)
    case StrKey(s) => Text(s)
  }

  /** The key a value denotes, if it is a valid key (a number or a string). */
  function AsKey(v: Value): (r: Option<Key>)
    ensures r.Some? <==> v.Number? || v.Text?
  {
    match v
    case Number(n) => Some(NumKey(n))
    case Text(s) => Some(StrKey(s))
    case _ => None
  }

  /** The key of `o` in a store whose key path is `path`: the value at the
      path when present (a DataError if it is no valid key), otherwise a
      generated key (a DataError without a generator). */
  function InlineKey(s: ObjectStore<Obj>, o: Obj, path: string): (r: Result<Key, StoreError>)
    requires Store.Valid(s)
    ensures path in o ==> (r.Ok? <==> AsKey(o[path]).Some?)
    ensures path in o && r.Ok? ==> r.value == AsKey(o[path]).value
    ensures path !in o ==> (r.Ok? <==> s.autoIncrement)
    ensures path !in o && r.Ok? ==> r.value.NumKey? && r.value !in Contents(s)
    ensures r.Err? ==> r.error == DataError
  {
    match Field(o, path)
    case Some(v) => (match AsKey(v) case Some(k) => Ok(k) case None => Err(DataError))
    case None => ResolveKey(s, None)
  }

  /** `store.add(o)` with key path `path`; a generated key is written into the record. */
  function AddObj(s: ObjectStore<Obj>, path: string, o: Obj): (r: Result<Written<Obj>, StoreError>)
    requires Store.Valid(s)
    ensures r.Err? <==> (path in o && (AsKey(o[path]).None? || AsKey(o[path]).value in Contents(s)))
                        || (path !in o && !s.autoIncrement)
    ensures r.Ok? ==> Store.Valid(r.value.store) && r.value.store.autoIncrement == s.autoIncrement
    ensures r.Ok? ==> r.value.key !in Contents(s)
    ensures r.Ok? ==> Contents(r.value.store) == Contents(s)[r.value.key := o[path := KeyValue(r.value.key)]]
    ensures r.Ok? && path in o ==> o[path := KeyValue(r.value.key)] == o
    ensures r.Ok? && path !in o ==> r.value.key.NumKey?
  {
    match InlineKey(s, o, path)
    case Err(e) => Err(e)
    case Ok(k) => Add(s, Some(k), o[path := KeyValue(k)])
  }

  // ---------- the ledger ----------

  datatype Kind = Import | Export

  /** The `type` tag of a `pendingSync` marker. */
  function Tag(kind: Kind): string
  {
    match kind
    case Import => "import"
    case Export => "export"
  }

  /** The prefix of a temporary id. */
  function Prefix(kind: Kind): string
  {
    match kind
    case Import => "imp-"
    case Export => "exp-"
  }

  /** The kind a marker is tagged with, if it is one `syncPendingData` handles. */
  function KindOf(item: Obj): (k: Option<Kind>)
    ensures k == Some(Import) <==> Field(item, "type") == Some(Text("import"))
    ensures k == Some(Export) <==> Field(item, "type") == Some(Text("export"))
  {
    if Field(item, "type") == Some(Text("import")) then Some(Import)
    else if Field(item, "type") == Some(Text("export")) then Some(Export)
    else None
  }

  predicate Queued(item: Obj)
  {
    KindOf(item).Some?
  }

  /** One side of the ledger: its object store and the list the page shows. */
  datatype Book = Book(records: ObjectStore<Obj>, list: seq<Obj>)

  datatype Ledger = Ledger(imports: Book, exports: Book, pendingSync: ObjectStore<Obj>)

  /** The other side of the ledger. */
  function Other(kind: Kind): (o: Kind)
    ensures o != kind
  {
    match kind
    case Import => Export
    case Export => Import
  }

  function BookOf(l: Ledger, kind: Kind): Book
  {
    match kind
    case Import => l.imports
    case Export => l.exports
  }

  function WithBook(l: Ledger, kind: Kind, b: Book): (r: Ledger)
    ensures BookOf(r, kind) == b
    ensures BookOf(r, Other(kind)) == BookOf(l, Other(kind))
    ensures r.pendingSync == l.pendingSync
  {
    match kind
    case Import => l.(imports := b)
    case Export => l.(exports := b)
  }

  /** The stores as `getDB`'s upgrade creates them, and every marker stored
      under the key its own `tempId` names. */
  ghost predicate Valid(l: Ledger)
  {
    && Store.Valid(l.imports.records) && l.imports.records.autoIncrement
    && Store.Valid(l.exports.records) && l.exports.records.autoIncrement
    && QueueValid(l.pendingSync)
  }

  /** `pendingSync` as `getDB` creates it, each marker under its own `tempId`. */
  ghost predicate QueueValid(q: ObjectStore<Obj>)
  {
    && Store.Valid(q) && !q.autoIncrement
    && (forall k :: k in Contents(q) ==> Field(Contents(q)[k], "tempId") == Some(KeyValue(k)))
  }

  /** Putting a marker under the key its `tempId` names keeps the queue valid. */
  lemma PutMarkerKeepsQueue(q: ObjectStore<Obj>, tk: Key, marker: Obj)
    requires QueueValid(q) && Field(marker, "tempId") == Some(KeyValue(tk))
    ensures Put(q, Some(tk), marker).Ok?
    ensures QueueValid(Put(q, Some(tk), marker).value.store)
    ensures Contents(Put(q, Some(tk), marker).value.store) == Contents(q)[tk := marker]
  {
  }

  // ---------- saving locally ----------

  /** The temporary id: the prefix followed by `Date.now()`. */
  function TempId(kind: Kind, now: nat): (t: string)
    ensures IsPrefix(Prefix(kind), t)
  {
    Prefix(kind) + NatToString(now)
  }

  /** `{ ...record, tempId, synced: false }`. */
  function Stamped(record: Obj, tempId: string): (item: Obj)
    ensures item.Keys == record.Keys + {"tempId", "synced"}
    ensures item["tempId"] == Text(tempId) && item["synced"] == Bool(false)
    ensures forall f :: f in record && f != "tempId" && f != "synced" ==> item[f] == record[f]
  {
    Spread(record, map["tempId" := Text(tempId), "synced" := Bool(false)])
  }

  /** `{ ...item, type: tag }`: the queued marker. */
  function Marked(item: Obj, kind: Kind): (marker: Obj)
    ensures marker.Keys == item.Keys + {"type"}
    ensures marker["type"] == Text(Tag(kind)) && KindOf(marker) == Some(kind)
    ensures forall f :: f in item && f != "type" ==> marker[f] == item[f]
  {
    Spread(item, map["type" := Text(Tag(kind))])
  }

  /** `saveImportLocally` / `saveExportLocally`: add the stamped record to the
      kind's store, queue its marker under the temporary id and append the
      record to the page's list. An `add` refused by the store throws, and
      nothing after it happens. */
  function SaveLocally(l: Ledger, kind: Kind, record: Obj, now: nat): (r: Result<Ledger, StoreError>)
    requires Valid(l)
    ensures r.Err? <==> "id" in record && (AsKey(record["id"]).None?
                                             || AsKey(record["id"]).value in Contents(BookOf(l, kind).records))
    ensures r.Ok? ==> Valid(r.value)
    ensures r.Ok? ==> BookOf(r.value, Other(kind)) == BookOf(l, Other(kind))
    ensures r.Ok? ==> var item := Stamped(record, TempId(kind, now));
                      && BookOf(r.value, kind).list == BookOf(l, kind).list + [item]
                      && Contents(r.value.pendingSync)
                         == Contents(l.pendingSync)[StrKey(TempId(kind, now)) := Marked(item, kind)]
                      && (exists key :: key !in Contents(BookOf(l, kind).records)
                            && ("id" !in record ==> key.NumKey?)
                            && Contents(BookOf(r.value, kind).records)
                               == Contents(BookOf(l, kind).records)[key := item["id" := KeyValue(key)]])
  {
    var tempId := TempId(kind, now);
    var item := Stamped(record, tempId);
    var book := BookOf(l, kind);
    assert "id" in item <==> "id" in record;
    assert "id" in record ==> item["id"] == record["id"];
    match AddObj(book.records, "id", item)
    case Err(e) => Err(e)
    case Ok(w) =>
      var marker := Marked(item, kind);
      assert Field(marker, "tempId") == Some(KeyValue(StrKey(tempId)));
      PutMarkerKeepsQueue(l.pendingSync, StrKey(tempId), marker);
      var pending := Put(l.pendingSync, Some(StrKey(tempId)), marker).value.store;
      Ok(WithBook(l, kind, Book(w.store, book.list + [item])).(pendingSync := pending))
  }

  /** `saveImportLocally(newImport)`. */
  function SaveImportLocally(l: Ledger, newImport: Obj, now: nat): (r: Result<Ledger, StoreError>)
    requires Valid(l)
    ensures r.Err? <==> "id" in newImport && (AsKey(newImport["id"]).None?
                                                || AsKey(newImport["id"]).value in Contents(l.imports.records))
    ensures r.Ok? ==> Valid(r.value) && r.value.exports == l.exports
    ensures r.Ok? ==> var tempId := TempId(Import, now);
                      && IsPrefix("imp-", tempId)
                      && r.value.imports.list == l.imports.list + [Stamped(newImport, tempId)]
                      && StrKey(tempId) in Contents(r.value.pendingSync)
                      && KindOf(Contents(r.value.pendingSync)[StrKey(tempId)]) == Some(Import)
  {
    SaveLocally(l, Import, newImport, now)
  }

  /** `saveExportLocally(newExport)`. */
  function SaveExportLocally(l: Ledger, newExport: Obj, now: nat): (r: Result<Ledger, StoreError>)
    requires Valid(l)
    ensures r.Err? <==> "id" in newExport && (AsKey(newExport["id"]).None?
                                                || AsKey(newExport["id"]).value in Contents(l.exports.records))
    ensures r.Ok? ==> Valid(r.value) && r.value.imports == l.imports
    ensures r.Ok? ==> var tempId := TempId(Export, now);
                      && IsPrefix("exp-", tempId)
                      && r.value.exports.list == l.exports.list + [Stamped(newExport, tempId)]
                      && StrKey(tempId) in Contents(r.value.pendingSync)
                      && KindOf(Contents(r.value.pendingSync)[StrKey(tempId)]) == Some(Export)
  {
    SaveLocally(l, Export, newExport, now)
  }

  /** `handleSubmit` labels every import with the cash-aid type. */
  const CashLabel: string := Records.CashAid

  /** `handleSubmit`'s record: the form fields with `type` set to the cash label. */
  function CashImport(importData: Obj): (r: Obj)
    ensures r.Keys == importData.Keys + {"type"} && r["type"] == Text(CashLabel)
    ensures forall f :: f in importData && f != "type" ==> r[f] == importData[f]
  {
    Spread(importData, map["type" := Text(CashLabel)])
  }

  // ---------- syncing ----------

  /** `const { tempId, synced, ...dataToSend } = item`: the body that is POSTed. */
  function Payload(item: Obj): (p: Obj)
    ensures "tempId" !in p && "synced" !in p
    ensures p.Keys == item.Keys - {"tempId", "synced"}
    ensures forall f :: f in p ==> p[f] == item[f]
  {
    Omit(item, {"tempId", "synced"})
  }

  /** The queued marker of a cash import is POSTed with `type: "import"`:
      the cash label never reaches the server, while every other form field
      does, unchanged. */
  lemma CashLabelNeverSent(importData: Obj, now: nat)
    ensures var p := Payload(Marked(Stamped(CashImport(importData), TempId(Import, now)), Import));
            && p["type"] == Text("import") && p["type"] != Text(CashLabel)
            && (forall f :: f in importData && f != "type" && f != "tempId" && f != "synced"
                  ==> f in p && p[f] == importData[f])
  {
    var p := Payload(Marked(Stamped(CashImport(importData), TempId(Import, now)), Import));
    assert p["type"] == Text("import");
    assert "import"[0] != CashLabel[0];
  }

  /** Two records of the same kind saved in the same millisecond get the same
      temporary id: both are stored, but the second marker overwrites the
      first, so only one of them is ever synced. */
  lemma SameInstantSharesMarker(l: Ledger, kind: Kind, a: Obj, b: Obj, now: nat)
    requires Valid(l) && "id" !in a && "id" !in b
    ensures SaveLocally(l, kind, a, now).Ok?
    ensures var l1 := SaveLocally(l, kind, a, now).value;
            && SaveLocally(l1, kind, b, now).Ok?
            && var l2 := SaveLocally(l1, kind, b, now).value;
               && |BookOf(l2, kind).list| == |BookOf(l, kind).list| + 2
               && Contents(l2.pendingSync)
                  == Contents(l.pendingSync)[StrKey(TempId(kind, now)) := Marked(Stamped(b, TempId(kind, now)), kind)]
  {
    var t := TempId(kind, now);
    SaveWithoutId(l, kind, a, now);
    var l1 := SaveLocally(l, kind, a, now).value;
    SaveWithoutId(l1, kind, b, now);
    var l2 := SaveLocally(l1, kind, b, now).value;
    OverwriteTwice(Contents(l.pendingSync), StrKey(t), Marked(Stamped(a, t), kind), Marked(Stamped(b, t), kind));
  }

  /** A record without `id` is always saved: the store generates its key. */
  lemma SaveWithoutId(l: Ledger, kind: Kind, record: Obj, now: nat)
    requires Valid(l) && "id" !in record
    ensures SaveLocally(l, kind, record, now).Ok?
    ensures var l1 := SaveLocally(l, kind, record, now).value;
            && Valid(l1)
            && |BookOf(l1, kind).list| == |BookOf(l, kind).list| + 1
            && Contents(l1.pendingSync)
               == Contents(l.pendingSync)[StrKey(TempId(kind, now)) := Marked(Stamped(record, TempId(kind, now)), kind)]
  {
  }

  /** The temporary id of a marker, as a key. */
  function TempKey(item: Obj): (k: Option<Key>)
    ensures k.Some? ==> "tempId" in item && KeyValue(k.value) == item["tempId"]
  {
    match Field(item, "tempId")
    case Some(v) => AsKey(v)
    case None => None
  }

  /** `item.id || tempId`: the key the local copy is deleted under. */
  function LocalKey(item: Obj, tk: Key): Option<Key>
  {
    if FieldTruthy(item, "id") then AsKey(item["id"]) else Some(tk)
  }

  /** The list entry at `i` carries the temporary id `tempId`. */
  predicate CarriesTemp(list: seq<Obj>, i: int, tempId: Value)
  {
    0 <= i < |list| && Field(list[i], "tempId") == Some(tempId)
  }

  /** `list.map(x => x.tempId === tempId ? data : x)`: the swap keeps every
      position; the entries carrying `tempId` become `data`, the rest stay. */
  function ReplaceTemp(list: seq<Obj>, tempId: Value, data: Obj): (r: seq<Obj>)
    ensures |r| == |list|
    ensures forall i :: CarriesTemp(list, i, tempId) ==> r[i] == data
    ensures forall i :: 0 <= i < |list| && !CarriesTemp(list, i, tempId) ==> r[i] == list[i]
  {
    seq(|list|, i requires 0 <= i < |list| =>
      if Field(list[i], "tempId") == Some(tempId) then data else list[i])
  }

  /** A swap for a temporary id no entry carries leaves the list as it was. */
  lemma ReplaceAbsentTemp(list: seq<Obj>, tempId: Value, data: Obj)
    requires forall i :: !CarriesTemp(list, i, tempId)
    ensures ReplaceTemp(list, tempId, data) == list
  {
    var r := ReplaceTemp(list, tempId, data);
    assert forall i :: 0 <= i < |list| ==> r[i] == list[i];
  }

  /** When the server's record does not carry the temporary id, the swap
      settles it for good: no entry carries it afterwards, and swapping
      again changes nothing. */
  lemma ReplaceTempSettles(list: seq<Obj>, tempId: Value, data: Obj)
    requires Field(data, "tempId") != Some(tempId)
    ensures forall i :: !CarriesTemp(ReplaceTemp(list, tempId, data), i, tempId)
    ensures ReplaceTemp(ReplaceTemp(list, tempId, data), tempId, data) == ReplaceTemp(list, tempId, data)
  {
    var r := ReplaceTemp(list, tempId, data);
    forall i | 0 <= i < |r|
      ensures !CarriesTemp(r, i, tempId)
    {
      if !CarriesTemp(list, i, tempId) {
        assert r[i] == list[i];
      }
    }
    ReplaceAbsentTemp(r, tempId, data);
  }

  /** `store.add(data)` into a store holding `records` (with a key
      generator) throws: `data` carries an `id` that is no valid key or
      that is already stored. */
  predicate AddRefused(records: map<Key, Obj>, data: Obj)
  {
    "id" in data && (AsKey(data["id"]).None? || AsKey(data["id"]).value in records)
  }

  /** What follows a successful POST of `item`, whose server record is `data`:
      the marker is deleted from `pendingSync`, then the local copy under
      `item.id || tempId`, then `data` is added and swapped into the list.
      Each step that throws ends the item, keeping the steps before it: an
      `item.id` that is no valid key makes the delete throw, and a refused
      `add` leaves the list unswapped. */
  function Settle(l: Ledger, kind: Kind, item: Obj, tk: Key, data: Obj): (r: Ledger)
    requires Valid(l) && TempKey(item) == Some(tk)
    ensures Valid(r)
    ensures Contents(r.pendingSync) == Contents(l.pendingSync) - {tk}
    ensures BookOf(r, Other(kind)) == BookOf(l, Other(kind))
    ensures LocalKey(item, tk).None? ==> BookOf(r, kind) == BookOf(l, kind)
    ensures LocalKey(item, tk).Some? ==>
              var book := BookOf(l, kind);
              var kept := Contents(book.records) - {LocalKey(item, tk).value};
              if AddRefused(kept, data) then
                && BookOf(r, kind).list == book.list
                && Contents(BookOf(r, kind).records) == kept
              else
                && BookOf(r, kind).list == ReplaceTemp(book.list, item["tempId"], data)
                && exists key :: key !in kept && ("id" in data ==> AsKey(data["id"]) == Some(key))
                     && Contents(BookOf(r, kind).records) == kept[key := data["id" := KeyValue(key)]]
  {
    var l1 := l.(pendingSync := Delete(l.pendingSync, tk));
    var book := BookOf(l1, kind);
    match LocalKey(item, tk)
    case None => l1
    case Some(lk) =>
      var records := Delete(book.records, lk);
      match AddObj(records, "id", data)
      case Err(_) => WithBook(l1, kind, book.(records := records))
      case Ok(w) => WithBook(l1, kind, Book(w.store, ReplaceTemp(book.list, item["tempId"], data)))
  }

  /** The server's answer to the `j`-th POST of a run; a missing answer is a rejection. */
  function Answer(outcomes: seq<Option<Obj>>, j: nat): Option<Obj>
  {
    if j < |outcomes| then outcomes[j] else None
  }

  /** How many POSTs precede the one for `items[i]`: one per queued item before it. */
  function PostIndex(items: seq<Obj>, i: nat): nat
    requires i <= |items|
  {
    |Filter(Queued, items[..i])|
  }

  /** `items[i]` is POSTed, as the run's `j + PostIndex(items, i)`-th request, and accepted. */
  predicate Accepted(items: seq<Obj>, outcomes: seq<Option<Obj>>, j: nat, i: nat)
    requires i < |items|
  {
    Queued(items[i]) && Answer(outcomes, j + PostIndex(items, i)).Some?
  }

  datatype SyncRun = SyncRun(ledger: Ledger, posted: seq<Obj>)

  lemma PostIndexShift(items: seq<Obj>, i: nat)
    requires 0 < i <= |items|
    ensures PostIndex(items, i) == PostIndex(items[1..], i - 1) + (if Queued(items[0]) then 1 else 0)
  {
    assert items[..i] == [items[0]] + items[1..][..i - 1];
    assert ([items[0]] + items[1..][..i - 1])[1..] == items[1..][..i - 1];
  }

  /** `posted` holds the payload of each queued item of `items`, in order. */
  predicate PostsEach(items: seq<Obj>, posted: seq<Obj>)
  {
    && |posted| == |Filter(Queued, items)|
    && forall p :: 0 <= p < |posted| ==> posted[p] == Payload(Filter(Queued, items)[p])
  }

  /** `after` holds some of the markers of `before`, each unchanged. */
  ghost predicate Shrinks(before: ObjectStore<Obj>, after: ObjectStore<Obj>)
  {
    forall k :: k in Contents(after) ==> k in Contents(before) && Contents(after)[k] == Contents(before)[k]
  }

  /** No item of `items` naming `k` as its temporary id was accepted. */
  predicate NoneAccepted(items: seq<Obj>, outcomes: seq<Option<Obj>>, j: nat, k: Key)
  {
    forall i :: 0 <= i < |items| && TempKey(items[i]) == Some(k) ==> !Accepted(items, outcomes, j, i)
  }

  /** Every marker of `before` none of whose items was accepted is still in `after`. */
  ghost predicate KeepsRejected(before: ObjectStore<Obj>, items: seq<Obj>, outcomes: seq<Option<Obj>>, j: nat, after: ObjectStore<Obj>)
  {
    forall k :: k in Contents(before) && NoneAccepted(items, outcomes, j, k) ==> k in Contents(after)
  }

  /** The marker of every accepted item is gone from `after`. */
  ghost predicate DropsAccepted(items: seq<Obj>, outcomes: seq<Option<Obj>>, j: nat, after: ObjectStore<Obj>)
  {
    forall i :: 0 <= i < |items| && Accepted(items, outcomes, j, i) && TempKey(items[i]).Some?
      ==> TempKey(items[i]).value !in Contents(after)
  }

  /** The loop of `syncPendingData` over the snapshot `items`, the first of
      whose requests is the run's `j`-th. Every queued item is POSTed,
      whatever happened to the ones before it; other items are skipped. */
  function SyncItems(l: Ledger, items: seq<Obj>, outcomes: seq<Option<Obj>>, j: nat): (r: SyncRun)
    requires Valid(l)
    ensures Valid(r.ledger)
    ensures PostsEach(items, r.posted)
    ensures Shrinks(l.pendingSync, r.ledger.pendingSync)
    ensures KeepsRejected(l.pendingSync, items, outcomes, j, r.ledger.pendingSync)
    ensures DropsAccepted(items, outcomes, j, r.ledger.pendingSync)
    decreases |items|
  {
    if items == [] then SyncRun(l, [])
    else
      var item := items[0];
      var next := if Queued(item) then j + 1 else j;
      var l1 := Step(l, item, outcomes, j);
      var rest := SyncItems(l1, items[1..], outcomes, next);
      var r := if Queued(item) then SyncRun(rest.ledger, [Payload(item)] + rest.posted) else rest;
      StepPosts(items, rest.posted);
      AcceptedShift(items, outcomes, j);
      StepKeeps(l.pendingSync, l1.pendingSync, items, outcomes, j, r.ledger.pendingSync);
      StepDrops(l1.pendingSync, items, outcomes, j, r.ledger.pendingSync);
      r
  }

  /** The loop body for one marker, whose POST is the run's `j`-th request:
      an accepted marker is settled, anything else leaves the ledger as it is. */
  function Step(l: Ledger, item: Obj, outcomes: seq<Option<Obj>>, j: nat): (r: Ledger)
    requires Valid(l)
    ensures Valid(r)
  {
    if !Queued(item) then l
    else match (Answer(outcomes, j), TempKey(item))
         case (Some(data), Some(tk)) => Settle(l, KindOf(item).value, item, tk, data)
         case _ => l
  }

  /** One step keeps the length of both lists and changes, if anything,
      only the entries carrying the temporary id of an accepted marker of
      that kind. */
  lemma StepList(l: Ledger, item: Obj, outcomes: seq<Option<Obj>>, j: nat, kind: Kind)
    requires Valid(l)
    ensures |BookOf(Step(l, item, outcomes, j), kind).list| == |BookOf(l, kind).list|
    ensures forall p :: 0 <= p < |BookOf(l, kind).list|
              && !(Queued(item) && Answer(outcomes, j).Some? && KindOf(item) == Some(kind) && TempKey(item).Some?
                   && CarriesTemp(BookOf(l, kind).list, p, item["tempId"]))
              ==> BookOf(Step(l, item, outcomes, j), kind).list[p] == BookOf(l, kind).list[p]
  {
    if Queued(item) && Answer(outcomes, j).Some? && TempKey(item).Some? {
      var k := KindOf(item).value;
      var r := Settle(l, k, item, TempKey(item).value, Answer(outcomes, j).value);
      assert Step(l, item, outcomes, j) == r;
      if k != kind {
        assert kind == Other(k);
      } else {
        SettleKeepsList(l, k, item, TempKey(item).value, Answer(outcomes, j).value);
      }
    }
  }

  /** Settling keeps the length of the book's list and every entry that does
      not carry the marker's temporary id. */
  lemma SettleKeepsList(l: Ledger, kind: Kind, item: Obj, tk: Key, data: Obj)
    requires Valid(l) && TempKey(item) == Some(tk)
    ensures var before := BookOf(l, kind).list;
            var after := BookOf(Settle(l, kind, item, tk, data), kind).list;
            && |after| == |before|
            && forall p :: 0 <= p < |before| && !CarriesTemp(before, p, item["tempId"]) ==> after[p] == before[p]
  {
  }

  /** No accepted marker of `kind` in the run names `t` as its temporary id. */
  predicate Unsettled(items: seq<Obj>, outcomes: seq<Option<Obj>>, j: nat, kind: Kind, t: Value)
  {
    forall i :: 0 <= i < |items| && Accepted(items, outcomes, j, i) && KindOf(items[i]) == Some(kind) && TempKey(items[i]).Some?
      ==> KeyValue(TempKey(items[i]).value) != t
  }

  /** The entry at `p` carries no temporary id, or one no accepted marker of `kind` names. */
  predicate KeptEntry(list: seq<Obj>, p: int, items: seq<Obj>, outcomes: seq<Option<Obj>>, j: nat, kind: Kind)
  {
    0 <= p < |list| && (Field(list[p], "tempId").None? || Unsettled(items, outcomes, j, kind, list[p]["tempId"]))
  }

  /** The run's swaps keep both lists' length and leave alone every entry no
      accepted marker of that kind names: the local records nobody settled
      stay on the page as they were. */
  lemma SyncKeepsUnsettled(l: Ledger, items: seq<Obj>, outcomes: seq<Option<Obj>>, j: nat, kind: Kind)
    requires Valid(l)
    ensures var before := BookOf(l, kind).list;
            var after := BookOf(SyncItems(l, items, outcomes, j).ledger, kind).list;
            && |after| == |before|
            && forall p :: KeptEntry(before, p, items, outcomes, j, kind) ==> after[p] == before[p]
  {
    RunIsSync(l, items, outcomes, j);
    RunKeepsUnsettled(l, items, outcomes, j, kind);
  }

  lemma {:induction false} RunKeepsUnsettled(l: Ledger, items: seq<Obj>, outcomes: seq<Option<Obj>>, j: nat, kind: Kind)
    requires Valid(l)
    ensures var before := BookOf(l, kind).list;
            var after := BookOf(Run(l, items, outcomes, j), kind).list;
            && |after| == |before|
            && forall p :: KeptEntry(before, p, items, outcomes, j, kind) ==> after[p] == before[p]
    decreases |items|
  {
    if items != [] {
      var item := items[0];
      var next := if Queued(item) then j + 1 else j;
      var l1 := Step(l, item, outcomes, j);
      RunKeepsUnsettled(l1, items[1..], outcomes, next, kind);
      AcceptedShift(items, outcomes, j);
      StepList(l, item, outcomes, j, kind);
      var before := BookOf(l, kind).list;
      var mid := BookOf(l1, kind).list;
      forall p | KeptEntry(before, p, items, outcomes, j, kind)
        ensures mid[p] == before[p] && KeptEntry(mid, p, items[1..], outcomes, next, kind)
      {
        if Field(before[p], "tempId").Some? {
          var t := before[p]["tempId"];
          if Queued(item) && Answer(outcomes, j).Some? && KindOf(item) == Some(kind) && TempKey(item).Some? {
            assert Accepted(items, outcomes, j, 0);
            assert KeyValue(TempKey(item).value) != t;
          }
          forall i | 0 <= i < |items[1..]| && Accepted(items[1..], outcomes, next, i)
                     && KindOf(items[1..][i]) == Some(kind) && TempKey(items[1..][i]).Some?
            ensures KeyValue(TempKey(items[1..][i]).value) != t
          {
            assert items[1..][i] == items[i + 1];
            assert Accepted(items, outcomes, j, i + 1);
          }
        }
      }
    }
  }

  /** Distinct keys are read back as distinct values. */
  lemma KeyValueInjective(a: Key, b: Key)
    requires a != b
    ensures KeyValue(a) != KeyValue(b)
  {
    assert AsKey(KeyValue(a)) == Some(a);
  }

  /** The ledger after the loop of `SyncItems`: its steps, one after another. */
  ghost function Run(l: Ledger, items: seq<Obj>, outcomes: seq<Option<Obj>>, j: nat): (r: Ledger)
    requires Valid(l)
    ensures Valid(r)
    decreases |items|
  {
    if items == [] then l
    else Run(Step(l, items[0], outcomes, j), items[1..], outcomes, if Queued(items[0]) then j + 1 else j)
  }

  lemma {:induction false} RunIsSync(l: Ledger, items: seq<Obj>, outcomes: seq<Option<Obj>>, j: nat)
    requires Valid(l)
    ensures SyncItems(l, items, outcomes, j).ledger == Run(l, items, outcomes, j)
    decreases |items|
  {
    if items != [] {
      RunIsSync(Step(l, items[0], outcomes, j), items[1..], outcomes, if Queued(items[0]) then j + 1 else j);
    }
  }

  /** Settling a marker whose local copy can be deleted swaps its list
      entry for the server's record, unless that record carries an `id`
      the store refuses. */
  lemma SettleSwapsEntry(l: Ledger, kind: Kind, item: Obj, tk: Key, data: Obj, p: nat)
    requires Valid(l) && TempKey(item) == Some(tk) && LocalKey(item, tk).Some?
    requires CarriesTemp(BookOf(l, kind).list, p, item["tempId"])
    ensures var after := BookOf(Settle(l, kind, item, tk, data), kind).list;
            && p < |after|
            && (after[p] == data || ("id" in data && after[p] == BookOf(l, kind).list[p]))
  {
  }

  /** The first marker's swap survives the rest of the run: the server's
      record carries no temporary id, and an unswapped entry carries one no
      later marker names. */
  lemma RunSwapsFirst(l: Ledger, items: seq<Obj>, outcomes: seq<Option<Obj>>, j: nat, p: nat)
    requires Valid(l)
    requires items != [] && Accepted(items, outcomes, j, 0) && TempKey(items[0]).Some?
    requires LocalKey(items[0], TempKey(items[0]).value).Some?
    requires forall q :: 0 < q < |items| ==> TempKey(items[q]) != TempKey(items[0])
    requires "tempId" !in Answer(outcomes, j).value
    requires CarriesTemp(BookOf(l, KindOf(items[0]).value).list, p, items[0]["tempId"])
    ensures var kind := KindOf(items[0]).value;
            var data := Answer(outcomes, j).value;
            var after := BookOf(Run(l, items, outcomes, j), kind).list;
            && p < |after|
            && (after[p] == data || ("id" in data && after[p] == BookOf(l, kind).list[p]))
  {
    var item := items[0];
    var kind := KindOf(item).value;
    var next := j + 1;
    var data := Answer(outcomes, j).value;
    var tk := TempKey(item).value;
    var l1 := Step(l, item, outcomes, j);
    assert l1 == Settle(l, kind, item, tk, data);
    SettleSwapsEntry(l, kind, item, tk, data, p);
    RunKeepsUnsettled(l1, items[1..], outcomes, next, kind);
    var mid := BookOf(l1, kind).list;
    if mid[p] == data {
      assert Field(mid[p], "tempId").None?;
    } else {
      forall q | 0 <= q < |items[1..]| && Accepted(items[1..], outcomes, next, q)
                 && KindOf(items[1..][q]) == Some(kind) && TempKey(items[1..][q]).Some?
        ensures KeyValue(TempKey(items[1..][q]).value) != KeyValue(tk)
      {
        assert items[1..][q] == items[q + 1];
        KeyValueInjective(TempKey(items[q + 1]).value, tk);
      }
    }
    assert KeptEntry(mid, p, items[1..], outcomes, next, kind);
  }

  /** The swap of `Dashboard.js`'s `setImports`/`setExports`: after the run,
      the list entry of an accepted marker holds the server's record; the
      swap misses only when that record carries an `id` the store refuses,
      and the entry then stays as it was. This holds when the run's markers
      name distinct temporary ids (as `pendingSync`'s keys do) and the
      server's record carries no `tempId`. */
  lemma SyncSwapsAccepted(l: Ledger, items: seq<Obj>, outcomes: seq<Option<Obj>>, j: nat, i: nat, p: nat)
    requires Valid(l)
    requires i < |items| && Accepted(items, outcomes, j, i) && TempKey(items[i]).Some?
    requires LocalKey(items[i], TempKey(items[i]).value).Some?
    requires forall q :: 0 <= q < |items| && q != i ==> TempKey(items[q]) != TempKey(items[i])
    requires "tempId" !in Answer(outcomes, j + PostIndex(items, i)).value
    requires CarriesTemp(BookOf(l, KindOf(items[i]).value).list, p, items[i]["tempId"])
    ensures var kind := KindOf(items[i]).value;
            var data := Answer(outcomes, j + PostIndex(items, i)).value;
            var after := BookOf(SyncItems(l, items, outcomes, j).ledger, kind).list;
            && p < |after|
            && (after[p] == data || ("id" in data && after[p] == BookOf(l, kind).list[p]))
  {
    RunIsSync(l, items, outcomes, j);
    var kind := KindOf(items[i]).value;
    RunSplit(l, items, outcomes, j, i);
    RunPrefixKeeps(l, items, outcomes, j, i, kind, p);
    SuffixPremises(items, outcomes, j, i);
    RunSwapsFirst(Run(l, items[..i], outcomes, j), items[i..], outcomes, j + PostIndex(items, i), p);
  }

  /** The steps before a marker leave alone a list entry carrying its
      temporary id, when no other marker names that id. */
  lemma RunPrefixKeeps(l: Ledger, items: seq<Obj>, outcomes: seq<Option<Obj>>, j: nat, i: nat, kind: Kind, p: nat)
    requires Valid(l) && i < |items| && TempKey(items[i]).Some?
    requires forall q :: 0 <= q < |items| && q != i ==> TempKey(items[q]) != TempKey(items[i])
    requires CarriesTemp(BookOf(l, kind).list, p, items[i]["tempId"])
    ensures var after := BookOf(Run(l, items[..i], outcomes, j), kind).list;
            && CarriesTemp(after, p, items[i]["tempId"])
            && after[p] == BookOf(l, kind).list[p]
  {
    var tk := TempKey(items[i]).value;
    RunKeepsUnsettled(l, items[..i], outcomes, j, kind);
    forall q | 0 <= q < |items[..i]| && Accepted(items[..i], outcomes, j, q)
               && KindOf(items[..i][q]) == Some(kind) && TempKey(items[..i][q]).Some?
      ensures KeyValue(TempKey(items[..i][q]).value) != KeyValue(tk)
    {
      KeyValueInjective(TempKey(items[q]).value, tk);
    }
    assert KeptEntry(BookOf(l, kind).list, p, items[..i], outcomes, j, kind);
  }

  /** The premises of `RunSwapsFirst` for the run from the `i`-th item on. */
  lemma SuffixPremises(items: seq<Obj>, outcomes: seq<Option<Obj>>, j: nat, i: nat)
    requires i < |items| && Accepted(items, outcomes, j, i)
    requires forall q :: 0 <= q < |items| && q != i ==> TempKey(items[q]) != TempKey(items[i])
    ensures var suffix := items[i..];
            && suffix != [] && suffix[0] == items[i]
            && Accepted(suffix, outcomes, j + PostIndex(items, i), 0)
            && forall q :: 0 < q < |suffix| ==> TempKey(suffix[q]) != TempKey(suffix[0])
  {
    var suffix := items[i..];
    assert suffix[0] == items[i] && suffix[..0] == [];
    forall q | 0 < q < |suffix|
      ensures TempKey(suffix[q]) != TempKey(suffix[0])
    {
      assert suffix[q] == items[i + q];
    }
  }

  /** `items` fed through `step` one by one; the POST count `j` advances
      past each queued item. */
  ghost function Fold(step: (Ledger, Obj, nat) -> Ledger, l: Ledger, items: seq<Obj>, j: nat): Ledger
    decreases |items|
  {
    if items == [] then l
    else Fold(step, step(l, items[0], j), items[1..], if Queued(items[0]) then j + 1 else j)
  }

  /** Folding is folding the first `i` items, then the rest, whose POSTs
      start where the prefix's end. */
  lemma {:induction false} FoldSplit(step: (Ledger, Obj, nat) -> Ledger, l: Ledger, items: seq<Obj>, j: nat, i: nat)
    requires i <= |items|
    ensures Fold(step, l, items, j) == Fold(step, Fold(step, l, items[..i], j), items[i..], j + PostIndex(items, i))
    decreases i
  {
    if i == 0 {
      assert items[..0] == [] && items[0..] == items;
    } else {
      var rest := items[1..];
      FoldSplit(step, step(l, items[0], j), rest, if Queued(items[0]) then j + 1 else j, i - 1);
      PostIndexShift(items, i);
      assert items[..i][0] == items[0] && items[..i][1..] == rest[..i - 1];
      assert rest[i - 1..] == items[i..];
    }
  }

  /** One step of the run, as a total function of the ledger. */
  ghost function StepOf(outcomes: seq<Option<Obj>>): (Ledger, Obj, nat) -> Ledger
  {
    (l: Ledger, item: Obj, j: nat) => if Valid(l) then Step(l, item, outcomes, j) else l
  }

  lemma {:induction false} RunIsFold(l: Ledger, items: seq<Obj>, outcomes: seq<Option<Obj>>, j: nat)
    requires Valid(l)
    ensures Run(l, items, outcomes, j) == Fold(StepOf(outcomes), l, items, j)
    decreases |items|
  {
    if items != [] {
      var l1 := Step(l, items[0], outcomes, j);
      assert StepOf(outcomes)(l, items[0], j) == l1;
      RunIsFold(l1, items[1..], outcomes, if Queued(items[0]) then j + 1 else j);
    }
  }

  /** A run is its first `i` steps followed by the rest. */
  lemma RunSplit(l: Ledger, items: seq<Obj>, outcomes: seq<Option<Obj>>, j: nat, i: nat)
    requires Valid(l) && i <= |items|
    ensures Run(l, items, outcomes, j) == Run(Run(l, items[..i], outcomes, j), items[i..], outcomes, j + PostIndex(items, i))
  {
    var mid := Run(l, items[..i], outcomes, j);
    RunIsFold(l, items, outcomes, j);
    RunIsFold(l, items[..i], outcomes, j);
    RunIsFold(mid, items[i..], outcomes, j + PostIndex(items, i));
    FoldSplit(StepOf(outcomes), l, items, j, i);
  }

  lemma StepPosts(items: seq<Obj>, rest: seq<Obj>)
    requires items != [] && PostsEach(items[1..], rest)
    ensures PostsEach(items, if Queued(items[0]) then [Payload(items[0])] + rest else rest)
  {
  }

  /** Acceptance of a later item, seen from the rest of the run. */
  lemma AcceptedShift(items: seq<Obj>, outcomes: seq<Option<Obj>>, j: nat)
    requires items != []
    ensures forall i :: 0 < i < |items| ==>
              Accepted(items, outcomes, j, i) == Accepted(items[1..], outcomes, if Queued(items[0]) then j + 1 else j, i - 1)
    ensures Accepted(items, outcomes, j, 0) == (Queued(items[0]) && Answer(outcomes, j).Some?)
  {
    forall i | 0 < i < |items|
      ensures Accepted(items, outcomes, j, i) == Accepted(items[1..], outcomes, if Queued(items[0]) then j + 1 else j, i - 1)
    {
      PostIndexShift(items, i);
    }
    assert items[..0] == [];
  }

  lemma StepKeeps(before: ObjectStore<Obj>, mid: ObjectStore<Obj>, items: seq<Obj>, outcomes: seq<Option<Obj>>, j: nat,
                  after: ObjectStore<Obj>)
    requires items != []
    requires forall i :: 0 < i < |items| ==>
               Accepted(items, outcomes, j, i) == Accepted(items[1..], outcomes, if Queued(items[0]) then j + 1 else j, i - 1)
    requires (Accepted(items, outcomes, j, 0) && TempKey(items[0]).Some?)
               ==> Contents(mid) == Contents(before) - {TempKey(items[0]).value}
    requires !(Accepted(items, outcomes, j, 0) && TempKey(items[0]).Some?) ==> mid == before
    requires KeepsRejected(mid, items[1..], outcomes, if Queued(items[0]) then j + 1 else j, after)
    ensures KeepsRejected(before, items, outcomes, j, after)
  {
    var next := if Queued(items[0]) then j + 1 else j;
    forall k | k in Contents(before) && NoneAccepted(items, outcomes, j, k)
      ensures k in Contents(after)
    {
      assert NoneAccepted(items[1..], outcomes, next, k) by {
        forall i | 0 <= i < |items[1..]| && TempKey(items[1..][i]) == Some(k)
          ensures !Accepted(items[1..], outcomes, next, i)
        {
          assert items[1..][i] == items[i + 1];
        }
      }
    }
  }

  lemma StepDrops(mid: ObjectStore<Obj>, items: seq<Obj>, outcomes: seq<Option<Obj>>, j: nat, after: ObjectStore<Obj>)
    requires items != []
    requires forall i :: 0 < i < |items| ==>
               Accepted(items, outcomes, j, i) == Accepted(items[1..], outcomes, if Queued(items[0]) then j + 1 else j, i - 1)
    requires Accepted(items, outcomes, j, 0) && TempKey(items[0]).Some? ==> TempKey(items[0]).value !in Contents(mid)
    requires forall k :: k in Contents(after) ==> k in Contents(mid)
    requires DropsAccepted(items[1..], outcomes, if Queued(items[0]) then j + 1 else j, after)
    ensures DropsAccepted(items, outcomes, j, after)
  {
    forall i | 0 < i < |items| && Accepted(items, outcomes, j, i) && TempKey(items[i]).Some?
      ensures TempKey(items[i]).value !in Contents(after)
    {
      assert items[1..][i - 1] == items[i];
    }
  }

  /** `syncPendingData()`, with `online` standing for `navigator.onLine`:
      the markers are read once, in key order, and processed in turn. */
  function SyncPendingData(l: Ledger, online: bool, outcomes: seq<Option<Obj>>): (r: SyncRun)
    requires Valid(l)
    ensures !online ==> r == SyncRun(l, [])
    ensures Valid(r.ledger)
    ensures forall p :: 0 <= p < |r.posted| ==> "tempId" !in r.posted[p] && "synced" !in r.posted[p]
    ensures forall k :: k in Contents(r.ledger.pendingSync) ==>
              k in Contents(l.pendingSync) && Contents(r.ledger.pendingSync)[k] == Contents(l.pendingSync)[k]
    ensures forall k :: k in Contents(l.pendingSync) && !Queued(Contents(l.pendingSync)[k])
              ==> k in Contents(r.ledger.pendingSync)
  {
    if !online then SyncRun(l, [])
    else
      var es := GetAll(l.pendingSync);
      var items := EntryValues(es);
      var r := SyncItems(l, items, outcomes, 0);
      forall k | k in Contents(l.pendingSync) && !Queued(Contents(l.pendingSync)[k])
        ensures NoneAccepted(items, outcomes, 0, k)
      {
        forall i | 0 <= i < |items| && TempKey(items[i]) == Some(k)
          ensures !Accepted(items, outcomes, 0, i)
        {
          SnapshotTempKey(l, es, i);
        }
      }
      r
  }

  /** In the snapshot, each marker's `tempId` names the key it is stored under. */
  lemma SnapshotTempKey(l: Ledger, es: seq<Entry<Obj>>, i: nat)
    requires Valid(l) && es == GetAll(l.pendingSync) && i < |es|
    ensures TempKey(es[i].value) == Some(es[i].key)
    ensures es[i].value == Contents(l.pendingSync)[es[i].key]
  {
  }

  /** The swap for `syncPendingData` itself: the snapshot's markers sit
      under distinct keys, so each accepted one whose local copy can be
      deleted swaps its list entry for the server's record (or keeps it,
      when the store refuses that record's `id`). */
  lemma SyncPendingSwapsAccepted(l: Ledger, outcomes: seq<Option<Obj>>, i: nat, p: nat)
    requires Valid(l)
    requires var es := GetAll(l.pendingSync);
             var items := EntryValues(es);
             && i < |es| && Accepted(items, outcomes, 0, i)
             && LocalKey(items[i], es[i].key).Some?
             && "tempId" !in Answer(outcomes, PostIndex(items, i)).value
             && CarriesTemp(BookOf(l, KindOf(items[i]).value).list, p, items[i]["tempId"])
    ensures var items := EntryValues(GetAll(l.pendingSync));
            var kind := KindOf(items[i]).value;
            var data := Answer(outcomes, PostIndex(items, i)).value;
            var after := BookOf(SyncPendingData(l, true, outcomes).ledger, kind).list;
            && p < |after|
            && (after[p] == data || ("id" in data && after[p] == BookOf(l, kind).list[p]))
  {
    var items := EntryValues(GetAll(l.pendingSync));
    SnapshotDistinct(l, i);
    SyncSwapsAccepted(l, items, outcomes, 0, i, p);
  }

  /** The snapshot's markers name distinct temporary ids: each names the
      key it is stored under, and the keys are distinct. */
  lemma SnapshotDistinct(l: Ledger, i: nat)
    requires Valid(l) && i < |GetAll(l.pendingSync)|
    ensures var items := EntryValues(GetAll(l.pendingSync));
            forall q :: 0 <= q < |items| && q != i ==> TempKey(items[q]) != TempKey(items[i])
  {
    var es := GetAll(l.pendingSync);
    SnapshotTempKey(l, es, i);
    forall q | 0 <= q < |es| && q != i
      ensures TempKey(es[q].value) != TempKey(es[i].value)
    {
      SnapshotTempKey(l, es, q);
      KeyLtIrreflexive(es[i].key);
    }
  }

  /** Not fail-fast: a marker whose POST is rejected stays queued, unchanged,
      while the loop goes on with the markers after it. */
  lemma RejectedItemStaysQueued(l: Ledger, outcomes: seq<Option<Obj>>, i: nat)
    requires Valid(l)
    requires var es := GetAll(l.pendingSync);
             i < |es| && Answer(outcomes, PostIndex(EntryValues(es), i)).None?
    ensures var es := GetAll(l.pendingSync);
            var r := SyncPendingData(l, true, outcomes);
            && es[i].key in Contents(r.ledger.pendingSync)
            && Contents(r.ledger.pendingSync)[es[i].key] == es[i].value
            && |r.posted| == |Filter(Queued, EntryValues(es))|
  {
    var es := GetAll(l.pendingSync);
    var items := EntryValues(es);
    var k := es[i].key;
    forall j | 0 <= j < |items| && TempKey(items[j]) == Some(k)
      ensures !Accepted(items, outcomes, 0, j)
    {
      SnapshotTempKey(l, es, j);
      if j != i {
        KeyLtIrreflexive(k);
      }
    }
    assert NoneAccepted(items, outcomes, 0, k);
  }

  /** A marker whose POST is accepted leaves the queue. */
  lemma AcceptedItemLeavesQueue(l: Ledger, outcomes: seq<Option<Obj>>, i: nat)
    requires Valid(l)
    requires var es := GetAll(l.pendingSync);
             i < |es| && Queued(es[i].value) && Answer(outcomes, PostIndex(EntryValues(es), i)).Some?
    ensures GetAll(l.pendingSync)[i].key !in Contents(SyncPendingData(l, true, outcomes).ledger.pendingSync)
  {
    SnapshotTempKey(l, GetAll(l.pendingSync), i);
  }

  /** The caveat of the local delete: a marker queued by `SaveLocally` carries
      no `id`, so the copy is deleted under the string `tempId`, while the
      stored copy lives under its generated numeric key. The delete finds
      nothing there, and the temporary copy survives the sync alongside the
      server's record. */
  lemma SettleKeepsTempCopy(l: Ledger, kind: Kind, record: Obj, now: nat, data: Obj)
    requires Valid(l) && "id" !in record
    requires StrKey(TempId(kind, now)) !in Contents(BookOf(l, kind).records)
    ensures SaveLocally(l, kind, record, now).Ok?
    ensures var l1 := SaveLocally(l, kind, record, now).value;
            var marker := Contents(l1.pendingSync)[StrKey(TempId(kind, now))];
            var l2 := Settle(l1, kind, marker, StrKey(TempId(kind, now)), data);
            && StrKey(TempId(kind, now)) !in Contents(l2.pendingSync)
            && (forall key :: key in Contents(BookOf(l1, kind).records) ==> key in Contents(BookOf(l2, kind).records))
  {
    var tk := StrKey(TempId(kind, now));
    SaveWithoutId(l, kind, record, now);
    var l1 := SaveLocally(l, kind, record, now).value;
    var item := Stamped(record, TempId(kind, now));
    var marker := Contents(l1.pendingSync)[tk];
    assert marker == Marked(item, kind);
    assert "id" !in marker && TempKey(marker) == Some(tk);
    assert LocalKey(marker, tk) == Some(tk);
    var before := Contents(BookOf(l, kind).records);
    var key :| key !in before && key.NumKey?
               && Contents(BookOf(l1, kind).records) == before[key := item["id" := KeyValue(key)]];
    assert tk !in Contents(BookOf(l1, kind).records);
    SettleMissingCopy(l1, kind, marker, tk, data);
  }

  /** Settling an item whose local key names no stored record deletes
      nothing from the kind's store. */
  lemma SettleMissingCopy(l: Ledger, kind: Kind, item: Obj, tk: Key, data: Obj)
    requires Valid(l) && TempKey(item) == Some(tk)
    requires LocalKey(item, tk).Some? && LocalKey(item, tk).value !in Contents(BookOf(l, kind).records)
    ensures tk !in Contents(Settle(l, kind, item, tk, data).pendingSync)
    ensures forall key :: key in Contents(BookOf(l, kind).records)
              ==> key in Contents(BookOf(Settle(l, kind, item, tk, data), kind).records)
  {
    var before := Contents(BookOf(l, kind).records);
    assert before - {LocalKey(item, tk).value} == before;
  }
}

=== FILE: local_db.dfy ===
/** The resident cache of `src/db.js` (database `MyAppDB`, version 1): a
    resident store keyed by `id` with a key generator, the pending-delete set
    (resident ids awaiting a remote delete), the admin cache and the
    single-slot statistics cache under the key `'latest'`. */
module LocalDb {

  import opened Common
  import opened Store
  import opened Records

  /** An entry of `pendingDeletes`: `{ id }`, the resident id to delete remotely. */
  datatype PendingDelete = PendingDelete(id: Key)

  /** An admin as the server lists it; the store's key path is `id`. `id`
      is None when the record has no `id`, or one that is not a valid key. */
  datatype Admin = Admin(id: Option<Key>, details: Obj)

  /** How `saveAdmins` ends: the database afterwards, and the error it
      rejects with, if any. */
  datatype AdminSave = AdminSave(db: Db, error: Option<StoreError>)

  /** The statistics snapshot, stored whole. */
  type Statistics = Obj

  datatype Db = Db(
    residents: ObjectStore<Resident>,
    pendingDeletes: ObjectStore<PendingDelete>,
    admins: ObjectStore<Admin>,
    statistics: ObjectStore<Statistics>)

  /** The key the statistics snapshot lives under. */
  const LatestKey: Key := StrKey("latest")

  /** The object stores as `initDB`'s upgrade creates them: only `residents`
      has a key generator. */
  ghost predicate Valid(db: Db)
  {
    && (forall k :: k in Contents(db.pendingDeletes) ==> Contents(db.pendingDeletes)[k] == PendingDelete(k))
    && Store.Valid(db.residents) && db.residents.autoIncrement
    && Store.Valid(db.pendingDeletes) && !db.pendingDeletes.autoIncrement
    && Store.Valid(db.admins) && !db.admins.autoIncrement
    && Store.Valid(db.statistics) && !db.statistics.autoIncrement
  }

  /** A freshly upgraded database: four empty stores. */
  function Init(): (db: Db)
    ensures Valid(db)
    ensures Contents(db.residents) == map[] && Contents(db.pendingDeletes) == map[]
    ensures Contents(db.admins) == map[] && Contents(db.statistics) == map[]
  {
    Db(Empty(true), Empty(false), Empty(false), Empty(false))
  }

  // ---------- residents ----------

  /** `addResident`: insert only. A resident whose `id` is already stored is
      refused with a ConstraintError; one without `id` gets a generated key. */
  function AddResident(db: Db, r: Resident): (res: Result<Db, StoreError>)
    requires Valid(db)
    ensures res.Err? <==> r.id.Some? && r.id.value in Contents(db.residents)
    ensures res.Ok? ==> Valid(res.value)
    ensures res.Ok? ==> (exists key :: key !in Contents(db.residents)
                          && (r.id.Some? ==> key == r.id.value)
                          && Contents(res.value.residents) == Contents(db.residents)[key := ResidentAt(r, key)])
    ensures res.Ok? ==> res.value.(residents := db.residents) == db
  {
    match AddResidentTo(db.residents, r)
    case Err(e) => Err(e)
    case Ok(w) => Ok(db.(residents := w.store))
  }

  /** `getAllResidents`: every stored resident exactly once, in key order. */
  function GetAllResidents(db: Db): (rs: seq<Resident>)
    requires Valid(db)
    ensures |rs| == |Contents(db.residents)|
    ensures forall i :: 0 <= i < |rs| ==> rs[i] in Contents(db.residents).Values
    ensures forall id :: id in Contents(db.residents) ==> Contents(db.residents)[id] in rs
    ensures |rs| == |GetAll(db.residents)| && forall i :: 0 <= i < |rs| ==> rs[i] == Contents(db.residents)[GetAll(db.residents)[i].key]
  {
    GetAllValues(db.residents)
  }

  /** `updateResident`: insert or overwrite by `id`; never fails, since the
      store has a key generator. */
  function UpdateResident(db: Db, r: Resident): (res: Db)
    requires Valid(db)
    ensures Valid(res)
    ensures res.(residents := db.residents) == db
    ensures r.id.Some? ==> Contents(res.residents) == Contents(db.residents)[r.id.value := r]
    ensures r.id.None? ==> (exists key :: key !in Contents(db.residents)
                             && Contents(res.residents) == Contents(db.residents)[key := ResidentAt(r, key)])
  {
    var w := PutResident(db.residents, r).value;
    assert r.id.Some? ==> ResidentAt(r, w.key) == r;
    db.(residents := w.store)
  }

  /** `deleteResident(id)`: removes that key and nothing else. */
  function DeleteResident(db: Db, id: Key): (res: Db)
    requires Valid(db)
    ensures Valid(res)
    ensures res.(residents := db.residents) == db
    ensures Contents(res.residents) == Contents(db.residents) - {id}
  {
    db.(residents := Delete(db.residents, id))
  }

  /** Two `updateResident`s of the same id leave one entry, holding the later record. */
  lemma UpdateTwiceKeepsLatest(db: Db, r1: Resident, r2: Resident)
    requires Valid(db) && r1.id.Some? && r2.id == r1.id
    ensures var db2 := UpdateResident(UpdateResident(db, r1), r2);
            && Contents(db2.residents) == Contents(db.residents)[r1.id.value := r2]
            && |GetAllResidents(db2)| == |GetAllResidents(UpdateResident(db, r1))|
  {
    var db1 := UpdateResident(db, r1);
    var db2 := UpdateResident(db1, r2);
    assert r1.id.value in Contents(db1.residents);
    assert db2.residents == PutAt(db1.residents, r1.id.value, r2);
  }

  // ---------- pending deletes ----------

  /** `addPendingDelete(id)`: records `{ id }`; the store is keyed by `id`. */
  function AddPendingDelete(db: Db, id: Key): (res: Db)
    requires Valid(db)
    ensures Valid(res)
    ensures res.(pendingDeletes := db.pendingDeletes) == db
    ensures Contents(res.pendingDeletes) == Contents(db.pendingDeletes)[id := PendingDelete(id)]
  {
    db.(pendingDeletes := Put(db.pendingDeletes, Some(id), PendingDelete(id)).value.store)
  }

  /** Marking the same id twice is the same as marking it once. */
  lemma AddPendingDeleteIdempotent(db: Db, id: Key)
    requires Valid(db)
    ensures AddPendingDelete(AddPendingDelete(db, id), id) == AddPendingDelete(db, id)
  {
    PutIdempotent(db.pendingDeletes, id, PendingDelete(id));
  }

  /** `getAllPendingDeletes`: the pending ids, each once, in key order. */
  function GetAllPendingDeletes(db: Db): (ps: seq<PendingDelete>)
    requires Valid(db)
    ensures |ps| == |Contents(db.pendingDeletes)|
    ensures forall id :: PendingDelete(id) in ps <==> id in Contents(db.pendingDeletes)
  {
    var ps := GetAllValues(db.pendingDeletes);
    forall id | PendingDelete(id) in ps ensures id in Contents(db.pendingDeletes) {
      var k :| k in Contents(db.pendingDeletes) && Contents(db.pendingDeletes)[k] == PendingDelete(id);
    }
    ps
  }

  /** `removePendingDelete(id)`: unmarks that id only. */
  function RemovePendingDelete(db: Db, id: Key): (res: Db)
    requires Valid(db)
    ensures Valid(res)
    ensures res.(pendingDeletes := db.pendingDeletes) == db
    ensures Contents(res.pendingDeletes) == Contents(db.pendingDeletes) - {id}
  {
    db.(pendingDeletes := Delete(db.pendingDeletes, id))
  }

  // ---------- admins ----------

  /** Every admin of the list carries a valid key. */
  predicate Keyed(admins: seq<Admin>)
  {
    forall i :: 0 <= i < |admins| ==> admins[i].id.Some?
  }

  /** The admins keyed by id, a later admin overriding an earlier one with the same id. */
  ghost function AdminMap(admins: seq<Admin>): map<Key, Admin>
    requires Keyed(admins)
    decreases |admins|
  {
    if admins == [] then map[]
    else AdminMap(admins[..|admins| - 1])[admins[|admins| - 1].id.value := admins[|admins| - 1]]
  }

  /** The admin store after `put`ting each of `admins`, in order, into `s`. */
  function PutAdmins(s: ObjectStore<Admin>, admins: seq<Admin>): (r: ObjectStore<Admin>)
    requires Store.Valid(s) && !s.autoIncrement && Keyed(admins)
    ensures Store.Valid(r) && !r.autoIncrement
    ensures Contents(r) == Contents(s) + AdminMap(admins)
    decreases |admins|
  {
    if admins == [] then s
    else
      var init := admins[..|admins| - 1];
      var a := admins[|admins| - 1];
      var s1 := PutAdmins(s, init);
      var r := Put(s1, a.id, a).value.store;
      UnionUpdate(Contents(s), AdminMap(init), a.id.value, a);
      r
  }

  /** `c` holds exactly the ids of `admins`, each with the last admin listed under it. */
  ghost predicate HoldsLastListed(c: map<Key, Admin>, admins: seq<Admin>)
    requires Keyed(admins)
  {
    && (forall k :: k in c <==> exists i :: 0 <= i < |admins| && admins[i].id == Some(k))
    && (forall i :: 0 <= i < |admins| && (forall j :: i < j < |admins| ==> admins[j].id != admins[i].id)
          ==> c[admins[i].id.value] == admins[i])
  }

  /** `AdminMap` holds exactly the listed ids, each with the last admin listed under it. */
  lemma AdminMapLastWins(admins: seq<Admin>)
    requires Keyed(admins)
    ensures HoldsLastListed(AdminMap(admins), admins)
  {
    AdminMapKeys(admins);
    AdminMapLast(admins);
  }

  lemma {:induction false} AdminMapKeys(admins: seq<Admin>)
    requires Keyed(admins)
    ensures forall k :: k in AdminMap(admins) <==> exists i :: 0 <= i < |admins| && admins[i].id == Some(k)
    decreases |admins|
  {
    if admins != [] {
      var init := admins[..|admins| - 1];
      var a := admins[|admins| - 1];
      AdminMapKeys(init);
      forall k
        ensures k in AdminMap(admins) <==> exists i :: 0 <= i < |admins| && admins[i].id == Some(k)
      {
        if k in AdminMap(admins) && Some(k) != a.id {
          var i :| 0 <= i < |init| && init[i].id == Some(k);
          assert admins[i] == init[i];
        }
        if exists i :: 0 <= i < |admins| && admins[i].id == Some(k) {
          var i :| 0 <= i < |admins| && admins[i].id == Some(k);
          if i < |init| {
            assert init[i] == admins[i];
          }
        }
      }
    }
  }

  lemma {:induction false} AdminMapLast(admins: seq<Admin>)
    requires Keyed(admins)
    ensures forall i :: 0 <= i < |admins| && (forall j :: i < j < |admins| ==> admins[j].id != admins[i].id)
              ==> admins[i].id.value in AdminMap(admins) && AdminMap(admins)[admins[i].id.value] == admins[i]
    decreases |admins|
  {
    if admins != [] {
      var init := admins[..|admins| - 1];
      var a := admins[|admins| - 1];
      AdminMapLast(init);
      forall i | 0 <= i < |admins| && (forall j :: i < j < |admins| ==> admins[j].id != admins[i].id)
        ensures admins[i].id.value in AdminMap(admins) && AdminMap(admins)[admins[i].id.value] == admins[i]
      {
        if i < |init| {
          assert init[i] == admins[i];
          assert a.id != admins[i].id && a.id.value != admins[i].id.value;
          assert forall j :: i < j < |init| ==> init[j].id != init[i].id;
        }
      }
    }
  }

  /** How many admins `forEach` puts before one without a valid key throws. */
  function KeyedPrefix(admins: seq<Admin>): (n: nat)
    ensures n <= |admins| && Keyed(admins[..n])
    ensures forall j :: 0 <= j < n ==> admins[j].id.Some?
    ensures n < |admins| ==> admins[n].id.None?
    decreases |admins|
  {
    if admins == [] || admins[0].id.None? then 0
    else
      var n := KeyedPrefix(admins[1..]);
      assert admins[..n + 1] == [admins[0]] + admins[1..][..n];
      n + 1
  }

  /** `saveAdmins(list)`: clears the admin cache, then puts every admin; a
      later admin with the same id overwrites an earlier one. An admin
      without a valid key makes its `put` throw a DataError: `forEach`
      stops there and `saveAdmins` rejects, but the clear and the puts
      before it are already queued on the transaction, which commits them. */
  function SaveAdmins(db: Db, admins: seq<Admin>): (res: AdminSave)
    requires Valid(db)
    ensures Valid(res.db)
    ensures res.db.(admins := db.admins) == db
    ensures res.error.None? <==> Keyed(admins)
    ensures res.error.Some? ==> res.error.value == DataError
    ensures Contents(res.db.admins) == AdminMap(admins[..KeyedPrefix(admins)])
  {
    var n := KeyedPrefix(admins);
    assert Keyed(admins) ==> n == |admins| && admins[..n] == admins;
    var d := db.(admins := PutAdmins(Clear(db.admins), admins[..n]));
    AdminSave(d, if n < |admins| then Some(DataError) else None)
  }

  /** After `saveAdmins(list)` the cache holds nothing from before: exactly
      the ids listed ahead of the first admin without a valid key (all of
      them when there is none), each with the last record listed under it
      there. */
  lemma SaveAdminsReplacesCache(db: Db, admins: seq<Admin>)
    requires Valid(db)
    ensures var n := KeyedPrefix(admins);
            && HoldsLastListed(Contents(SaveAdmins(db, admins).db.admins), admins[..n])
            && (Keyed(admins) ==> n == |admins|)
  {
    AdminMapLastWins(admins[..KeyedPrefix(admins)]);
  }

  /** An admin without a valid key rejects the save, and no admin listed
      after it reaches the cache unless its id was listed before. */
  lemma UnkeyedAdminStopsSave(db: Db, admins: seq<Admin>, i: nat, k: Key)
    requires Valid(db) && i < |admins| && admins[i].id.None?
    requires forall q :: 0 <= q < i ==> admins[q].id != Some(k)
    ensures SaveAdmins(db, admins).error == Some(DataError)
    ensures k !in Contents(SaveAdmins(db, admins).db.admins)
  {
    var n := KeyedPrefix(admins);
    var pre := admins[..n];
    var c := Contents(SaveAdmins(db, admins).db.admins);
    SaveAdminsReplacesCache(db, admins);
    assert Keyed(pre) && HoldsLastListed(c, pre);
    assert n <= i;
    assert forall q :: 0 <= q < n ==> pre[q] == admins[q];
  }

  /** `getLocalAdmins`: the cached admins, each once, in key order. */
  function GetLocalAdmins(db: Db): (r: seq<Admin>)
    requires Valid(db)
    ensures |r| == |Contents(db.admins)|
    ensures forall i :: 0 <= i < |r| ==> r[i] in Contents(db.admins).Values
    ensures forall id :: id in Contents(db.admins) ==> Contents(db.admins)[id] in r
    ensures |r| == |GetAll(db.admins)| && forall i :: 0 <= i < |r| ==> r[i] == Contents(db.admins)[GetAll(db.admins)[i].key]
  {
    GetAllValues(db.admins)
  }

  // ---------- statistics ----------

  /** `saveStatistics(data)`: overwrites the single slot `'latest'`. */
  function SaveStatistics(db: Db, data: Statistics): (res: Db)
    requires Valid(db)
    ensures Valid(res)
    ensures res.(statistics := db.statistics) == db
    ensures Contents(res.statistics) == Contents(db.statistics)[LatestKey := data]
  {
    db.(statistics := Put(db.statistics, Some(LatestKey), data).value.store)
  }

  /** `getLocalStatistics`: the snapshot under `'latest'`, or `undefined`. */
  function GetLocalStatistics(db: Db): (r: Option<Statistics>)
    requires Valid(db)
    ensures r.Some? <==> LatestKey in Contents(db.statistics)
    ensures r.Some? ==> r.value == Contents(db.statistics)[LatestKey]
  {
    Get(db.statistics, LatestKey)
  }

  /** Reading the statistics gives back the snapshot saved most recently,
      whatever other stores were written in between. */
  lemma StatisticsRoundTrip(db: Db, data: Statistics, later: Db)
    requires Valid(db)
    requires Valid(later) && later.statistics == SaveStatistics(db, data).statistics
    ensures GetLocalStatistics(later) == Some(data)
  {
  }

  /** Saving twice keeps one snapshot, the second. */
  lemma SaveStatisticsTwice(db: Db, d1: Statistics, d2: Statistics)
    requires Valid(db)
    ensures var db2 := SaveStatistics(SaveStatistics(db, d1), d2);
            GetLocalStatistics(db2) == Some(d2)
            && |GetAll(db2.statistics)| == |GetAll(SaveStatistics(db, d1).statistics)|
  {
    var s1 := SaveStatistics(db, d1).statistics;
    assert LatestKey in Contents(s1);
    assert SaveStatistics(SaveStatistics(db, d1), d2).statistics == PutAt(s1, LatestKey, d2);
  }
}

=== FILE: offline_store.dfy ===
/** The offline queue of `src/utils/idb.js` (database `al-furqan-db`,
    version 1): residents and aid registrations recorded while the network
    was unavailable. Both stores have key path `id` and a key generator. */
module OfflineStore {

  import opened Common
  import opened Store
  import opened Records

  datatype OfflineDb = OfflineDb(
    residents: ObjectStore<Resident>,
    aids: ObjectStore<AidRecord>)

  /** The two stores as the upgrade creates them, both auto-incrementing. */
  predicate Valid(db: OfflineDb)
  {
    && Store.Valid(db.residents) && db.residents.autoIncrement
    && Store.Valid(db.aids) && db.aids.autoIncrement
  }

  function Init(): (db: OfflineDb)
    ensures Valid(db)
    ensures Contents(db.residents) == map[] && Contents(db.aids) == map[]
  {
    OfflineDb(Empty(true), Empty(true))
  }

  // ---------- residents ----------

  /** `saveResidentOffline`: a `put`, so it adds a new resident or overwrites
      the one with the same `id`; a resident without `id` gets a fresh key. */
  function SaveResidentOffline(db: OfflineDb, r: Resident): (res: OfflineDb)
    requires Valid(db)
    ensures Valid(res)
    ensures res.aids == db.aids
    ensures r.id.Some? ==> Contents(res.residents) == Contents(db.residents)[r.id.value := r]
    ensures r.id.None? ==> (exists key :: key !in Contents(db.residents)
                             && Contents(res.residents) == Contents(db.residents)[key := ResidentAt(r, key)])
  {
    var w := PutResident(db.residents, r).value;
    assert r.id.Some? ==> ResidentAt(r, w.key) == r;
    db.(residents := w.store)
  }

  /** `getAllOfflineResidents`: the queued residents, each exactly once, in key order. */
  function GetAllOfflineResidents(db: OfflineDb): (rs: seq<Resident>)
    requires Valid(db)
    ensures |rs| == |Contents(db.residents)|
    ensures forall i :: 0 <= i < |rs| ==> rs[i] in Contents(db.residents).Values
    ensures forall id :: id in Contents(db.residents) ==> Contents(db.residents)[id] in rs
    ensures |rs| == |GetAll(db.residents)| && forall i :: 0 <= i < |rs| ==> rs[i] == Contents(db.residents)[GetAll(db.residents)[i].key]
  {
    GetAllValues(db.residents)
  }

  /** `deleteResidentOffline(id)`: removes that key from the resident queue only. */
  function DeleteResidentOffline(db: OfflineDb, id: Key): (res: OfflineDb)
    requires Valid(db)
    ensures Valid(res)
    ensures res.aids == db.aids
    ensures Contents(res.residents) == Contents(db.residents) - {id}
  {
    db.(residents := Delete(db.residents, id))
  }

  /** `clearOfflineResidents`: empties the resident queue; the aid queue is untouched. */
  function ClearOfflineResidents(db: OfflineDb): (res: OfflineDb)
    requires Valid(db)
    ensures Valid(res)
    ensures res.aids == db.aids
    ensures Contents(res.residents) == map[]
  {
    db.(residents := Clear(db.residents))
  }

  /** Two offline saves of the same resident id keep only the later record. */
  lemma SaveResidentTwiceKeepsLatest(db: OfflineDb, r1: Resident, r2: Resident)
    requires Valid(db) && r1.id.Some? && r2.id == r1.id
    ensures var db2 := SaveResidentOffline(SaveResidentOffline(db, r1), r2);
            && Contents(db2.residents) == Contents(db.residents)[r1.id.value := r2]
            && |GetAllOfflineResidents(db2)| == |GetAllOfflineResidents(SaveResidentOffline(db, r1))|
  {
    var key := r1.id.value;
    var db1 := SaveResidentOffline(db, r1);
    assert Contents(db1.residents) == Contents(db.residents)[key := r1];
    assert Contents(SaveResidentOffline(db1, r2).residents) == Contents(db1.residents)[key := r2];
    OverwriteTwice(Contents(db.residents), key, r1, r2);
    assert Contents(db1.residents)[key := r2].Keys == Contents(db1.residents).Keys;
  }

  /** Saving a resident under a new id and deleting that id restores the queue. */
  lemma SaveThenDeleteResident(db: OfflineDb, r: Resident)
    requires Valid(db) && r.id.Some? && r.id.value !in Contents(db.residents)
    ensures Contents(DeleteResidentOffline(SaveResidentOffline(db, r), r.id.value).residents)
            == Contents(db.residents)
  {
    var m := Contents(db.residents);
    assert m[r.id.value := r] - {r.id.value} == m;
  }

  // ---------- aids ----------

  /** `saveAidOffline`: a `put` into the aid queue (the background-sync
      registration that follows is platform behaviour and not modelled). */
  function SaveAidOffline(db: OfflineDb, a: AidRecord): (res: OfflineDb)
    requires Valid(db)
    ensures Valid(res)
    ensures res.residents == db.residents
    ensures a.id.Some? ==> Contents(res.aids) == Contents(db.aids)[a.id.value := a]
    ensures a.id.None? ==> (exists key :: key !in Contents(db.aids)
                             && Contents(res.aids) == Contents(db.aids)[key := AidAt(a, key)])
  {
    var w := PutAid(db.aids, a).value;
    assert a.id.Some? ==> AidAt(a, w.key) == a;
    db.(aids := w.store)
  }

  /** `getAllOfflineAids`: the queued aids, each exactly once, in key order. */
  function GetAllOfflineAids(db: OfflineDb): (queued: seq<AidRecord>)
    requires Valid(db)
    ensures |queued| == |Contents(db.aids)|
    ensures forall i :: 0 <= i < |queued| ==> queued[i] in Contents(db.aids).Values
    ensures forall id :: id in Contents(db.aids) ==> Contents(db.aids)[id] in queued
    ensures |queued| == |GetAll(db.aids)| && forall i :: 0 <= i < |queued| ==> queued[i] == Contents(db.aids)[GetAll(db.aids)[i].key]
  {
    GetAllValues(db.aids)
  }

  /** `updateAidOffline`: the same `put` as `saveAidOffline` (without the
      background-sync registration), overwriting the aid with the same `id`. */
  function UpdateAidOffline(db: OfflineDb, a: AidRecord): (res: OfflineDb)
    requires Valid(db)
    ensures Valid(res)
    ensures res.residents == db.residents
    ensures a.id.Some? ==> Contents(res.aids) == Contents(db.aids)[a.id.value := a]
    ensures a.id.None? ==> (exists key :: key !in Contents(db.aids)
                             && Contents(res.aids) == Contents(db.aids)[key := AidAt(a, key)])
  {
    SaveAidOffline(db, a)
  }

  /** `deleteAidOffline(id)`: removes that key from the aid queue only. */
  function DeleteAidOffline(db: OfflineDb, id: Key): (res: OfflineDb)
    requires Valid(db)
    ensures Valid(res)
    ensures res.residents == db.residents
    ensures Contents(res.aids) == Contents(db.aids) - {id}
  {
    db.(aids := Delete(db.aids, id))
  }

  /** `clearOfflineAids`: empties the aid queue; the resident queue is untouched. */
  function ClearOfflineAids(db: OfflineDb): (res: OfflineDb)
    requires Valid(db)
    ensures Valid(res)
    ensures res.residents == db.residents
    ensures Contents(res.aids) == map[]
  {
    db.(aids := Clear(db.aids))
  }

  /** Updating an aid that is already queued overwrites it in place: the
      queue keeps its size and only that entry changes. */
  lemma UpdateQueuedAid(db: OfflineDb, a: AidRecord)
    requires Valid(db) && a.id.Some? && a.id.value in Contents(db.aids)
    ensures var res := UpdateAidOffline(db, a);
            && |GetAllOfflineAids(res)| == |GetAllOfflineAids(db)|
            && (forall k :: k in Contents(db.aids) && k != a.id.value ==> Contents(res.aids)[k] == Contents(db.aids)[k])
            && Contents(res.aids)[a.id.value] == a
  {
    var res := UpdateAidOffline(db, a);
    assert Contents(res.aids) == Contents(db.aids)[a.id.value := a];
    OverwriteKeepsSize(Contents(db.aids), a.id.value, a);
  }

  /** An aid saved without `id` and then updated under the key it was given
      stays one entry, now holding the update. */
  lemma SaveThenUpdateAid(db: OfflineDb, a: AidRecord, b: AidRecord)
    requires Valid(db) && a.id.None?
    ensures var db1 := SaveAidOffline(db, a);
            forall key :: key !in Contents(db.aids) && key in Contents(db1.aids) ==>
              var db2 := UpdateAidOffline(db1, b.(id := Some(key)));
              && |GetAllOfflineAids(db2)| == |GetAllOfflineAids(db)| + 1
              && Contents(db2.aids) == Contents(db.aids)[key := b.(id := Some(key))]
  {
    var db1 := SaveAidOffline(db, a);
    forall key | key !in Contents(db.aids) && key in Contents(db1.aids)
      ensures var db2 := UpdateAidOffline(db1, b.(id := Some(key)));
              && |GetAllOfflineAids(db2)| == |GetAllOfflineAids(db)| + 1
              && Contents(db2.aids) == Contents(db.aids)[key := b.(id := Some(key))]
    {
      UpdateSavedAid(db, a, key, b.(id := Some(key)));
    }
  }

  /** The step of `SaveThenUpdateAid` for the one key the save added. */
  lemma UpdateSavedAid(db: OfflineDb, a: AidRecord, key: Key, b: AidRecord)
    requires Valid(db) && a.id.None? && b.id == Some(key)
    requires key !in Contents(db.aids) && key in Contents(SaveAidOffline(db, a).aids)
    ensures var db1 := SaveAidOffline(db, a);
            && Contents(UpdateAidOffline(db1, b).aids) == Contents(db.aids)[key := b]
            && |GetAllOfflineAids(UpdateAidOffline(db1, b))| == |GetAllOfflineAids(db)| + 1
  {
    var db1 := SaveAidOffline(db, a);
    var m := Contents(db.aids);
    var k0 :| k0 !in m && Contents(db1.aids) == m[k0 := AidAt(a, k0)];
    assert key in m[k0 := AidAt(a, k0)];
    OverwriteTwice(m, key, AidAt(a, key), b);
    assert |m[key := b]| == |m| + 1;
  }
}

=== FILE: records.dfy ===
/** The records the offline stores hold: residents (households) and aid
    registrations. Field names follow the JSON the server exchanges
    (`husband_name` is `husbandName`, and so on). */
module Records {

  import opened Common
  import opened Store

  /** `num_family_members`: absent (`undefined`), `null`, an integer as the
      server sends it, or text, as the edit dialog's untyped `<input>`
      stores it. JavaScript's comparisons tell all four apart. */
  datatype FamilySize = Missing | NullSize | Members(n: int) | TextSize(s: string)

  /** A household record (one resident head of family).
      `has_received_aid` is a flag. */
  datatype Resident = Resident(
    id: Option<Key>,
    husbandName: Option<string>,
    husbandIdNumber: Option<string>,
    familySize: FamilySize,
    damageLevel: Option<string>,
    neighborhood: Option<string>,
    hasReceivedAid: bool,
    notes: Option<string>)

  /** An aid registration as the aid form builds it:
      `{ resident_id, aid_type, date, role }`, plus the key the offline
      store assigns (`id`). */
  datatype AidRecord = AidRecord(
    id: Option<Key>,
    residentId: Value,
    aidType: string,
    date: string,
    role: Option<string>)

  /** The aid-type label for cash aid, shared by the aid form and the ledger. */
  const CashAid: string := "مساعدات نقدية"

  /** The record as stored under `key` in a store whose key path is `id`:
      a generated key is written into the record. */
  function ResidentAt(r: Resident, key: Key): (s: Resident)
    ensures s.id == Some(key)
    ensures s.(id := r.id) == r
  {
    r.(id := Some(key))
  }

  /** The aid record as stored under `key`, in the same way. */
  function AidAt(a: AidRecord, key: Key): (s: AidRecord)
    ensures s.id == Some(key)
    ensures s.(id := a.id) == a
  {
    a.(id := Some(key))
  }

  /** `store.put(resident)` on a store with key path `id`. */
  function PutResident(s: ObjectStore<Resident>, r: Resident): (w: Result<Written<Resident>, StoreError>)
    requires Valid(s)
    ensures w.Ok? <==> r.id.Some? || s.autoIncrement
    ensures w.Ok? ==> Valid(w.value.store) && w.value.store.autoIncrement == s.autoIncrement
    ensures w.Ok? && r.id.Some? ==> w.value.key == r.id.value
    ensures w.Ok? ==> Contents(w.value.store) == Contents(s)[w.value.key := ResidentAt(r, w.value.key)]
  {
    match ResolveKey(s, r.id)
    case Err(e) => Err(e)
    case Ok(key) => Put(s, Some(key), ResidentAt(r, key))
  }

  /** `store.add(resident)` on a store with key path `id`: fails on a key already present. */
  function AddResidentTo(s: ObjectStore<Resident>, r: Resident): (w: Result<Written<Resident>, StoreError>)
    requires Valid(s)
    ensures w.Err? <==> (r.id.None? && !s.autoIncrement) || (r.id.Some? && r.id.value in Contents(s))
    ensures w.Ok? ==> Valid(w.value.store) && w.value.store.autoIncrement == s.autoIncrement
    ensures w.Ok? ==> w.value.key !in Contents(s)
    ensures w.Ok? ==> Contents(w.value.store) == Contents(s)[w.value.key := ResidentAt(r, w.value.key)]
  {
    match ResolveKey(s, r.id)
    case Err(e) => Err(e)
    case Ok(key) => Add(s, Some(key), ResidentAt(r, key))
  }

  /** `store.put(aid)` on a store with key path `id`. */
  function PutAid(s: ObjectStore<AidRecord>, a: AidRecord): (w: Result<Written<AidRecord>, StoreError>)
    requires Valid(s)
    ensures w.Ok? <==> a.id.Some? || s.autoIncrement
    ensures w.Ok? ==> Valid(w.value.store) && w.value.store.autoIncrement == s.autoIncrement
    ensures w.Ok? && a.id.Some? ==> w.value.key == a.id.value
    ensures w.Ok? ==> Contents(w.value.store) == Contents(s)[w.value.key := AidAt(a, w.value.key)]
  {
    match ResolveKey(s, a.id)
    case Err(e) => Err(e)
    case Ok(key) => Put(s, Some(key), AidAt(a, key))
  }

  /** `store.add(aid)` on a store with key path `id`: fails on a key already present. */
  function AddAidTo(s: ObjectStore<AidRecord>, a: AidRecord): (w: Result<Written<AidRecord>, StoreError>)
    requires Valid(s)
    ensures w.Err? <==> (a.id.None? && !s.autoIncrement) || (a.id.Some? && a.id.value in Contents(s))
    ensures w.Ok? ==> Valid(w.value.store) && w.value.store.autoIncrement == s.autoIncrement
    ensures w.Ok? ==> w.value.key !in Contents(s)
    ensures w.Ok? ==> Contents(w.value.store) == Contents(s)[w.value.key := AidAt(a, w.value.key)]
  {
    match ResolveKey(s, a.id)
    case Err(e) => Err(e)
    case Ok(key) => Add(s, Some(key), AidAt(a, key))
  }
}

=== FILE: resident_sync.dfy ===
/** `syncOfflineData` of `src/App.js`: when the browser is online, the queued
    offline residents are POSTed to the server one at a time, in the order
    the queue returns them. The first failure stops the flush and leaves the
    queue as it was; only a flush in which every POST succeeded clears it. */
module ResidentSync {

  import opened Common
  import opened Store
  import opened Records
  import opened OfflineStore

  /** The toast a flush shows. */
  datatype Notice = SyncFailed | SyncDone

  /** The result of one flush: the queue afterwards, the residents whose POST
      was started, those the server accepted, and the toasts shown. */
  datatype Flush = Flush(
    db: OfflineDb,
    attempted: seq<Resident>,
    delivered: seq<Resident>,
    notices: seq<Notice>)

  /** The `i`-th POST of this flush resolved; `outcomes` lists the server's
      answers in order, and a POST with no answer listed failed. */
  predicate Accepted(outcomes: seq<bool>, i: nat)
  {
    i < |outcomes| && outcomes[i]
  }

  /** How many of `rs`, POSTed in order, succeed before the first failure. */
  function DeliveredCount(rs: seq<Resident>, outcomes: seq<bool>): (n: nat)
    ensures n <= |rs|
    ensures forall i :: 0 <= i < n ==> Accepted(outcomes, i)
    ensures n < |rs| ==> !Accepted(outcomes, n)
    decreases |rs|
  {
    if rs == [] then 0
    else if outcomes != [] && outcomes[0] then
      var m := DeliveredCount(rs[1..], outcomes[1..]);
      forall i | 1 <= i <= m ensures Accepted(outcomes, i) {
        assert Accepted(outcomes[1..], i - 1);
      }
      assert m + 1 < |rs| ==> !Accepted(outcomes[1..], m);
      m + 1
    else 0
  }

  /** The queue reads back empty exactly when it holds nothing. */
  lemma EmptyQueue(db: OfflineDb)
    requires OfflineStore.Valid(db)
    ensures |GetAllOfflineResidents(db)| == 0 <==> Contents(db.residents) == map[]
  {
    if |GetAllOfflineResidents(db)| == 0 {
      assert |Contents(db.residents).Keys| == 0;
    }
  }

  /** The POST loop and what follows it, for a non-empty queue `rs`. */
  function Drain(db: OfflineDb, rs: seq<Resident>, outcomes: seq<bool>): (f: Flush)
    requires OfflineStore.Valid(db) && rs != []
    ensures OfflineStore.Valid(f.db) && f.db.aids == db.aids
    ensures f.attempted <= rs
    ensures f.delivered <= f.attempted && |f.attempted| <= |f.delivered| + 1
    ensures forall i :: 0 <= i < |f.delivered| ==> Accepted(outcomes, i)
    ensures |f.attempted| == |f.delivered| + 1 <==> f.notices == [SyncFailed]
    ensures f.notices == [SyncFailed] ==> f.db == db && !Accepted(outcomes, |f.delivered|)
    ensures f.notices == [SyncDone] <==> f.delivered == rs
    ensures f.notices == [SyncDone] ==> f.db == ClearOfflineResidents(db)
    ensures f.notices == [SyncFailed] || f.notices == [SyncDone]
  {
    var n := DeliveredCount(rs, outcomes);
    if n < |rs| then
      Flush(db, rs[..n + 1], rs[..n], [SyncFailed])
    else
      assert rs[..n] == rs;
      Flush(ClearOfflineResidents(db), rs, rs, [SyncDone])
  }

  /** `syncOfflineData()`, with `online` standing for `navigator.onLine`. */
  function SyncOfflineData(online: bool, db: OfflineDb, outcomes: seq<bool>): (f: Flush)
    requires OfflineStore.Valid(db)
    ensures OfflineStore.Valid(f.db) && f.db.aids == db.aids
    // offline, or nothing queued: no request, no toast, nothing changes
    ensures !online || Contents(db.residents) == map[] ==> f == Flush(db, [], [], [])
    // the POSTs follow the queue's order, and every one but the last attempted succeeded
    ensures f.attempted <= GetAllOfflineResidents(db)
    ensures f.delivered <= f.attempted && |f.attempted| <= |f.delivered| + 1
    ensures forall i :: 0 <= i < |f.delivered| ==> Accepted(outcomes, i)
    // fail-fast: the first rejected POST ends the flush with one error toast and an untouched queue
    ensures |f.attempted| == |f.delivered| + 1 <==> f.notices == [SyncFailed]
    ensures f.notices == [SyncFailed] ==> f.db == db && !Accepted(outcomes, |f.delivered|)
    // the queue is cleared, with one success toast, only when every queued resident was delivered
    ensures f.notices == [SyncDone] <==>
              online && Contents(db.residents) != map[] && f.delivered == GetAllOfflineResidents(db)
    ensures f.notices == [SyncDone] ==> Contents(f.db.residents) == map[]
    ensures f.notices == [] ==> f.db == db && f.attempted == []
  {
    if !online then Flush(db, [], [], [])
    else
      var rs := GetAllOfflineResidents(db);
      EmptyQueue(db);
      if rs == [] then Flush(db, [], [], [])
      else Drain(db, rs, outcomes)
  }

  /** No queued resident is lost: after a flush each one has either been
      delivered or is still in the queue. */
  lemma FlushLosesNothing(online: bool, db: OfflineDb, outcomes: seq<bool>)
    requires OfflineStore.Valid(db)
    ensures var f := SyncOfflineData(online, db, outcomes);
            forall id :: id in Contents(db.residents) ==>
              Contents(db.residents)[id] in f.delivered
              || (id in Contents(f.db.residents) && Contents(f.db.residents)[id] == Contents(db.residents)[id])
  {
    var f := SyncOfflineData(online, db, outcomes);
    if f.notices == [SyncDone] {
      assert f.delivered == GetAllOfflineResidents(db);
    }
  }

  /** At-least-once delivery: when a flush stops at a failure, the residents
      it already delivered stay queued, so the next complete flush sends
      them to the server a second time. */
  lemma FailedFlushResends(db: OfflineDb, first: seq<bool>, second: seq<bool>)
    requires OfflineStore.Valid(db)
    requires SyncOfflineData(true, db, first).notices == [SyncFailed]
    requires forall i :: 0 <= i < |GetAllOfflineResidents(db)| ==> Accepted(second, i)
    ensures var f1 := SyncOfflineData(true, db, first);
            var f2 := SyncOfflineData(true, f1.db, second);
            && f2.notices == [SyncDone]
            && f1.delivered <= f2.delivered
            && Contents(f2.db.residents) == map[]
  {
    var rs := GetAllOfflineResidents(db);
    var f1 := SyncOfflineData(true, db, first);
    assert f1.db == db;
    assert DeliveredCount(rs, second) == |rs|;
  }
}

=== FILE: residents_list.dfy ===
/** The residents page, `src/pages/ResidentsList.js`: the filter chain
    behind the table, the two field validators that flag suspicious cells,
    and the save and delete handlers with their offline branches. */
module ResidentsList {

  import opened Common
  import opened Strings
  import opened Store
  import opened Seqs
  import opened Records
  import LocalDb

  // ---------- filters ----------

  /** The page's filter controls; an empty string is an unset control. */
  datatype Filters = Filters(
    searchTerm: string,
    operator: string,
    value: string,
    damage: string,
    neighborhood: string,
    aid: string)

  /** `husband_name?.toLowerCase().includes(term.toLowerCase()) || husband_id_number?.includes(term)`;
      a missing field matches nothing. */
  predicate SearchMatch(term: string, r: Resident)
  {
    || (r.husbandName.Some? && Contains(Lower(r.husbandName.value), Lower(term)))
    || (r.husbandIdNumber.Some? && Contains(r.husbandIdNumber.value, term))
  }

  /** The number `>` and `<` turn a size into: `null` becomes `0`, text is
      read by `Number`, and `undefined` becomes `NaN` (None), which compares
      false with anything. */
  function SizeNumber(size: FamilySize): (v: Option<int>)
    ensures size.Members? ==> v == Some(size.n)
    ensures size.NullSize? ==> v == Some(0)
    ensures size.TextSize? ==> v == TextToNumber(size.s)
    ensures v.None? <==> size.Missing? || (size.TextSize? && TextToNumber(size.s).None?)
  {
    match size
    case Missing => None
    case NullSize => Some(0)
    case Members(n) => Some(n)
    case TextSize(s) => TextToNumber(s)
  }

  /** `num_family_members > val` (`<`, `===`) for operator `>` (`<`, `=`), with
      `val = parseInt(value)`; any other operator keeps every resident. A
      `NaN` value compares false; `===` holds only between numbers. */
  predicate SizeMatch(operator: string, value: string, r: Resident)
  {
    var val := ParseInt(value);
    var size := SizeNumber(r.familySize);
    if operator == ">" then size.Some? && val.Some? && size.value > val.value
    else if operator == "<" then size.Some? && val.Some? && size.value < val.value
    else if operator == "=" then val.Some? && r.familySize == Members(val.value)
    else true
  }

  /** `damage_level === damage`. */
  predicate DamageMatch(damage: string, r: Resident)
  {
    r.damageLevel == Some(damage)
  }

  /** `neighborhood === neighborhood`. */
  predicate NeighborhoodMatch(neighborhood: string, r: Resident)
  {
    r.neighborhood == Some(neighborhood)
  }

  /** `aid === 'received' ? has_received_aid : !has_received_aid`. */
  predicate AidMatch(aid: string, r: Resident)
  {
    if aid == "received" then r.hasReceivedAid else !r.hasReceivedAid
  }

  /** One stage of the chain: filter when the control is set, otherwise pass everything on. */
  function Stage(active: bool, p: Resident -> bool, rs: seq<Resident>): (r: seq<Resident>)
    ensures !active ==> r == rs
    ensures active ==> r == Filter(p, rs)
  {
    if active then Filter(p, rs) else rs
  }

  predicate SearchActive(f: Filters) { f.searchTerm != "" }
  predicate SizeActive(f: Filters) { f.operator != "" && f.value != "" }
  predicate DamageActive(f: Filters) { f.damage != "" }
  predicate NeighborhoodActive(f: Filters) { f.neighborhood != "" }
  predicate AidActive(f: Filters) { f.aid != "" }

  /** `applyAllFilters`: search, family size, damage level, neighbourhood and
      aid status, applied one after another to the residents. */
  function ApplyAllFilters(residents: seq<Resident>, f: Filters): (r: seq<Resident>)
    ensures |r| <= |residents|
  {
    var s1 := Stage(SearchActive(f), r => SearchMatch(f.searchTerm, r), residents);
    var s2 := Stage(SizeActive(f), r => SizeMatch(f.operator, f.value, r), s1);
    var s3 := Stage(DamageActive(f), r => DamageMatch(f.damage, r), s2);
    var s4 := Stage(NeighborhoodActive(f), r => NeighborhoodMatch(f.neighborhood, r), s3);
    Stage(AidActive(f), r => AidMatch(f.aid, r), s4)
  }

  /** The reference reading of the filters: a resident is shown when it
      satisfies every control that is set. */
  predicate Shown(f: Filters, r: Resident)
  {
    && (SearchActive(f) ==> SearchMatch(f.searchTerm, r))
    && (SizeActive(f) ==> SizeMatch(f.operator, f.value, r))
    && (DamageActive(f) ==> DamageMatch(f.damage, r))
    && (NeighborhoodActive(f) ==> NeighborhoodMatch(f.neighborhood, r))
    && (AidActive(f) ==> AidMatch(f.aid, r))
  }

  /** A stage is a filter by "inactive, or passes". */
  lemma StageIsFilter(active: bool, p: Resident -> bool, rs: seq<Resident>)
    ensures Stage(active, p, rs) == Filter(x => !active || p(x), rs)
  {
    if active {
      FilterCongruent(p, x => !active || p(x), rs);
    } else {
      FilterAllPass(x => !active || p(x), rs);
    }
  }

  /** Applying a stage after a filter is one filter by the conjunction. */
  lemma StageAfterFilter(q: Resident -> bool, active: bool, p: Resident -> bool, rs: seq<Resident>)
    ensures Stage(active, p, Filter(q, rs)) == Filter(x => q(x) && (!active || p(x)), rs)
  {
    StageIsFilter(active, p, Filter(q, rs));
    FilterFilter(q, x => !active || p(x), rs);
  }

  /** The chain of stages is the single conjunctive filter `Shown`. */
  lemma ApplyAllFiltersIsShown(residents: seq<Resident>, f: Filters)
    ensures ApplyAllFilters(residents, f) == Filter(r => Shown(f, r), residents)
  {
    var p1 := r => SearchMatch(f.searchTerm, r);
    var p2 := r => SizeMatch(f.operator, f.value, r);
    var p3 := r => DamageMatch(f.damage, r);
    var p4 := r => NeighborhoodMatch(f.neighborhood, r);
    var p5 := r => AidMatch(f.aid, r);
    var q1 := x => !SearchActive(f) || p1(x);
    StageIsFilter(SearchActive(f), p1, residents);
    var q2 := x => q1(x) && (!SizeActive(f) || p2(x));
    StageAfterFilter(q1, SizeActive(f), p2, residents);
    var q3 := x => q2(x) && (!DamageActive(f) || p3(x));
    StageAfterFilter(q2, DamageActive(f), p3, residents);
    var q4 := x => q3(x) && (!NeighborhoodActive(f) || p4(x));
    StageAfterFilter(q3, NeighborhoodActive(f), p4, residents);
    var q5 := x => q4(x) && (!AidActive(f) || p5(x));
    StageAfterFilter(q4, AidActive(f), p5, residents);
    forall i | 0 <= i < |residents|
      ensures q5(residents[i]) == Shown(f, residents[i])
    {
      var x := residents[i];
      assert q4(x) == (q3(x) && (!NeighborhoodActive(f) || p4(x)));
      assert q2(x) == (q1(x) && (!SizeActive(f) || p2(x)));
    }
    FilterCongruent(q5, r => Shown(f, r), residents);
  }

  /** The filtered table keeps the residents' order and invents nobody. */
  lemma FilteredIsSubsequence(residents: seq<Resident>, f: Filters)
    ensures IsSubsequence(ApplyAllFilters(residents, f), residents)
  {
    ApplyAllFiltersIsShown(residents, f);
    FilterIsSubsequence(r => Shown(f, r), residents);
  }

  /** A resident is in the table exactly when it is a resident and satisfies every set control. */
  lemma FilteredMembership(residents: seq<Resident>, f: Filters, r: Resident)
    ensures r in ApplyAllFilters(residents, f) <==> r in residents && Shown(f, r)
  {
    ApplyAllFiltersIsShown(residents, f);
    FilterMembership(x => Shown(f, x), residents, r);
  }

  /** With every control unset the table shows all residents, in order. */
  lemma NoFiltersShowsAll(residents: seq<Resident>)
    ensures ApplyAllFilters(residents, Filters("", "", "", "", "", "")) == residents
  {
  }

  /** The size filter with operator `=` keeps exactly the households of the typed size. */
  lemma SizeEqualsKeepsExactSize(residents: seq<Resident>, n: nat, r: Resident)
    ensures var f := Filters("", "=", NatToString(n), "", "", "");
            r in ApplyAllFilters(residents, f) <==> r in residents && r.familySize == Members(n as int)
  {
    ParseIntOfNatToString(n);
    FilteredMembership(residents, Filters("", "=", NatToString(n), "", "", ""), r);
  }

  /** A `null` size compares as `0` under `<` and `>` but equals no number:
      such a household is listed under `< n` for every positive `n`, and
      never under `> n` or `= n`. An absent size is never listed. */
  lemma NullSizeComparesAsZero(residents: seq<Resident>, n: nat, r: Resident)
    requires r in residents && (r.familySize.NullSize? || r.familySize.Missing?)
    ensures r.familySize == NullSize && n > 0 ==> r in ApplyAllFilters(residents, Filters("", "<", NatToString(n), "", "", ""))
    ensures r.familySize == Missing ==> r !in ApplyAllFilters(residents, Filters("", "<", NatToString(n), "", "", ""))
    ensures r !in ApplyAllFilters(residents, Filters("", ">", NatToString(n), "", "", ""))
    ensures r !in ApplyAllFilters(residents, Filters("", "=", NatToString(n), "", "", ""))
  {
    ParseIntOfNatToString(n);
    FilteredMembership(residents, Filters("", "<", NatToString(n), "", "", ""), r);
    FilteredMembership(residents, Filters("", ">", NatToString(n), "", "", ""), r);
    FilteredMembership(residents, Filters("", "=", NatToString(n), "", "", ""), r);
  }

  /** A size typed into the edit dialog is stored as text: `>` and `<`
      compare the number it reads as. */
  lemma TextSizeComparesAsNumber(residents: seq<Resident>, n: nat, m: nat, r: Resident)
    requires r in residents && r.familySize == TextSize(NatToString(m))
    ensures r in ApplyAllFilters(residents, Filters("", "<", NatToString(n), "", "", "")) <==> m < n
    ensures r in ApplyAllFilters(residents, Filters("", ">", NatToString(n), "", "", "")) <==> m > n
  {
    ParseIntOfNatToString(n);
    TextToNumberOfNatToString(m);
    assert SizeNumber(r.familySize) == Some(m as int);
    FilteredMembership(residents, Filters("", "<", NatToString(n), "", "", ""), r);
    FilteredMembership(residents, Filters("", ">", NatToString(n), "", "", ""), r);
  }

  /** `===` between text and a number is false: once a value is typed, the
      `=` filter never lists a household whose size is text, whatever the
      text says. */
  lemma TextSizeNeverEquals(residents: seq<Resident>, value: string, r: Resident)
    requires r.familySize.TextSize? && value != ""
    ensures r !in ApplyAllFilters(residents, Filters("", "=", value, "", "", ""))
  {
    FilteredMembership(residents, Filters("", "=", value, "", "", ""), r);
  }

  /** A size value that is not a number (`parseInt` gives `NaN`) empties the
      table under `>`, `<` and `=`: every comparison with `NaN` is false. */
  lemma NaNSizeShowsNothing(residents: seq<Resident>, f: Filters)
    requires f.operator in {">", "<", "="} && f.value != "" && ParseInt(f.value).None?
    ensures ApplyAllFilters(residents, f) == []
  {
    ApplyAllFiltersIsShown(residents, f);
    FilterNonePass(x => Shown(f, x), residents);
  }

  // ---------- validators ----------

  /** `isInvalidId(id)`: missing, not nine characters long, or not all ASCII
      digits. `None` is `undefined`. */
  function IsInvalidId(id: Option<string>): (invalid: bool)
    ensures !invalid <==> id.Some? && |id.value| == 9 && forall i :: 0 <= i < 9 ==> '0' <= id.value[i] <= '9'
  {
    id.None? || id.value == "" || |id.value| != 9 || !NineDigits(id.value)
  }

  /** The test `/^[0-9]{9}$/`. */
  predicate NineDigits(s: string)
  {
    |s| == 9 && AllDigits(s)
  }

  /** `String(v)` for the values a form field holds. */
  function Stringify(v: Value): string
  {
    match v
    case Null => "null"
    case Bool(b) => if b then "true" else "false"
    case Number(n) => if n >= 0 then NatToString(n) else "-" + NatToString(-n)
    case Text(s) => s
  }

  /** `isInvalidField(val)`: `null`/`undefined`, or a value whose trimmed text
      is empty, the placeholder dash `—`, or contains an underscore.
      `None` is `undefined`. */
  function IsInvalidField(val: Option<Value>): (invalid: bool)
    ensures val.Some? && val.value.Text? ==>
              (invalid <==> AllSpace(val.value.s) || '_' in val.value.s || Trim(val.value.s) == "—")
    ensures val.Some? && (val.value.Number? || val.value.Bool?) ==> !invalid
    ensures val.None? || val == Some(Null) ==> invalid
  {
    if val.None? || val.value.Null? then true
    else
      var s := Stringify(val.value);
      var t := Trim(s);
      InvalidFieldText(s);
      ScalarText(val.value);
      t == "" || t == "—" || Contains(t, "_")
  }

  /** The trimmed-text test, read on the untrimmed text: trimming leaves it
      empty only when it is all white space, and keeps every underscore. */
  lemma InvalidFieldText(s: string)
    ensures Trim(s) == "" <==> AllSpace(s)
    ensures Contains(Trim(s), "_") <==> '_' in s
  {
    TrimEmptyIffAllSpace(s);
    ContainsChar(Trim(s), '_');
    TrimKeepsNonSpace(s, '_');
  }

  lemma TrimEmptyIffAllSpace(s: string)
    ensures Trim(s) == "" <==> AllSpace(s)
  {
    var t := TrimStart(s);
    assert t != [] ==> t[0] == s[|s| - |t|];
    if Trim(s) == "" {
      assert AllSpace(t[0..]);
      assert s == s[..|s| - |t|] + t;
    }
  }

  /** The text of a string not starting or ending with white space is its own trim. */
  lemma TrimOfUnpadded(s: string)
    requires s != [] && !IsSpace(s[0]) && !IsSpace(s[|s| - 1])
    ensures Trim(s) == s
  {
  }

  /** The text of a number or a flag is its own trim, is neither empty nor the
      dash placeholder, and has no underscore. */
  lemma ScalarText(v: Value)
    ensures v.Number? || v.Bool? ==>
              var s := Stringify(v);
              Trim(s) == s && s != "" && s != "—" && '_' !in s
  {
    var s := Stringify(v);
    match v
    case Number(n) =>
      var m: nat := if n >= 0 then n else -n;
      var d := NatToString(m);
      assert IsDigit(d[|d| - 1]) && IsDigit(d[0]);
      assert s == if n >= 0 then d else "-" + d;
      assert '_' !in d;
      assert s[0] == '-' || IsDigit(s[0]);
      TrimOfUnpadded(s);
    case Bool(b) =>
      TrimOfUnpadded(s);
    case _ =>
  }

  // ---------- save and delete ----------

  /** `handleSave`: online, the edit is PUT to the server (`putOk` is its
      outcome) and mirrored into the local cache only on success; offline,
      it is written to the cache directly. */
  function HandleSave(online: bool, putOk: bool, db: LocalDb.Db, form: Resident): (res: LocalDb.Db)
    requires LocalDb.Valid(db)
    ensures LocalDb.Valid(res)
    ensures res.(residents := db.residents) == db
    ensures online && !putOk ==> res == db
    ensures (!online || putOk) && form.id.Some? ==>
              Contents(res.residents) == Contents(db.residents)[form.id.value := form]
  {
    if online && !putOk then db else LocalDb.UpdateResident(db, form)
  }

  /** `handleDelete(id)`: online, the DELETE is sent (`deleteOk` is its
      outcome) and the cached resident removed only on success; offline, the
      resident is removed from the cache and its id queued for deletion. */
  function HandleDelete(online: bool, deleteOk: bool, db: LocalDb.Db, id: Key): (res: LocalDb.Db)
    requires LocalDb.Valid(db)
    ensures LocalDb.Valid(res)
    ensures res.admins == db.admins && res.statistics == db.statistics
    ensures online && !deleteOk ==> res == db
    ensures online && deleteOk ==> res.pendingDeletes == db.pendingDeletes
    ensures !online || deleteOk ==> Contents(res.residents) == Contents(db.residents) - {id}
    ensures !online ==> Contents(res.pendingDeletes) == Contents(db.pendingDeletes)[id := LocalDb.PendingDelete(id)]
  {
    if online then
      if deleteOk then LocalDb.DeleteResident(db, id) else db
    else LocalDb.AddPendingDelete(LocalDb.DeleteResident(db, id), id)
  }

  /** Deleting the same resident offline twice leaves the cache as one delete does. */
  lemma OfflineDeleteIdempotent(db: LocalDb.Db, id: Key)
    requires LocalDb.Valid(db)
    ensures var once := HandleDelete(false, false, db, id);
            var twice := HandleDelete(false, false, once, id);
            && Contents(twice.residents) == Contents(once.residents)
            && Contents(twice.pendingDeletes) == Contents(once.pendingDeletes)
  {
    var once := HandleDelete(false, false, db, id);
    assert Contents(once.residents) - {id} == Contents(once.residents);
    assert Contents(once.pendingDeletes)[id := LocalDb.PendingDelete(id)] == Contents(once.pendingDeletes);
  }

  /** After an offline save the cache lists the edited record. */
  lemma OfflineSaveIsListed(db: LocalDb.Db, form: Resident)
    requires LocalDb.Valid(db) && form.id.Some?
    ensures form in LocalDb.GetAllResidents(HandleSave(false, false, db, form))
  {
    var res := HandleSave(false, false, db, form);
    assert Contents(res.residents)[form.id.value] == form;
  }

  /** After the size is edited in the dialog it is text, so a household saved
      offline is listed from the cache but no longer found by the `=` filter. */
  lemma OfflineEditedSizeLeavesEquals(db: LocalDb.Db, form: Resident, n: nat)
    requires LocalDb.Valid(db) && form.id.Some? && form.familySize.TextSize?
    ensures var listed := LocalDb.GetAllResidents(HandleSave(false, false, db, form));
            && form in listed
            && form !in ApplyAllFilters(listed, Filters("", "=", NatToString(n), "", "", ""))
  {
    var listed := LocalDb.GetAllResidents(HandleSave(false, false, db, form));
    OfflineSaveIsListed(db, form);
    SizeEqualsKeepsExactSize(listed, n, form);
  }
}

=== FILE: seqs.dfy ===
/** The array operations the pages use on their lists: `filter`, and
    `[...new Set(xs)]`, with the order facts the views depend on. */
module Seqs {

  /** `xs.filter(p)`. */
  function Filter<T>(p: T -> bool, xs: seq<T>): (r: seq<T>)
    ensures |r| <= |xs|
    ensures forall i :: 0 <= i < |r| ==> p(r[i])
    decreases |xs|
  {
    if xs == [] then []
    else if p(xs[0]) then [xs[0]] + Filter(p, xs[1..])
    else Filter(p, xs[1..])
  }

  /** `a` is `b` with some elements left out, the rest in their original order. */
  ghost predicate IsSubsequence<T>(a: seq<T>, b: seq<T>)
    decreases |b|
  {
    if a == [] then true
    else if b == [] then false
    else (a[0] == b[0] && IsSubsequence(a[1..], b[1..])) || IsSubsequence(a, b[1..])
  }

  /** Filtering keeps an order-preserving subsequence. */
  lemma {:induction false} FilterIsSubsequence<T>(p: T -> bool, xs: seq<T>)
    ensures IsSubsequence(Filter(p, xs), xs)
    decreases |xs|
  {
    if xs != [] {
      FilterIsSubsequence(p, xs[1..]);
      if p(xs[0]) {
        assert ([xs[0]] + Filter(p, xs[1..]))[1..] == Filter(p, xs[1..]);
      }
    }
  }

  /** An element is kept exactly when it is in the list and passes the predicate. */
  lemma {:induction false} FilterMembership<T>(p: T -> bool, xs: seq<T>, x: T)
    ensures x in Filter(p, xs) <==> x in xs && p(x)
    decreases |xs|
  {
    if xs != [] {
      FilterMembership(p, xs[1..], x);
      assert x in xs <==> x == xs[0] || x in xs[1..];
    }
  }

  /** A filter every element passes returns the list unchanged. */
  lemma {:induction false} FilterAllPass<T>(p: T -> bool, xs: seq<T>)
    requires forall i :: 0 <= i < |xs| ==> p(xs[i])
    ensures Filter(p, xs) == xs
    decreases |xs|
  {
    if xs != [] {
      FilterAllPass(p, xs[1..]);
      assert [xs[0]] + xs[1..] == xs;
    }
  }

  /** A filter no element passes returns nothing. */
  lemma {:induction false} FilterNonePass<T>(p: T -> bool, xs: seq<T>)
    requires forall i :: 0 <= i < |xs| ==> !p(xs[i])
    ensures Filter(p, xs) == []
    decreases |xs|
  {
    if xs != [] {
      FilterNonePass(p, xs[1..]);
    }
  }

  /** Two filters in a row are one filter by the conjunction. */
  lemma {:induction false} FilterFilter<T>(p: T -> bool, q: T -> bool, xs: seq<T>)
    ensures Filter(q, Filter(p, xs)) == Filter(x => p(x) && q(x), xs)
    decreases |xs|
  {
    if xs != [] {
      FilterFilter(p, q, xs[1..]);
      if p(xs[0]) {
        assert ([xs[0]] + Filter(p, xs[1..]))[1..] == Filter(p, xs[1..]);
      }
    }
  }

  /** Two filters in a row are one filter by any predicate that is their conjunction on the list. */
  lemma {:induction false} FilterThenFilter<T>(p: T -> bool, q: T -> bool, r: T -> bool, xs: seq<T>)
    requires forall i :: 0 <= i < |xs| ==> r(xs[i]) == (p(xs[i]) && q(xs[i]))
    ensures Filter(q, Filter(p, xs)) == Filter(r, xs)
    decreases |xs|
  {
    if xs != [] {
      FilterThenFilter(p, q, r, xs[1..]);
      if p(xs[0]) {
        assert ([xs[0]] + Filter(p, xs[1..]))[1..] == Filter(p, xs[1..]);
      }
    }
  }

  /** Filtering by predicates that agree on the list gives the same result. */
  lemma {:induction false} FilterCongruent<T>(p: T -> bool, q: T -> bool, xs: seq<T>)
    requires forall i :: 0 <= i < |xs| ==> p(xs[i]) == q(xs[i])
    ensures Filter(p, xs) == Filter(q, xs)
    decreases |xs|
  {
    if xs != [] {
      FilterCongruent(p, q, xs[1..]);
    }
  }

  /** `[...new Set(xs)]`: each value once, in order of first occurrence. */
  function Distinct<T(==)>(xs: seq<T>): (r: seq<T>)
    ensures forall i, j :: 0 <= i < j < |r| ==> r[i] != r[j]
    ensures forall i :: 0 <= i < |xs| ==> xs[i] in r
    ensures forall i :: 0 <= i < |r| ==> r[i] in xs
    ensures IsSubsequence(r, xs)
    decreases |xs|
  {
    if xs == [] then []
    else
      var init := xs[..|xs| - 1];
      var last := xs[|xs| - 1];
      var d := Distinct(init);
      assert xs == init + [last];
      SubsequenceExtend(d, init, last);
      if last in d then d
      else
        SubsequenceAppend(d, init, last);
        d + [last]
  }

  /** Before any occurrence in `xs` of an element of `r`, every earlier
      element of `r` has already occurred. */
  ghost predicate FirstOccurrenceOrder<T>(r: seq<T>, xs: seq<T>)
  {
    forall i, j, n :: 0 <= i < j < |r| && 0 <= n < |xs| && xs[n] == r[j] ==> r[i] in xs[..n]
  }

  /** An occurrence of `r[j]` in `xs` has one of `r[i]`, for each `i < j`, before it. */
  lemma FirstOccurrenceAt<T>(r: seq<T>, xs: seq<T>, i: nat, j: nat, n: nat)
    requires FirstOccurrenceOrder(r, xs)
    requires i < j < |r| && n < |xs| && xs[n] == r[j]
    ensures exists m :: 0 <= m < n && xs[m] == r[i]
  {
    assert r[i] in xs[..n];
    var m :| 0 <= m < n && xs[..n][m] == r[i];
    assert xs[m] == r[i];
  }

  /** `Distinct` keeps the order of first occurrence, as a JavaScript `Set`
      does: before any occurrence of a later element, every earlier one has
      already occurred. */
  lemma {:induction false} DistinctFirstOccurrence<T>(xs: seq<T>)
    ensures FirstOccurrenceOrder(Distinct(xs), xs)
    decreases |xs|
  {
    if xs != [] {
      var init := xs[..|xs| - 1];
      var last := xs[|xs| - 1];
      var d := Distinct(init);
      DistinctFirstOccurrence(init);
      assert FirstOccurrenceOrder(d, init);
      assert xs == init + [last];
      var r := Distinct(xs);
      assert r == if last in d then d else d + [last];
      forall i, j, n | 0 <= i < j < |r| && 0 <= n < |xs| && xs[n] == r[j]
        ensures r[i] in xs[..n]
      {
        assert r[i] == d[i] && d[i] in init;
        if n == |xs| - 1 {
          assert xs[..n] == init;
        } else {
          assert xs[n] == init[n] && init[n] in d;
          assert j < |d|;
          assert init[n] == d[j];
          assert d[i] in init[..n];
          assert init[..n] == xs[..n];
        }
      }
    }
  }

  lemma {:induction false} SubsequenceExtend<T>(a: seq<T>, b: seq<T>, x: T)
    requires IsSubsequence(a, b)
    ensures IsSubsequence(a, b + [x])
    decreases |b|
  {
    if a != [] && b != [] {
      assert (b + [x])[1..] == b[1..] + [x];
      if a[0] == b[0] && IsSubsequence(a[1..], b[1..]) {
        SubsequenceExtend(a[1..], b[1..], x);
      } else {
        SubsequenceExtend(a, b[1..], x);
      }
    }
  }

  lemma {:induction false} SubsequenceAppend<T>(a: seq<T>, b: seq<T>, x: T)
    requires IsSubsequence(a, b)
    ensures IsSubsequence(a + [x], b + [x])
    decreases |b|
  {
    if a == [] {
      SubsequenceSingleton(b, x);
      assert a + [x] == [x];
    } else {
      assert (a + [x])[1..] == a[1..] + [x];
      assert (b + [x])[1..] == b[1..] + [x];
      if a[0] == b[0] && IsSubsequence(a[1..], b[1..]) {
        SubsequenceAppend(a[1..], b[1..], x);
      } else {
        SubsequenceAppend(a, b[1..], x);
      }
    }
  }

  lemma {:induction false} SubsequenceSingleton<T>(b: seq<T>, x: T)
    ensures IsSubsequence([x], b + [x])
    decreases |b|
  {
    if b != [] {
      assert (b + [x])[1..] == b[1..] + [x];
      SubsequenceSingleton(b[1..], x);
    } else {
      assert [x][1..] == [];
    }
  }
}

=== FILE: store.dfy ===
/** An IndexedDB object store, as the front end uses it through the `idb`
    wrapper: records kept in key order, `add` (insert only), `put` (insert or
    overwrite), `delete`, `clear`, `get` and `getAll`, and the key generator
    of an `autoIncrement` store.

    The store is a list of entries strictly sorted by key; `Contents` is its
    map view, and every operation is specified against that map. */
module Store {

  import opened Common

  /** A valid IndexedDB key as used here: a number or a string. */
  datatype Key = NumKey(n: int) | StrKey(s: string)

  /** Lexicographic order of strings by code point (a `char` is a Unicode
      scalar value). IndexedDB compares UTF-16 code units; the two orders
      differ only between a character in U+E000..U+FFFF and one beyond
      U+FFFF. */
  predicate StrLt(a: string, b: string)
    decreases |a|
  {
    if a == [] then b != []
    else if b == [] then false
    else a[0] < b[0] || (a[0] == b[0] && StrLt(a[1..], b[1..]))
  }

  /** IndexedDB key order: every number sorts before every string. */
  predicate KeyLt(a: Key, b: Key)
  {
    match (a, b)
    case (NumKey(x), NumKey(y)) => x < y
    case (NumKey(_), StrKey(_)) => true
    case (StrKey(_), NumKey(_)) => false
    case (StrKey(x), StrKey(y)) => StrLt(x, y)
  }

  lemma {:induction false} StrLtIrreflexive(a: string)
    ensures !StrLt(a, a)
    decreases |a|
  {
    if a != [] {
      StrLtIrreflexive(a[1..]);
    }
  }

  lemma {:induction false} StrLtTransitive(a: string, b: string, c: string)
    requires StrLt(a, b) && StrLt(b, c)
    ensures StrLt(a, c)
    decreases |a|
  {
    if a != [] && a[0] == b[0] && b[0] == c[0] {
      StrLtTransitive(a[1..], b[1..], c[1..]);
    }
  }

  lemma {:induction false} StrLtTotal(a: string, b: string)
    requires a != b
    ensures StrLt(a, b) || StrLt(b, a)
    decreases |a|
  {
    if a != [] && b != [] && a[0] == b[0] {
      assert a == [a[0]] + a[1..] && b == [b[0]] + b[1..];
      StrLtTotal(a[1..], b[1..]);
    }
  }

  /** The key order is a strict total order. */
  lemma KeyLtIrreflexive(a: Key)
    ensures !KeyLt(a, a)
  {
    if a.StrKey? {
      StrLtIrreflexive(a.s);
    }
  }

  lemma KeyLtTransitive(a: Key, b: Key, c: Key)
    requires KeyLt(a, b) && KeyLt(b, c)
    ensures KeyLt(a, c)
  {
    if a.StrKey? && b.StrKey? && c.StrKey? {
      StrLtTransitive(a.s, b.s, c.s);
    }
  }

  lemma KeyLtTotal(a: Key, b: Key)
    requires a != b
    ensures KeyLt(a, b) || KeyLt(b, a)
  {
    if a.StrKey? && b.StrKey? {
      StrLtTotal(a.s, b.s);
    }
  }

  /** One record of a store, under its key (for a key-path store the key is
      also the record's key-path field). */
  datatype Entry<V> = Entry(key: Key, value: V)

  /** Keys strictly increasing: the order `getAll` returns records in, and no key twice. */
  predicate Sorted<V>(es: seq<Entry<V>>)
  {
    forall i, j :: 0 <= i < j < |es| ==> KeyLt(es[i].key, es[j].key)
  }

  /** The keys a list of entries holds. */
  ghost function KeySet<V>(es: seq<Entry<V>>): set<Key>
    decreases |es|
  {
    if es == [] then {} else {es[0].key} + KeySet(es[1..])
  }

  lemma {:induction false} KeyInKeySet<V>(es: seq<Entry<V>>, i: int)
    requires 0 <= i < |es|
    ensures es[i].key in KeySet(es)
    decreases |es|
  {
    if i > 0 {
      KeyInKeySet(es[1..], i - 1);
    }
  }

  lemma {:induction false} KeySetIndex<V>(es: seq<Entry<V>>, k: Key) returns (i: int)
    requires k in KeySet(es)
    ensures 0 <= i < |es| && es[i].key == k
    decreases |es|
  {
    if es[0].key == k {
      i := 0;
    } else {
      var j := KeySetIndex(es[1..], k);
      i := j + 1;
    }
  }

  /** The map a list of entries denotes. */
  ghost function ToMap<V>(es: seq<Entry<V>>): (m: map<Key, V>)
    ensures m.Keys == KeySet(es)
    decreases |es|
  {
    if es == [] then map[]
    else
      KeySetCons(es);
      ToMap(es[1..])[es[0].key := es[0].value]
  }

  lemma KeySetCons<V>(es: seq<Entry<V>>)
    requires es != []
    ensures KeySet(es) == KeySet(es[1..]) + {es[0].key}
  {
  }

  lemma KeySetPrepend<V>(e: Entry<V>, es: seq<Entry<V>>)
    ensures KeySet([e] + es) == KeySet(es) + {e.key}
  {
    KeySetCons([e] + es);
    assert ([e] + es)[1..] == es;
  }

  /** In a sorted list the first key is below every key of the rest. */
  lemma FirstBelowRest<V>(es: seq<Entry<V>>)
    requires Sorted(es) && es != []
    ensures forall k :: k in KeySet(es[1..]) ==> KeyLt(es[0].key, k)
  {
    forall k | k in KeySet(es[1..]) ensures KeyLt(es[0].key, k) {
      var i := KeySetIndex(es[1..], k);
      assert es[i + 1].key == k;
    }
  }

  /** A list whose first key is below every later key, and whose rest is sorted, is sorted. */
  lemma SortedCons<V>(h: Entry<V>, t: seq<Entry<V>>)
    requires Sorted(t)
    requires forall k :: k in KeySet(t) ==> KeyLt(h.key, k)
    ensures Sorted([h] + t)
  {
    var r := [h] + t;
    forall i, j | 0 <= i < j < |r| ensures KeyLt(r[i].key, r[j].key) {
      assert r[j] == t[j - 1];
      if i == 0 {
        KeyInKeySet(t, j - 1);
      } else {
        assert r[i] == t[i - 1];
      }
    }
  }

  /** In a sorted list every entry is what the map view holds for its key. */
  lemma {:induction false} ToMapAt<V>(es: seq<Entry<V>>, i: int)
    requires Sorted(es) && 0 <= i < |es|
    ensures es[i].key in ToMap(es) && ToMap(es)[es[i].key] == es[i].value
    decreases |es|
  {
    if i > 0 {
      ToMapAt(es[1..], i - 1);
      assert KeyLt(es[0].key, es[i].key);
      KeyLtIrreflexive(es[0].key);
    }
  }

  /** A key below the first key of a sorted list is absent from it. */
  lemma BelowFirstIsAbsent<V>(es: seq<Entry<V>>, k: Key)
    requires Sorted(es) && es != [] && KeyLt(k, es[0].key)
    ensures k !in KeySet(es)
  {
    if k in KeySet(es) {
      var i := KeySetIndex(es, k);
      if i > 0 {
        KeyLtTransitive(k, es[0].key, es[i].key);
      }
      KeyLtIrreflexive(k);
    }
  }

  /** Insert-or-overwrite in a sorted list. */
  function Insert<V>(es: seq<Entry<V>>, k: Key, v: V): (r: seq<Entry<V>>)
    requires Sorted(es)
    ensures Sorted(r)
    ensures KeySet(r) == KeySet(es) + {k}
    ensures ToMap(r) == ToMap(es)[k := v]
    ensures |r| == if k in KeySet(es) then |es| else |es| + 1
    decreases |es|
  {
    if es == [] then [Entry(k, v)]
    else if es[0].key == k then
      InsertReplace(es, v);
      [Entry(k, v)] + es[1..]
    else if KeyLt(k, es[0].key) then
      InsertFront(es, k, v);
      [Entry(k, v)] + es
    else
      var t := Insert(es[1..], k, v);
      InsertAfter(es, k, v, t);
      [es[0]] + t
  }

  lemma InsertReplace<V>(es: seq<Entry<V>>, v: V)
    requires Sorted(es) && es != []
    ensures var r := [Entry(es[0].key, v)] + es[1..];
            Sorted(r) && KeySet(r) == KeySet(es) && ToMap(r) == ToMap(es)[es[0].key := v]
  {
    var r := [Entry(es[0].key, v)] + es[1..];
    assert r[1..] == es[1..];
    KeySetCons(es);
    KeySetPrepend(Entry(es[0].key, v), es[1..]);
    assert Sorted(r) by {
      forall i, j | 0 <= i < j < |r| ensures KeyLt(r[i].key, r[j].key) {
        assert r[j] == es[j];
        assert r[i].key == es[i].key;
      }
    }
  }

  lemma InsertFront<V>(es: seq<Entry<V>>, k: Key, v: V)
    requires Sorted(es) && es != [] && KeyLt(k, es[0].key)
    ensures var r := [Entry(k, v)] + es;
            Sorted(r) && KeySet(r) == KeySet(es) + {k} && ToMap(r) == ToMap(es)[k := v]
    ensures k !in KeySet(es)
  {
    var r := [Entry(k, v)] + es;
    assert r[1..] == es;
    BelowFirstIsAbsent(es, k);
    KeySetPrepend(Entry(k, v), es);
    forall k' | k' in KeySet(es) ensures KeyLt(k, k') {
      var i := KeySetIndex(es, k');
      if i > 0 {
        KeyLtTransitive(k, es[0].key, es[i].key);
      }
    }
    SortedCons(Entry(k, v), es);
  }

  lemma InsertAfter<V>(es: seq<Entry<V>>, k: Key, v: V, t: seq<Entry<V>>)
    requires Sorted(es) && es != [] && es[0].key != k && !KeyLt(k, es[0].key)
    requires Sorted(t)
    requires KeySet(t) == KeySet(es[1..]) + {k}
    requires ToMap(t) == ToMap(es[1..])[k := v]
    requires |t| == if k in KeySet(es[1..]) then |es| - 1 else |es|
    ensures Sorted([es[0]] + t)
    ensures KeySet([es[0]] + t) == KeySet(es) + {k}
    ensures ToMap([es[0]] + t) == ToMap(es)[k := v]
    ensures |[es[0]] + t| == if k in KeySet(es) then |es| else |es| + 1
  {
    var h := es[0];
    var r := [h] + t;
    assert r[1..] == t && r[0] == h;
    KeyLtTotal(k, h.key);
    KeySetCons(es);
    KeySetPrepend(h, t);
    FirstBelowRest(es);
    SortedCons(h, t);
    UpdateCommute(ToMap(es[1..]), k, v, h.key, h.value);
  }

  /** Removes every entry under key `k`. */
  function Remove<V>(es: seq<Entry<V>>, k: Key): (r: seq<Entry<V>>)
    requires Sorted(es)
    ensures Sorted(r)
    ensures KeySet(r) == KeySet(es) - {k}
    ensures ToMap(r) == ToMap(es) - {k}
    decreases |es|
  {
    if es == [] then []
    else
      var t := Remove(es[1..], k);
      KeySetCons(es);
      if es[0].key == k then
        UpdateThenRemove(ToMap(es[1..]), k, es[0].value);
        t
      else
        var r := [es[0]] + t;
        assert r[1..] == t && r[0] == es[0];
        KeySetPrepend(es[0], t);
        FirstBelowRest(es);
        SortedCons(es[0], t);
        RemoveThenUpdate(ToMap(es[1..]), k, es[0].key, es[0].value);
        r
  }

  /** Removing the key just written undoes the write. */
  lemma UpdateThenRemove<K, V>(m: map<K, V>, k: K, v: V)
    ensures m[k := v] - {k} == m - {k}
  {
  }

  /** Writing one key and removing another commute. */
  lemma RemoveThenUpdate<K, V>(m: map<K, V>, k: K, j: K, v: V)
    requires j != k
    ensures (m - {k})[j := v] == m[j := v] - {k}
  {
  }

  /** Overwriting a key that is present keeps the map's size. */
  lemma OverwriteKeepsSize<K, V>(m: map<K, V>, k: K, v: V)
    requires k in m
    ensures |m[k := v]| == |m|
  {
    assert m[k := v].Keys == m.Keys;
  }

  /** Writes to two different keys commute. */
  lemma UpdateCommute<K, V>(m: map<K, V>, a: K, x: V, b: K, y: V)
    requires a != b
    ensures m[a := x][b := y] == m[b := y][a := x]
  {
  }

  datatype StoreError =
    | DataError        // no key: the record lacks its key path and the store has no generator
    | ConstraintError  // `add` of a key that is already present

  /** An object store: its records in key order, whether it has a key
      generator (`autoIncrement: true`), and the generator's next number. */
  datatype ObjectStore<V> = ObjectStore(entries: seq<Entry<V>>, autoIncrement: bool, current: int)

  /** The store's invariant: keys sorted and unique, and the generator above
      every numeric key already stored. */
  predicate Valid<V>(s: ObjectStore<V>)
  {
    && Sorted(s.entries)
    && s.current >= 1
    && (s.autoIncrement ==>
          forall i :: 0 <= i < |s.entries| && s.entries[i].key.NumKey? ==> s.entries[i].key.n < s.current)
  }

  /** What the store holds, key to record. */
  ghost function Contents<V>(s: ObjectStore<V>): map<Key, V>
  {
    ToMap(s.entries)
  }

  /** A freshly created object store; a key generator starts at 1. */
  function Empty<V>(autoIncrement: bool): (s: ObjectStore<V>)
    ensures Valid(s) && Contents(s) == map[]
    ensures s.autoIncrement == autoIncrement
  {
    ObjectStore([], autoIncrement, 1)
  }

  /** The key a write uses: the record's own key when it has one, otherwise
      the generator's next number; a store without a generator fails. */
  function ResolveKey<V>(s: ObjectStore<V>, k: Option<Key>): (r: Result<Key, StoreError>)
    requires Valid(s)
    ensures r.Err? <==> k.None? && !s.autoIncrement
    ensures r.Ok? && k.Some? ==> r.value == k.value
    ensures r.Ok? && k.None? ==> r.value.NumKey? && r.value !in Contents(s)
  {
    match k
    case Some(key) => Ok(key)
    case None =>
      if s.autoIncrement then
        var key := NumKey(s.current);
        GeneratedKeyFresh(s);
        Ok(key)
      else Err(DataError)
  }

  /** The generator's next number is not yet a key of the store. */
  lemma GeneratedKeyFresh<V>(s: ObjectStore<V>)
    requires Valid(s) && s.autoIncrement
    ensures NumKey(s.current) !in Contents(s)
  {
    if NumKey(s.current) in KeySet(s.entries) {
      var i := KeySetIndex(s.entries, NumKey(s.current));
    }
  }

  /** Stores `v` under `key`, overwriting, and moves the generator past a
      numeric key that reaches it. */
  function PutAt<V>(s: ObjectStore<V>, key: Key, v: V): (r: ObjectStore<V>)
    requires Valid(s)
    ensures Valid(r)
    ensures Contents(r) == Contents(s)[key := v]
    ensures r.autoIncrement == s.autoIncrement
    ensures |r.entries| == if key in Contents(s) then |s.entries| else |s.entries| + 1
    ensures key.NumKey? && s.autoIncrement ==> key.n < r.current
  {
    var next := if s.autoIncrement && key.NumKey? && key.n >= s.current then key.n + 1 else s.current;
    var es := Insert(s.entries, key, v);
    forall i | 0 <= i < |es| && es[i].key.NumKey? && s.autoIncrement ensures es[i].key.n < next {
      KeyInKeySet(es, i);
      if es[i].key != key {
        var j := KeySetIndex(s.entries, es[i].key);
      }
    }
    ObjectStore(es, s.autoIncrement, next)
  }

  /** The outcome of a successful write: the new store and the key used
      (`put` and `add` resolve to that key). */
  datatype Written<V> = Written(store: ObjectStore<V>, key: Key)

  /** `store.put(record)`: insert or overwrite. */
  function Put<V>(s: ObjectStore<V>, k: Option<Key>, v: V): (r: Result<Written<V>, StoreError>)
    requires Valid(s)
    ensures r.Ok? <==> k.Some? || s.autoIncrement
    ensures r.Ok? ==> Valid(r.value.store) && r.value.store.autoIncrement == s.autoIncrement
    ensures r.Ok? ==> Contents(r.value.store) == Contents(s)[r.value.key := v]
    ensures r.Ok? && k.Some? ==> r.value.key == k.value
    ensures r.Ok? && k.None? ==> r.value.key !in Contents(s)
  {
    match ResolveKey(s, k)
    case Err(e) => Err(e)
    case Ok(key) => Ok(Written(PutAt(s, key, v), key))
  }

  /** `store.add(record)`: insert only; an existing key is a ConstraintError
      and the store is left as it was. */
  function Add<V>(s: ObjectStore<V>, k: Option<Key>, v: V): (r: Result<Written<V>, StoreError>)
    requires Valid(s)
    ensures r.Err? <==> (k.None? && !s.autoIncrement) || (k.Some? && k.value in Contents(s))
    ensures r.Ok? ==> Valid(r.value.store) && r.value.store.autoIncrement == s.autoIncrement
    ensures r.Ok? ==> r.value.key !in Contents(s)
    ensures r.Ok? ==> Contents(r.value.store) == Contents(s)[r.value.key := v]
    ensures r.Ok? && k.Some? ==> r.value.key == k.value
  {
    match ResolveKey(s, k)
    case Err(e) => Err(e)
    case Ok(key) =>
      if Get(s, key).Some? then Err(ConstraintError)
      else Ok(Written(PutAt(s, key, v), key))
  }

  /** `store.delete(key)`: removes that key only; deleting an absent key is a no-op. */
  function Delete<V>(s: ObjectStore<V>, key: Key): (r: ObjectStore<V>)
    requires Valid(s)
    ensures Valid(r) && r.autoIncrement == s.autoIncrement
    ensures Contents(r) == Contents(s) - {key}
  {
    var es := Remove(s.entries, key);
    forall j | 0 <= j < |es| && es[j].key.NumKey? && s.autoIncrement ensures es[j].key.n < s.current {
      KeyInKeySet(es, j);
      var i := KeySetIndex(s.entries, es[j].key);
    }
    ObjectStore(es, s.autoIncrement, s.current)
  }

  /** `store.clear()`: no records remain; the key generator is not reset. */
  function Clear<V>(s: ObjectStore<V>): (r: ObjectStore<V>)
    requires Valid(s)
    ensures Valid(r) && Contents(r) == map[]
    ensures r.autoIncrement == s.autoIncrement && r.current == s.current
  {
    ObjectStore([], s.autoIncrement, s.current)
  }

  /** `store.get(key)`: the record under `key`, or `undefined`. */
  function Get<V>(s: ObjectStore<V>, key: Key): (r: Option<V>)
    requires Valid(s)
    ensures r.Some? <==> key in Contents(s)
    ensures r.Some? ==> r.value == Contents(s)[key]
  {
    Find(s.entries, key)
  }

  function Find<V>(es: seq<Entry<V>>, key: Key): (r: Option<V>)
    ensures r.Some? <==> key in ToMap(es)
    ensures r.Some? ==> r.value == ToMap(es)[key]
    decreases |es|
  {
    if es == [] then None
    else if es[0].key == key then Some(es[0].value)
    else Find(es[1..], key)
  }

  /** `store.getAll()`: every record exactly once, in ascending key order. */
  function GetAll<V>(s: ObjectStore<V>): (r: seq<Entry<V>>)
    requires Valid(s)
    ensures Sorted(r)
    ensures forall i :: 0 <= i < |r| ==> r[i].key in Contents(s) && Contents(s)[r[i].key] == r[i].value
    ensures forall k :: k in Contents(s) ==> exists i :: 0 <= i < |r| && r[i].key == k
  {
    forall i | 0 <= i < |s.entries|
      ensures s.entries[i].key in Contents(s) && Contents(s)[s.entries[i].key] == s.entries[i].value
    {
      ToMapAt(s.entries, i);
    }
    forall k | k in Contents(s) ensures exists i :: 0 <= i < |s.entries| && s.entries[i].key == k {
      var i := KeySetIndex(s.entries, k);
    }
    s.entries
  }

  /** A sorted entry list has one entry per key. */
  lemma {:induction false} SortedKeyCount<V>(es: seq<Entry<V>>)
    requires Sorted(es)
    ensures |KeySet(es)| == |es|
    decreases |es|
  {
    if es != [] {
      SortedKeyCount(es[1..]);
      FirstBelowRest(es);
      KeyLtIrreflexive(es[0].key);
      KeySetCons(es);
    }
  }

  /** The records of an entry list, in its order. */
  function EntryValues<V>(es: seq<Entry<V>>): (r: seq<V>)
    ensures |r| == |es|
    ensures forall i :: 0 <= i < |es| ==> r[i] == es[i].value
  {
    seq(|es|, i requires 0 <= i < |es| => es[i].value)
  }

  /** `store.getAll()` of a store with an in-line key path: the records
      themselves, each stored record exactly once, in key order. */
  function GetAllValues<V(==)>(s: ObjectStore<V>): (r: seq<V>)
    requires Valid(s)
    ensures |r| == |Contents(s)|
    // one record per key, in the key order `GetAll` lists them
    ensures |r| == |GetAll(s)| && forall i :: 0 <= i < |r| ==> r[i] == Contents(s)[GetAll(s)[i].key]
    ensures forall i :: 0 <= i < |r| ==> r[i] in Contents(s).Values
    ensures forall k :: k in Contents(s) ==> Contents(s)[k] in r
  {
    var es := GetAll(s);
    var r := EntryValues(es);
    SortedKeyCount(s.entries);
    assert |Contents(s)| == |Contents(s).Keys| == |KeySet(s.entries)|;
    forall i | 0 <= i < |r| ensures r[i] in Contents(s).Values {
      assert Contents(s)[es[i].key] == r[i];
    }
    forall k | k in Contents(s) ensures Contents(s)[k] in r {
      var i :| 0 <= i < |es| && es[i].key == k;
      assert r[i] == Contents(s)[k];
    }
    r
  }

  /** Updating a union is updating its right operand. */
  lemma UnionUpdate<K, V>(m: map<K, V>, n: map<K, V>, k: K, v: V)
    ensures (m + n)[k := v] == m + n[k := v]
  {
  }

  /** Overwriting a key twice keeps the second value. */
  lemma OverwriteTwice<K, V>(m: map<K, V>, k: K, x: V, y: V)
    ensures m[k := x][k := y] == m[k := y]
  {
  }

  /** Two `put`s under the same key leave one entry, holding the later record. */
  lemma PutTwiceKeepsLatest<V>(s: ObjectStore<V>, key: Key, v1: V, v2: V)
    requires Valid(s)
    ensures Put(s, Some(key), v1).Ok?
    ensures var s1 := Put(s, Some(key), v1).value.store;
            && Put(s1, Some(key), v2).Ok?
            && Contents(Put(s1, Some(key), v2).value.store) == Contents(s)[key := v2]
            && |Put(s1, Some(key), v2).value.store.entries| == |s1.entries|
  {
    var s1 := Put(s, Some(key), v1).value.store;
    assert key in Contents(s1);
    var s2 := Put(s1, Some(key), v2).value.store;
    assert s2 == PutAt(s1, key, v2);
  }

  /** Re-inserting the entry a sorted list already holds changes nothing. */
  lemma {:induction false} InsertPresent<V>(es: seq<Entry<V>>, k: Key, v: V)
    requires Sorted(es) && k in ToMap(es) && ToMap(es)[k] == v
    ensures Insert(es, k, v) == es
    decreases |es|
  {
    if es[0].key == k {
      ToMapAt(es, 0);
      assert [Entry(k, v)] + es[1..] == es;
    } else if KeyLt(k, es[0].key) {
      BelowFirstIsAbsent(es, k);
    } else {
      assert ToMap(es[1..])[k] == v;
      InsertPresent(es[1..], k, v);
      assert [es[0]] + es[1..] == es;
    }
  }

  /** `put` of the same record under the same key twice is the same as once. */
  lemma PutIdempotent<V>(s: ObjectStore<V>, key: Key, v: V)
    requires Valid(s)
    ensures Put(s, Some(key), v).Ok?
    ensures var s1 := Put(s, Some(key), v).value.store;
            Put(s1, Some(key), v) == Put(s, Some(key), v)
  {
    var s1 := Put(s, Some(key), v).value.store;
    InsertPresent(s1.entries, key, v);
  }
}

=== FILE: strings.dfy ===
/** The JavaScript string operations the pages rely on: `includes`,
    `toLowerCase`, `trim`, `parseInt`, `String(n)` and `split(sep)[0]`. */
module Strings {

  import opened Common

  predicate IsPrefix(p: string, s: string)
  {
    |p| <= |s| && s[..|p|] == p
  }

  /** `t` occurs in `s` starting at index `i`. */
  predicate OccursAt(s: string, t: string, i: int)
  {
    0 <= i && i + |t| <= |s| && s[i..i + |t|] == t
  }

  /** `s.includes(t)`. */
  predicate Contains(s: string, t: string)
    decreases |s|
  {
    IsPrefix(t, s) || (s != [] && Contains(s[1..], t))
  }

  /** `includes` holds exactly when the needle occurs at some index. */
  lemma {:induction false} ContainsIffOccurs(s: string, t: string)
    ensures Contains(s, t) <==> exists i :: OccursAt(s, t, i)
    decreases |s|
  {
    if IsPrefix(t, s) {
      assert OccursAt(s, t, 0);
    } else if s != [] {
      ContainsIffOccurs(s[1..], t);
      if Contains(s[1..], t) {
        var j :| OccursAt(s[1..], t, j);
        assert s[1..][j..j + |t|] == s[j + 1..j + 1 + |t|];
        assert OccursAt(s, t, j + 1);
      }
      if exists i :: OccursAt(s, t, i) {
        var i :| OccursAt(s, t, i);
        assert i != 0;
        assert s[1..][i - 1..i - 1 + |t|] == s[i..i + |t|];
        assert OccursAt(s[1..], t, i - 1);
      }
    }
  }

  /** Every string includes the empty string. */
  lemma ContainsEmpty(s: string)
    ensures Contains(s, "")
  {
    assert IsPrefix("", s);
  }

  /** A single character is included exactly when it is an element. */
  lemma {:induction false} ContainsChar(s: string, c: char)
    ensures Contains(s, [c]) <==> c in s
    decreases |s|
  {
    if s != [] {
      ContainsChar(s[1..], c);
      assert c in s <==> s[0] == c || c in s[1..];
    }
  }

  /** `toLowerCase` on one character; only ASCII letters change (Arabic has no case). */
  function LowerChar(c: char): char
  {
    if 'A' <= c <= 'Z' then (c as int + 32) as char else c
  }

  /** `s.toLowerCase()`, restricted to ASCII case folding. */
  function Lower(s: string): (r: string)
    ensures |r| == |s|
    ensures forall i :: 0 <= i < |s| ==> r[i] == LowerChar(s[i])
  {
    seq(|s|, i requires 0 <= i < |s| => LowerChar(s[i]))
  }

  /** Folding twice is folding once. */
  lemma LowerIdempotent(s: string)
    ensures Lower(Lower(s)) == Lower(s)
  {
    forall i | 0 <= i < |s|
      ensures Lower(Lower(s))[i] == Lower(s)[i]
    {
      assert LowerChar(LowerChar(s[i])) == LowerChar(s[i]);
    }
  }

  /** The characters removed by `String.prototype.trim`: white space and line terminators. */
  predicate IsSpace(c: char)
  {
    c == ' ' || c == '\t' || c == '\n' || c == '\r' || c == '\U{000B}' || c == '\U{000C}'
    || c == '\U{00A0}' || c == '\U{FEFF}' || c == '\U{1680}' || ('\U{2000}' <= c <= '\U{200A}')
    || c == '\U{2028}' || c == '\U{2029}' || c == '\U{202F}' || c == '\U{205F}' || c == '\U{3000}'
  }

  predicate AllSpace(s: string)
  {
    forall i :: 0 <= i < |s| ==> IsSpace(s[i])
  }

  /** Drops leading white space: the result is a suffix of `s` that does not start with a space. */
  function TrimStart(s: string): (r: string)
    ensures |r| <= |s| && r == s[|s| - |r|..]
    ensures AllSpace(s[..|s| - |r|])
    ensures r == [] || !IsSpace(r[0])
    decreases |s|
  {
    if s != [] && IsSpace(s[0]) then
      var r := TrimStart(s[1..]);
      assert s[..|s| - |r|] == [s[0]] + s[1..][..|s| - 1 - |r|];
      r
    else s
  }

  /** Drops trailing white space: the result is a prefix of `s` that does not end with a space. */
  function TrimEnd(s: string): (r: string)
    ensures |r| <= |s| && r == s[..|r|]
    ensures AllSpace(s[|r|..])
    ensures r == [] || !IsSpace(r[|r| - 1])
    decreases |s|
  {
    if s != [] && IsSpace(s[|s| - 1]) then
      var r := TrimEnd(s[..|s| - 1]);
      assert s[|r|..] == s[..|s| - 1][|r|..] + [s[|s| - 1]];
      r
    else s
  }

  /** `s.trim()`. */
  function Trim(s: string): string
  {
    TrimEnd(TrimStart(s))
  }

  /** Dropping leading white space keeps every non-space character. */
  lemma TrimStartKeepsNonSpace(s: string, c: char)
    requires !IsSpace(c)
    ensures c in TrimStart(s) <==> c in s
  {
    var t := TrimStart(s);
    var pre := s[..|s| - |t|];
    assert s == pre + t;
    assert c !in pre;
  }

  /** Dropping trailing white space keeps every non-space character. */
  lemma TrimEndKeepsNonSpace(s: string, c: char)
    requires !IsSpace(c)
    ensures c in TrimEnd(s) <==> c in s
  {
    var r := TrimEnd(s);
    var post := s[|r|..];
    assert s == r + post;
    assert c !in post;
  }

  /** Trimming keeps every non-space character: a non-space occurs in `Trim(s)` iff it occurs in `s`. */
  lemma TrimKeepsNonSpace(s: string, c: char)
    requires !IsSpace(c)
    ensures c in Trim(s) <==> c in s
  {
    TrimStartKeepsNonSpace(s, c);
    TrimEndKeepsNonSpace(TrimStart(s), c);
  }

  predicate IsDigit(c: char)
  {
    '0' <= c <= '9'
  }

  predicate AllDigits(s: string)
  {
    forall i :: 0 <= i < |s| ==> IsDigit(s[i])
  }

  function DigitChar(d: nat): (c: char)
    requires d < 10
    ensures IsDigit(c)
  {
    ('0' as int + d) as char
  }

  function DigitValue(c: char): nat
    requires IsDigit(c)
  {
    c as int - '0' as int
  }

  /** `String(n)` for a non-negative integer: its decimal digits, without leading zeros. */
  function NatToString(n: nat): (r: string)
    ensures |r| >= 1 && AllDigits(r)
    decreases n
  {
    if n < 10 then [DigitChar(n)] else NatToString(n / 10) + [DigitChar(n % 10)]
  }

  /** The number a string of decimal digits denotes. */
  function DigitsValue(s: string): nat
    requires AllDigits(s)
    decreases |s|
  {
    if s == [] then 0 else DigitsValue(s[..|s| - 1]) * 10 + DigitValue(s[|s| - 1])
  }

  /** How many decimal digits `s` starts with. */
  function LeadingDigits(s: string): (k: nat)
    ensures k <= |s| && AllDigits(s[..k])
    ensures k < |s| ==> !IsDigit(s[k])
    decreases |s|
  {
    if s != [] && IsDigit(s[0]) then
      var k := LeadingDigits(s[1..]);
      assert s[..k + 1] == [s[0]] + s[1..][..k];
      k + 1
    else 0
  }

  /** `parseInt(s)` in base ten: leading white space, an optional sign, then the
      longest run of digits; anything after the digits is ignored. None is `NaN`. */
  function ParseInt(s: string): (r: Option<int>)
  {
    ParseSigned(TrimStart(s))
  }

  /** `parseInt` after the leading white space: an optional sign, then the
      longest run of digits. */
  function ParseSigned(t: string): (r: Option<int>)
  {
    var neg := t != [] && t[0] == '-';
    var u := Unsigned(t);
    var k := LeadingDigits(u);
    if k == 0 then None
    else
      var v: int := DigitsValue(u[..k]);
      Some(if neg then -v else v)
  }

  lemma {:induction false} NatToStringValue(n: nat)
    ensures DigitsValue(NatToString(n)) == n
    decreases n
  {
    var s := NatToString(n);
    if n >= 10 {
      NatToStringValue(n / 10);
      assert s[..|s| - 1] == NatToString(n / 10);
    }
  }

  /** `parseInt(String(n)) === n` for every non-negative integer. */
  lemma ParseIntOfNatToString(n: nat)
    ensures ParseInt(NatToString(n)) == Some(n)
  {
    var s := NatToString(n);
    assert TrimStart(s) == s;
    assert LeadingDigits(s) == |s| by {
      LeadingDigitsOfDigits(s);
    }
    assert s[..|s|] == s;
    NatToStringValue(n);
  }

  /** `parseInt("-" + String(n)) === -n`. */
  lemma ParseIntOfNegative(n: nat)
    ensures ParseInt("-" + NatToString(n)) == Some(-(n as int))
  {
    var s := NatToString(n);
    var t := "-" + s;
    assert TrimStart(t) == t;
    assert t[1..] == s;
    LeadingDigitsOfDigits(s);
    assert s[..|s|] == s;
    NatToStringValue(n);
  }

  lemma {:induction false} LeadingDigitsOfDigits(s: string)
    requires AllDigits(s)
    ensures LeadingDigits(s) == |s|
    decreases |s|
  {
    if s != [] {
      LeadingDigitsOfDigits(s[1..]);
    }
  }

  /** The digits of `x` are all `LeadingDigits` counts when what follows
      them does not start with a digit. */
  lemma {:induction false} LeadingDigitsStop(x: string, y: string)
    requires AllDigits(x) && (y == [] || !IsDigit(y[0]))
    ensures LeadingDigits(x + y) == |x|
    decreases |x|
  {
    if x != [] {
      assert (x + y)[1..] == x[1..] + y;
      LeadingDigitsStop(x[1..], y);
    }
  }

  /** `Number(s)` for text, as `>` and `<` coerce a text operand: white
      space around it is ignored, nothing left is `0`, and an optional sign
      followed by decimal digits is their value. Anything else is `NaN`
      (None). */
  function TextToNumber(s: string): (r: Option<int>)
    ensures Trim(s) == [] ==> r == Some(0)
    // stricter than parseInt: text that converts reads the same under parseInt
    ensures r.Some? && Trim(s) != [] ==> ParseInt(s) == r
  {
    var t := Trim(s);
    if t != [] && SignedValue(t).Some? then
      TextToNumberAgrees(s, t);
      SignedValue(t)
    else SignedValue(t)
  }

  /** `t` without a leading sign. */
  function Unsigned(t: string): string
  {
    if t != [] && (t[0] == '-' || t[0] == '+') then t[1..] else t
  }

  /** The value of trimmed text under `Number`: `0` when empty, a sign and
      digits as their value, otherwise `NaN`. */
  function SignedValue(t: string): (r: Option<int>)
  {
    if t == [] then Some(0)
    else
      var u := Unsigned(t);
      if u != [] && AllDigits(u) then
        var v: int := DigitsValue(u);
        Some(if t[0] == '-' then -v else v)
      else None
  }

  /** The step of `TextToNumber`'s second ensures: after the leading white
      space, `parseInt` reads the same sign and digits and then stops at the
      trailing white space. */
  lemma TextToNumberAgrees(s: string, t: string)
    requires t == Trim(s) && t != [] && SignedValue(t).Some?
    ensures ParseInt(s) == SignedValue(t)
  {
    var w := TrimStart(s);
    assert t == w[..|t|] && AllSpace(w[|t|..]);
    var rest := w[|t|..];
    assert w == t + rest;
    if rest != [] {
      assert IsSpace(rest[0]);
      SpaceIsNoDigit(rest[0]);
    }
    ParseSignedStops(t, rest);
  }

  lemma SpaceIsNoDigit(c: char)
    requires IsSpace(c)
    ensures !IsDigit(c)
  {
  }

  /** `parseInt`'s reading of a sign and digits stops at a following
      non-digit, with the value `Number` gives them. */
  lemma ParseSignedStops(t: string, rest: string)
    requires t != [] && SignedValue(t).Some? && (rest == [] || !IsDigit(rest[0]))
    ensures ParseSigned(t + rest) == SignedValue(t)
  {
    var u := Unsigned(t);
    assert u != [] && AllDigits(u);
    UnsignedAppend(t, rest);
    LeadingDigitsStop(u, rest);
    assert (u + rest)[..|u|] == u;
  }

  lemma UnsignedAppend(t: string, rest: string)
    requires t != []
    ensures (t + rest)[0] == t[0]
    ensures Unsigned(t + rest) == Unsigned(t) + rest
  {
    if t[0] == '-' || t[0] == '+' {
      assert (t + rest)[1..] == t[1..] + rest;
    }
  }

  /** `Number(String(n)) === n`. */
  lemma TextToNumberOfNatToString(n: nat)
    ensures TextToNumber(NatToString(n)) == Some(n)
  {
    var s := NatToString(n);
    TrimDigits(s);
    DigitsNumber(s, s);
    NatToStringValue(n);
  }

  /** White space around a number's digits does not change what `Number` reads. */
  lemma TextToNumberPadded(n: nat, pad: string)
    requires AllSpace(pad)
    ensures TextToNumber(pad + NatToString(n) + pad) == Some(n)
  {
    var s := NatToString(n);
    assert IsDigit(s[0]) && IsDigit(s[|s| - 1]);
    TrimPadded(s, pad);
    DigitsNumber(pad + s + pad, s);
    NatToStringValue(n);
  }

  /** A word of digits has no white space to trim. */
  lemma TrimDigits(s: string)
    requires s != [] && AllDigits(s)
    ensures Trim(s) == s
  {
    assert IsDigit(s[0]) && IsDigit(s[|s| - 1]);
    TrimPadded(s, []);
    assert [] + s + [] == s;
  }

  /** `Number` of text depends only on the text with its white space trimmed. */
  lemma SameTrimSameNumber(x: string, y: string)
    requires Trim(x) == Trim(y)
    ensures TextToNumber(x) == TextToNumber(y)
  {
  }

  /** Text whose trimmed form is digits converts to their value. */
  lemma DigitsNumber(x: string, t: string)
    requires t == Trim(x) && t != [] && AllDigits(t)
    ensures TextToNumber(x) == Some(DigitsValue(t))
  {
    assert IsDigit(t[0]);
    assert Unsigned(t) == t;
  }

  /** Trimming white space off both ends of a word that neither starts nor
      ends with white space gives the word back. */
  lemma TrimPadded(s: string, pad: string)
    requires AllSpace(pad) && s != [] && !IsSpace(s[0]) && !IsSpace(s[|s| - 1])
    ensures Trim(pad + s + pad) == s
  {
    TrimStartPadded(s + pad, pad);
    assert pad + s + pad == pad + (s + pad);
    TrimEndPadded(s, pad);
  }

  lemma {:induction false} TrimStartPadded(s: string, pad: string)
    requires AllSpace(pad) && (s == [] || !IsSpace(s[0]))
    ensures TrimStart(pad + s) == s
    decreases |pad|
  {
    if pad != [] {
      assert (pad + s)[1..] == pad[1..] + s;
      TrimStartPadded(s, pad[1..]);
    }
  }

  lemma {:induction false} TrimEndPadded(s: string, pad: string)
    requires AllSpace(pad) && (s == [] || !IsSpace(s[|s| - 1]))
    ensures TrimEnd(s + pad) == s
    decreases |pad|
  {
    if pad != [] {
      assert (s + pad)[..|s + pad| - 1] == s + pad[..|pad| - 1];
      TrimEndPadded(s, pad[..|pad| - 1]);
    }
  }

  /** `s.split(sep)[0]`: the part of `s` before the first occurrence of `sep`,
      or all of `s` when `sep` does not occur. */
  function SplitHead(s: string, sep: string): (r: string)
    requires sep != []
    ensures IsPrefix(r, s)
    ensures r == s || OccursAt(s, sep, |r|)
    ensures forall i :: 0 <= i < |r| ==> !OccursAt(s, sep, i)
    decreases |s|
  {
    if IsPrefix(sep, s) then
      assert OccursAt(s, sep, 0);
      []
    else if s == [] then []
    else
      var r := SplitHead(s[1..], sep);
      var res := [s[0]] + r;
      forall i | 0 < i <= |r|
        ensures OccursAt(s, sep, i) <==> OccursAt(s[1..], sep, i - 1)
      {
        if i + |sep| <= |s| {
          assert s[1..][i - 1..i - 1 + |sep|] == s[i..i + |sep|];
        }
      }
      assert !OccursAt(s, sep, 0);
      assert s[..|res|] == [s[0]] + s[1..][..|r|];
      assert r == s[1..] ==> res == s;
      res
  }

  /** The separator used to suffix an amount onto an aid type. */
  const TypeSeparator: string := " - "

  /** Splitting `p + " - " + x` at the first `" - "` gives back `p`, provided
      `p` has no dash (true of every fixed aid-type label). */
  lemma SplitHeadOfSuffixed(p: string, x: string)
    requires '-' !in p
    ensures SplitHead(p + TypeSeparator + x, TypeSeparator) == p
  {
    var s := p + TypeSeparator + x;
    var r := SplitHead(s, TypeSeparator);
    assert s[|p|..|p| + 3] == TypeSeparator;
    assert OccursAt(s, TypeSeparator, |p|);
    forall i | 0 <= i < |p|
      ensures !OccursAt(s, TypeSeparator, i)
    {
      SeparatorDashAt(s, i);
      if i + 1 < |p| {
        assert s[i + 1] == p[i + 1];
      } else {
        assert s[i + 1] == ' ';
      }
    }
    assert |r| == |p|;
    assert r == s[..|p|] == p;
  }

  /** Where the separator occurs, its middle character is a dash. */
  lemma SeparatorDashAt(s: string, i: int)
    ensures OccursAt(s, TypeSeparator, i) ==> s[i + 1] == '-'
  {
    if OccursAt(s, TypeSeparator, i) {
      assert s[i + 1] == s[i..i + 3][1];
    }
  }

  /** A string in which the separator occurs contains a dash. */
  lemma SeparatorHasDash(s: string)
    ensures forall i :: OccursAt(s, TypeSeparator, i) ==> '-' in s
  {
    forall i | OccursAt(s, TypeSeparator, i)
      ensures '-' in s
    {
      SeparatorDashAt(s, i);
    }
  }

  /** A string without a dash splits back to itself. */
  lemma SplitHeadUnsuffixed(s: string)
    requires '-' !in s
    ensures SplitHead(s, TypeSeparator) == s
  {
    SeparatorHasDash(s);
  }
}
